=== FILE: README.md ===
# MacroMatch core in Dafny

MacroMatch matches a user's macro targets (grams of protein, carbs and fats) against
food. It has two meal generators, both built on the javascript-lp-solver library. The
forward one, `solveMeal`, works from the user's pantry. The reverse one,
`solveFromAllIngredients`, works from the whole ingredient catalog and then compares the
plan with the pantry to produce a shopping list. This project models, as pure functions:

- how both linear-programming models are built (`Lp`, `MacroSolver`, `SolverController`);
- the post-processing of the solver's answer into a gram plan with nutrient totals;
- the pantry shortfall diff;
- the request handlers for meals, recipes, ingredients and pantry items
  (`SolverController`, `RecipeController`, `IngredientController`, `PantryController`);
- the page logic that feeds those handlers:
  - the target form and the meal-selection/consume flow (`GeneratorPage`, `Generator`,
    `MealSelection`);
  - recipe cooking, renaming and deleting (`RecipesPage`);
  - the meal history (`History`);
  - the ingredient form (`CreateIngredientPage`);
  - the pantry breakdown chart (`Analytics`);
  - the navigation highlight (`AppShell`).

JavaScript values are modelled explicitly:
- `Js.Json` is a request-body field: undefined, null, a number, or a string carrying the
  number `Number()` gives for it.
- `Js.Num` is a number that may be NaN.
- `JsObject.Obj` is a plain object: its own keys in insertion order, plus their values. JavaScript lists integer-like keys first, and `__proto__` is not an own key; the model does not (see "Left out").

The LP library is a parameter `lp: Model -> SolverOutput`. Only a `Sound` answer is
assumed: a feasible answer is a feasible point of the model. The jitter that
`Math.random()` adds to the reverse model's costs is also a parameter, as a sequence of
draws in [0, 1). Database reads and writes become sequences that are passed in and
returned.

Some behaviours of the code are easy to miss. The model follows the code on each of these points, and it models the forward handler both as written and as evidently intended:
- The forward route rejects a target of 0. Its guard tests truthiness, not presence. The
  reverse handler accepts 0.
- `generateMeal` calls `solveMultipleMeals`, but `macroSolver.js` only exports
  `solveMeal`. As written, every request past the two guards therefore throws and is
  answered 500 (`SolverController.GenerateMealAsWritten`). `SolverController.GenerateMeal`
  takes the intended multi-plan search as a parameter instead (see "Findings").
- The Ingredient schema has no `category` field. So every pantry item lands in the dashboard's
  "Other" slice, the case `Analytics.UncategorisedIsOther` shows.
- A pantry variable's record writes the variable's own name last. An ingredient named
  like a constraint ("protein") therefore replaces that band with its own capacity
  (`MacroSolver.ProteinNamedIngredient`).

## Model

| member | source | states |
|---|---|---|
| Lp.MacroModel | backend/utils/macroSolver.js:4-13 | the model minimises "cost", has the three macro constraints in order, each a band of target ± 5, no calorie constraint, and no variables |
| Lp.AddAllLookup | backend/utils/macroSolver.js:15-32 | after the per-item loop a name has a variable exactly when it has a constraint, and both come from the last item with that name; other constraints are untouched |
| Lp.AddAllLast | backend/utils/macroSolver.js:23-32 | an item that no later item shares a name with decides that name's record and its `{ max }` capacity |
| Lp.AddAllVariable | backend/utils/macroSolver.js:23-31 | every variable in the finished model is the record of some item of that name |
| Lp.AddAllSameCap | backend/controllers/solverController.js:28 | when every variable gets the same capacity, every variable's name carries that capacity |
| Lp.RowOfOwnName | backend/utils/macroSolver.js:30 | a constraint whose only coefficient is the 1 in its own variable's record measures exactly that variable's value |
| Lp.CapacityRespected | backend/utils/macroSolver.js:32 | at a feasible point, an ingredient with a `{ max }` constraint is used between 0 and that maximum |
| Lp.BandRespected | backend/utils/macroSolver.js:8-10 | at a feasible point, a macro total stays within target ± 5 |
| MacroSolver.MealRecord | backend/utils/macroSolver.js:23-30 | a pantry variable's record: 1 under the ingredient's own name, which comes last in the literal and so overrides an attribute of the same name; every other key as the five attributes give it |
| MacroSolver.Attributes | backend/utils/macroSolver.js:16-28 | the five attributes: per-gram protein, carbs, fats and calories (the value per 100 g divided by 100), a cost of 1, and no other key |
| MacroSolver.MealCapacityFacts | backend/utils/macroSolver.js:23-32 | the item listed last under a non-attribute name has the cap of its quantity and a 1 in its own row, and every other variable a 0 there |
| MacroSolver.Stocked | backend/utils/macroSolver.js:15 | only pantry items whose ingredient is populated take part, each as it appears in the pantry |
| MacroSolver.Specs | backend/utils/macroSolver.js:21-32 | one variable per stocked item: its ingredient's name, its record, and the item's quantity as capacity |
| MacroSolver.MissingIngredientIgnored | backend/utils/macroSolver.js:15 | a pantry item without an ingredient changes nothing in the model |
| MacroSolver.MealConstraints | backend/utils/macroSolver.js:4-13 | the forward model minimises cost and keeps each macro band unless an ingredient carries the macro's name; it has no calorie constraint |
| MacroSolver.MacroConstraintKept | backend/utils/macroSolver.js:4-32 | a name no pantry ingredient carries keeps the constraint the base model gives it |
| MacroSolver.MealItemLookup | backend/utils/macroSolver.js:23-32 | the last pantry item with a name decides that name's variable and capacity |
| MacroSolver.MealVariable | backend/utils/macroSolver.js:23-31 | every variable of the forward model is the record of an ingredient of that name |
| MacroSolver.MealCostIsOne | backend/utils/macroSolver.js:28 | every variable costs 1, so the objective is the total grams |
| MacroSolver.OnlyOwnVariable | backend/utils/macroSolver.js:23-31 | a name that is not an attribute has a nonzero coefficient only in its own variable's record |
| MacroSolver.MealWithinPantry | backend/utils/macroSolver.js:32-36 | a feasible answer never uses more of an ingredient than the pantry holds, and never a negative amount |
| MacroSolver.MealWithinBands | backend/utils/macroSolver.js:4-13 | a feasible answer meets every macro band when no ingredient is named like a macro |
| MacroSolver.ProteinNamedIngredient | backend/utils/macroSolver.js:32 | an ingredient named "protein" overwrites the protein band with its own capacity |
| MacroSolver.StockedAppend | backend/utils/macroSolver.js:14-15 | the items are processed one after another: the stocked items of a concatenation are the two parts' stocked items |
| SolverController.ReverseRecord | backend/controllers/solverController.js:21-27 | a catalog variable's record: 1 under the ingredient's own name, which comes last in the literal and so overrides an attribute of the same name; every other key as the four attributes give it |
| SolverController.ReverseAttributesOf | backend/controllers/solverController.js:20-25 | the four attributes: protein, carbs and fats per gram of the serving size, the jittered cost, and no other key (no calories) |
| SolverController.ReverseSpecs | backend/controllers/solverController.js:18-29 | one variable per catalog ingredient, in order, with a cost of 0.5 plus its draw and the shared capacity |
| SolverController.ReverseConstraints | backend/controllers/solverController.js:6-16 | the reverse model minimises cost and keeps the three macro bands unless an ingredient is named like a macro |
| SolverController.ReverseCapacities | backend/controllers/solverController.js:28 | every catalog ingredient's constraint is `{ max: maxPerIngredient }` |
| SolverController.ReverseVariable | backend/controllers/solverController.js:18-27 | the last catalog ingredient with a name decides that name's record |
| SolverController.ReverseCosts | backend/controllers/solverController.js:25 | every variable's cost is in [0.5, 1.5) |
| SolverController.ReverseVariableRecord | backend/controllers/solverController.js:18-27 | every variable of the reverse model is the record of a catalog ingredient of that name, built with that ingredient's own draw in [0, 1) |
| SolverController.CostInRange | backend/controllers/solverController.js:25 | a draw in [0, 1) gives a cost of `0.5 + draw`, so in [0.5, 1.5) |
| SolverController.ReverseOnlyOwnVariable | backend/controllers/solverController.js:21-27 | a name that is not an attribute has a nonzero coefficient only in its own variable's record |
| SolverController.Grams | backend/controllers/solverController.js:38 | `Math.max(0, Math.round(v))` is non-negative, positive exactly when v is at least one half, and then within half a gram of v |
| SolverController.PlanEntries | backend/controllers/solverController.js:35-40 | the plan lines are exactly the result keys that are not bookkeeping keys and round to a positive number of grams |
| SolverController.ExtractPlanMembers | backend/controllers/solverController.js:35-40 | a key is in the plan exactly when the result has it, it is not `feasible`/`result`/`bounded`, and it rounds to a positive number of grams; its value is that rounding |
| SolverController.PlanEntriesCover | backend/controllers/solverController.js:35-40 | every result key that is not a bookkeeping key and rounds to a positive gram count gets a plan line |
| SolverController.PlanTotals | backend/controllers/solverController.js:44-55 | the accumulated totals equal the sum of the portions of the plan's catalog ingredients |
| SolverController.SolveFromAllIngredients | backend/controllers/solverController.js:31-57 | no solution exactly when the answer is infeasible or the plan is empty; otherwise the plan is the one extracted from the solver's answer, it is non-empty, and its totals are its reference sum |
| SolverController.PlanWithinCapacity | backend/controllers/solverController.js:28-40 | with a sound library and a whole-gram capacity, every planned catalog ingredient gets between 1 gram and the capacity |
| SolverController.ReverseCapacityFacts | backend/controllers/solverController.js:18-28 | the catalog ingredient listed last under a non-attribute name has the `{ max }` cap, a 1 in its own row, and every other variable a 0 there |
| SolverController.PlannedWithinCap | backend/controllers/solverController.js:28-40 | at a feasible point, an ingredient with a whole-gram `{ max }` cap and a 1 in its own row is planned, if at all, at a positive whole amount within the cap |
| SolverController.GenerateMealAsWritten | backend/controllers/solverController.js:3-92 | as written, a non-truthy target is refused, then an empty pantry, and every other request fails with the TypeError of the undefined `solveMultipleMeals` |
| SolverController.SearchMissingAlwaysFails | backend/controllers/solverController.js:3-92 | for truthy targets and a stocked pantry the handler as written fails, whatever plans a search would find, while the intended handler answers those plans |
| SolverController.GenerateMeal | backend/controllers/solverController.js:60-92 | a non-truthy target is refused first, then an empty pantry, then an empty result of the multi-plan search for three plans; the request succeeds exactly when none of these applies, with that search's plans |
| SolverController.Usage | backend/controllers/solverController.js:131-136 | a usage row takes the smaller of need and stock from the pantry and the non-negative rest as shortfall; the two add up to the need when stock is non-negative |
| SolverController.Diff | backend/controllers/solverController.js:128-138 | one usage row per plan entry, in plan order, against the pantry's quantity for that name (0 when absent) |
| SolverController.PantryMap | backend/controllers/solverController.js:120-126 | the quantity map never holds the empty name |
| SolverController.PantryMapEntries | backend/controllers/solverController.js:120-126 | the quantity map's names are exactly the non-empty names of populated pantry ingredients, and the last item with a name gives it its quantity |
| SolverController.ShoppingListIsShortRows | backend/controllers/solverController.js:128-138 | the shopping list is exactly the usage rows with a shortfall, in plan order, each for its shortfall |
| SolverController.UsageAddsUp | backend/controllers/solverController.js:131-136 | with non-negative pantry quantities, from-pantry plus shortfall is the planned amount for every row |
| SolverController.ChickenExample | backend/controllers/solverController.js:128-138 | 150 g planned against 60 g held gives a row of 60 from the pantry and 90 g to buy |
| SolverController.Achieved | backend/controllers/solverController.js:145-150 | each reported total is within 0.05 of the exact total, the rounding of `toFixed(1)` |
| SolverController.GenerateReverseMeal | backend/controllers/solverController.js:94-159 | a null or missing target is refused first, then an empty catalog, then an unsolvable model; the request succeeds exactly when none of these applies, and a success carries the plan, the targets, the rounded totals and the pantry diff |
| SolverController.ZeroTarget | backend/controllers/solverController.js:63-65 | a target of 0 is refused by the forward handler and not by the reverse one, which tests with `== null` at lines 97-99 |
| Nutrition.Portion | backend/controllers/solverController.js:50-54 | one serving size of an ingredient gives its listed nutrients, and 0 grams gives none |
| Nutrition.AddUp | backend/controllers/recipeController.js:36-39 | the running `totals.x += ...` loop ends at the start value plus the sum of the portions |
| Nutrition.Accumulate | backend/controllers/solverController.js:45-55 | accumulating over plan entries adds the portions of exactly the entries whose name the lookup knows |
| Nutrition.ByName | backend/controllers/solverController.js:44 | every catalog name is a key of the lookup, and each key maps to a catalog ingredient of that name |
| Nutrition.UnknownNamesAddNothing | backend/controllers/solverController.js:48-49 | entries whose name the lookup lacks contribute no serving |
| Nutrition.AllUnknownIsZero | backend/controllers/solverController.js:44-55 | a plan naming no known ingredient totals zero |
| Nutrition.TwoHundredGrams | backend/controllers/solverController.js:50-54 | 200 g of a 125 kcal, 20/0/5 g per 100 g ingredient gives 250 kcal and 40/0/10 g |
| RecipeController.Find | backend/controllers/recipeController.js:16-20 | the lookup by exact name finds a catalog ingredient with that name, and finds nothing exactly when no ingredient has it |
| RecipeController.Lookup | backend/controllers/recipeController.js:15-40 | the lookup succeeds exactly when every name is in the catalog, with one serving per entry in order; otherwise it names the first missing ingredient |
| RecipeController.CreateRecipe | backend/controllers/recipeController.js:4-54 | a missing name, a missing object or an empty object is refused; the request succeeds exactly when every key names a catalog ingredient, and otherwise reports the first missing name; a success stores one line per key, in key order, with the totals summed from the catalog |
| RecipeController.Owned | backend/controllers/recipeController.js:67 | finds the first recipe with this id owned by this user, and nothing exactly when no such recipe exists |
| RecipeController.DeleteRecipe | backend/controllers/recipeController.js:65-77 | a recipe nobody matching id and user owns is not found; otherwise exactly that recipe is removed and the rest keep their order |
| RecipeController.UpdateRecipeName | backend/controllers/recipeController.js:79-101 | a missing or blank name is refused, then an unowned recipe; the request succeeds exactly when neither applies, and a success renames only that recipe to the trimmed name |
| RecipeController.RenamedIsTrimmed | backend/controllers/recipeController.js:82-89 | a stored new name is non-empty and already trimmed |
| RecipeController.ChickenAndRiceLookup | backend/controllers/recipeController.js:15-20 | looking up chicken and rice in a catalog holding both finds each, in the order given |
| RecipeController.ChickenAndRiceTotals | backend/controllers/recipeController.js:22-39 | 200 g of chicken and 150 g of rice total 525 kcal and 66.05/42/7.65 g |
| IngredientController.ServingOrDefault | backend/controllers/ingredientController.js:21 | a falsy serving size becomes 100, a truthy one is kept |
| IngredientController.Rescale | backend/controllers/ingredientController.js:25-29 | scaled calories are whole and within half a unit; scaled macros are whole tenths within 0.05 |
| IngredientController.Normalise | backend/controllers/ingredientController.js:21-31 | a 100 g serving is stored as given; any other serving is scaled to 100 g |
| IngredientController.CreateIngredient | backend/controllers/ingredientController.js:12-51 | a missing field is refused first, then a name already taken ignoring case; a success stores the normalised nutrients per 100 g under the next id |
| IngredientController.AfterCreate | backend/controllers/ingredientController.js:39-45 | a refusal leaves the catalog unchanged; a success appends exactly the new ingredient |
| IngredientController.CreatePreservesCatalog | backend/models/Ingredient.js:4 | creating keeps the catalog's names distinct ignoring case and every serving size positive |
| IngredientController.CaseVariantRefused | backend/controllers/ingredientController.js:34-41 | a name differing from a catalog name only in letter case is refused |
| IngredientController.PerServingExample | backend/controllers/ingredientController.js:21-31 | 165 kcal and 31/0/3.6 g per 150 g are stored as 110 kcal and 20.7/0/2.4 g per 100 g |
| IngredientController.ZeroIsAccepted | backend/controllers/ingredientController.js:16-21 | zero nutrients are values, not missing fields, and a 0 serving size means 100 |
| PantryController.PostPantryItem | backend/controllers/pantryController.js:13-44 | a missing ingredient or quantity is refused, then an ingredient already held, then a negative quantity; the request succeeds exactly when none of these applies, and a success appends exactly the new item |
| PantryController.Position | backend/controllers/pantryController.js:56-57 | finds an item with this id owned by this user, and nothing exactly when there is none |
| PantryController.UpdatePantryItem | backend/controllers/pantryController.js:46-70 | a missing or negative quantity is invalid, then an unowned item is not found; the request succeeds exactly when the quantity is valid and the user owns the item, and a success changes only that item's quantity |
| PantryController.DeletePantryItem | backend/controllers/pantryController.js:72-86 | an unowned item is not found; otherwise exactly that item goes and the rest keep their order |
| PantryController.PostKeepsConsistent | backend/models/PantryItem.js:6-10 | with a fresh id, adding keeps ids distinct, one item per user and ingredient, and no negative quantity |
| PantryController.UpdateKeepsConsistent | backend/models/PantryItem.js:6-10 | changing a quantity keeps the store consistent |
| PantryController.DeleteKeepsConsistent | backend/models/PantryItem.js:6-10 | removing an item keeps the store consistent |
| PantryController.SecondPostRefused | backend/controllers/pantryController.js:22-29 | after a successful add of an ingredient, adding it again is refused |
| MealSelection.Toggle | frontend/src/pages/GeneratorPage.jsx:121-127 | toggling flips the index's membership, leaves every other index's membership alone and keeps the selection free of repeats |
| MealSelection.ToggleTwice | frontend/src/pages/GeneratorPage.jsx:121-127 | toggling an unselected index twice restores the selection exactly |
| MealSelection.ToggleTwiceMembership | frontend/src/pages/GeneratorPage.jsx:121-127 | toggling a selected index twice restores membership |
| MealSelection.AddPlanGet | frontend/src/pages/GeneratorPage.jsx:148-154 | after one plan's entries a key holds its old value (0 when absent) plus that key's amounts |
| MealSelection.AddWholePlan | frontend/src/pages/GeneratorPage.jsx:148-154 | after a whole plan a key is present exactly when it was before or the plan has it, and its amount is the old one plus the plan's |
| MealSelection.InAnyStep | frontend/src/pages/GeneratorPage.jsx:144-155 | some selected plan has a key exactly when one of the earlier selections does or the last one does |
| MealSelection.ConsumeGet | frontend/src/pages/GeneratorPage.jsx:144-155 | after the selected plans a key is present exactly when some selected plan has it, and holds the sum of their amounts |
| MealSelection.Aggregate | frontend/src/pages/GeneratorPage.jsx:144-155 | the aggregated object has each ingredient of a selected plan with its total over the selection, and no other key |
| MealSelection.ConsumeRequest | frontend/src/pages/Generator.jsx:73-90 | the request succeeds exactly when every selected index names a plan; otherwise the page reports "Failed to consume meals" |
| MealSelection.SinglePlanTotal | frontend/src/pages/GeneratorPage.jsx:144-155 | a selection of one plan totals that plan's own amounts |
| MealSelection.TwoPlans | frontend/src/pages/GeneratorPage.jsx:144-155 | {A: 100, B: 50} and {A: 30} selected together give {A: 130, B: 50} |
| MealSelection.PairTotal | frontend/src/pages/GeneratorPage.jsx:144-155 | two selected plans give a key exactly when either has it, with the sum of their amounts |
| GeneratorPage.FieldError | frontend/src/pages/GeneratorPage.jsx:38-42 | an empty field is required, a number at most 0 must be greater than 0, and anything else passes, NaN included (which the `type="number"` inputs never hold) |
| GeneratorPage.Validate | frontend/src/pages/GeneratorPage.jsx:36-54 | the error object has an error for exactly the failing targets, with their messages, and is empty exactly when all three pass |
| GeneratorPage.OnChange | frontend/src/pages/GeneratorPage.jsx:27-32 | an edit sets that field, blanks that field's error only if it had one, and leaves every other error and the plans alone |
| GeneratorPage.OnSubmit | frontend/src/pages/GeneratorPage.jsx:34-76 | the request is sent exactly when all targets pass; a blocked submit shows the new errors, a sent one clears errors, plans and selection (`reverseResult` and `activeTab` are not modelled) |
| GeneratorPage.OnSubmitReverse | frontend/src/pages/GeneratorPage.jsx:78-119 | the same validation; when a reverse request is sent, the errors are the only part of the modelled state that changes (`reverseResult` and `activeTab` are not modelled) |
| GeneratorPage.InitialForm | frontend/src/pages/GeneratorPage.jsx:12 | the form starts with empty targets and a savory flavour profile |
| GeneratorPage.EmptyTargetsBlocked | frontend/src/pages/GeneratorPage.jsx:38-59 | submitting empty targets sends nothing and shows a required error for each |
| GeneratorPage.OnPlans | frontend/src/pages/GeneratorPage.jsx:70 | the plans shown are the ones received |
| GeneratorPage.OnToggle | frontend/src/pages/GeneratorPage.jsx:121-127 | the selection is toggled and nothing else changes |
| GeneratorPage.SelectionStaysShown | frontend/src/pages/GeneratorPage.jsx:61-70 | every handler keeps the selection pointing at plans on screen |
| GeneratorPage.HandleConsume | frontend/src/pages/GeneratorPage.jsx:129-139 | nothing happens without a selection; otherwise the consume runs at once exactly when the user opted out of the dialog |
| GeneratorPage.ExecuteConsume | frontend/src/pages/GeneratorPage.jsx:141-165 | a selection of plans on screen sends the aggregate of the selected plans; otherwise the page reports the error |
| GeneratorPage.ZeroBlocksButTextPasses | frontend/src/pages/GeneratorPage.jsx:38-54 | a "0" target is refused; if the validation ran on text that is not a number, which the `type="number"` inputs prevent, that text would pass |
| GeneratorPage.EditClearsOnlyThatError | frontend/src/pages/GeneratorPage.jsx:27-32 | editing one target blanks its error and keeps the others |
| Generator.HandleConsume | frontend/src/pages/Generator.jsx:66-94 | nothing is sent without a selection or without confirmation; a confirmed valid selection sends its aggregate |
| Generator.OnePlanSendsItself | frontend/src/pages/Generator.jsx:58-84 | selecting one plan and confirming sends exactly that plan's amounts |
| RecipesPage.CookPayload | frontend/src/pages/Recipes.jsx:47-50 | the cook request's keys are exactly the recipe's line names, and the last line with a name gives its amount |
| RecipesPage.CookReturnsCreatedIngredients | frontend/src/pages/Recipes.jsx:41-52 | cooking a recipe that `createRecipe` made from an ingredients object sends that same object back |
| RecipesPage.WithoutRecipe | frontend/src/pages/Recipes.jsx:34 | the list after a delete holds exactly the recipes with another id |
| RecipesPage.DeleteMirrorsServer | frontend/src/pages/Recipes.jsx:30-39 | with distinct ids, the page's list after a delete is the store `deleteRecipe` leaves |
| Js.FilterSplice | frontend/src/pages/Recipes.jsx:34 | filtering out exactly one element removes it and keeps the rest in order |
| RecipesPage.SaveEditingName | frontend/src/pages/Recipes.jsx:72-79 | a white-space-only edit is refused; otherwise the sent name is `Trim` of the edited text, non-empty and already trimmed |
| RecipesPage.SentNameStoredAsIs | frontend/src/pages/Recipes.jsx:73-80 | the name the page sends is stored unchanged by the server's own trim |
| RecipesPage.ReplaceRecipe | frontend/src/pages/Recipes.jsx:80 | the renamed recipe replaces each recipe with that id and nothing else changes |
| RecipesPage.RenameMirrorsServer | frontend/src/pages/Recipes.jsx:79-80 | with distinct ids, replacing the recipe with the server's renamed one gives the store `updateRecipeName` leaves |
| History.HandleDeleteLog | frontend/src/pages/History.jsx:32-40 | the log is deleted at once exactly when the user opted out of the dialog; otherwise the dialog remembers the id |
| History.ChooseLogId | frontend/src/pages/History.jsx:43 | the id passed wins, else the remembered log's id |
| History.BothPathsDeleteClicked | frontend/src/pages/History.jsx:32-46 | both paths delete the log that was clicked |
| History.WithoutLog | frontend/src/pages/History.jsx:46 | the history after a delete holds exactly the logs with another id |
| History.WithoutLogRemovesOne | frontend/src/pages/History.jsx:46 | with distinct ids, removing a log removes it at its position and keeps the rest in order |
| History.ExecuteSaveRecipe | frontend/src/pages/History.jsx:58-71 | nothing is sent without a name or a log; otherwise the keys are exactly the logged names and the last item with a name gives its amount |
| History.EmptyLogRefused | frontend/src/pages/History.jsx:63-73 | saving a log with no items sends an empty object, which `createRecipe` refuses |
| History.SavedLogCooksAsLogged | frontend/src/pages/History.jsx:63-71 | saving a log and cooking the saved recipe asks for each logged name's last amount again |
| Analytics.CategoryOf | frontend/src/pages/AnalyticsDashboard.jsx:90 | a missing or empty category becomes "other" |
| Analytics.QuantityOf | frontend/src/pages/AnalyticsDashboard.jsx:91 | a missing quantity counts 0 |
| Analytics.AddItem | frontend/src/pages/AnalyticsDashboard.jsx:92-93 | one item adds its quantity to its category only, and the sum of all categories grows by that quantity |
| Analytics.TotalsGet | frontend/src/pages/AnalyticsDashboard.jsx:89-94 | a category has a total exactly when some item is in it, and that total is the sum of its items' quantities |
| Analytics.TotalsSum | frontend/src/pages/AnalyticsDashboard.jsx:89-94 | the category totals add up to the grand total |
| Analytics.CategoryLabel | frontend/src/pages/AnalyticsDashboard.jsx:19-28 | "other" is labelled "Other" |
| Analytics.BuildInventoryBreakdown | frontend/src/pages/AnalyticsDashboard.jsx:85-102 | one slice per key of the category totals, in the totals' key order, with distinct keys, exactly the categories present, each with its total, label and percentage |
| Analytics.SlicesSum | frontend/src/pages/AnalyticsDashboard.jsx:96-101 | the slices' values add up to the grand total |
| Analytics.SetValueSum | frontend/src/pages/AnalyticsDashboard.jsx:92-93 | assigning a value to a key changes the sum of the object's values by the new value minus the old one (0 for a new key) |
| Analytics.CategoryWithinTotal | frontend/src/pages/AnalyticsDashboard.jsx:89-94 | with non-negative quantities, each category total is between 0 and the grand total |
| Analytics.PercentBounds | frontend/src/pages/AnalyticsDashboard.jsx:100 | with non-negative quantities, every slice's percentage is between 0 and 100 |
| Analytics.UncategorisedIsOther | frontend/src/pages/AnalyticsDashboard.jsx:90-100 | items without a category make a single "Other" slice of 100% |
| CreateIngredientPage.Payload | frontend/src/pages/CreateIngredient.jsx:31-38 | each field is sent as `Number()` of its text, NaN as null; the serving size never makes the server divide by zero |
| CreateIngredientPage.HandleSubmit | frontend/src/pages/CreateIngredient.jsx:16-38 | nothing is sent exactly when the calorie warning shows and the user declines |
| CreateIngredientPage.WarningThreshold | frontend/src/pages/CreateIngredient.jsx:21-24 | calories matching 4/4/9 per gram never warn; 50% too many always warn |
| CreateIngredientPage.NaNFieldRefused | frontend/src/pages/CreateIngredient.jsx:33-36 | if `handleSubmit` ran with a nutrient that is not a number (the browser's `type="number"` check normally stops this), it would reach the server as null and be refused as missing |
| CreateIngredientPage.PerHundredStoredAsEntered | frontend/src/pages/CreateIngredient.jsx:31-38 | a complete form with a 100 g serving is stored as entered |
| CreateIngredientPage.InitialFormRefused | frontend/src/pages/CreateIngredient.jsx:8-9 | if `handleSubmit` ran on the untouched form (the browser's `required` check normally stops this), it would send an empty name, which the server refuses |
| AppShell.FindLink | frontend/src/components/AppShell.jsx:20 | finds a link whose target is the path, and nothing exactly when no link has it |
| AppShell.ActivePath | frontend/src/components/AppShell.jsx:17-22 | paths under /generate and /new-ingredient map to those sections; any other path is its own active path |
| AppShell.ActivePathIdempotent | frontend/src/components/AppShell.jsx:17-22 | resolving an active path again changes nothing |
| AppShell.AtMostOneHighlighted | frontend/src/components/AppShell.jsx:40-41 | at most one nav link is highlighted |
| AppShell.GenerateHighlightsButtonOnly | frontend/src/components/AppShell.jsx:40-55 | under /generate no nav link is highlighted, only the Generate Plan button |
| AppShell.LinkPathHighlightsIt | frontend/src/components/AppShell.jsx:5-10 | a link's own path highlights that link |
| JsObject.AssignGet | frontend/src/pages/Recipes.jsx:48-50 | after assigning entries in order, the last assignment to a key decides its value and other keys keep theirs |
| JsObject.FromEntriesHas | frontend/src/pages/Recipes.jsx:47-50 | the object built from entries has exactly the keys some entry carries |
| JsObject.FromEntriesLastWins | frontend/src/pages/Recipes.jsx:48-50 | the last entry with a key gives that key its value |
| JsObject.FromEntriesOfEntries | frontend/src/pages/Recipes.jsx:47-50 | building an object from an object's entries gives that object back |
| Js.Trim | backend/controllers/recipeController.js:82-84 | `trim()` is a slice of the input with only white space cut from each end; it is empty exactly for white space only, and otherwise starts and ends with a non-space character |
| Js.TrimIdempotent | frontend/src/pages/Recipes.jsx:73 | trimming twice is trimming once |
| Js.Round | frontend/src/pages/AnalyticsDashboard.jsx:100 | `Math.round` is the nearest integer, with halves rounded up |
| Js.ToFixed1 | backend/controllers/solverController.js:140-154 | `Number(x.toFixed(1))` is within 0.05 of x |

## Left out

- The HTTP layer, authentication, MongoDB and the browser are not modelled. Database reads and writes are sequences passed in and returned. Handlers answer with `Result` values instead of status codes. `localStorage`'s 'true' flag is a `bool`. `window.confirm` is an answer passed in.
- The LP library's algorithm: `lp` is a parameter, and only the `Sound` premise is assumed of it.
- `Math.random()` is a parameter: one draw in [0, 1) per catalog ingredient.
- `solveMultipleMeals`: `macroSolver.js` does not export it. As written, `generateMeal` answers 500 "Solver Error: solveMultipleMeals is not a function" to every request that passes its two guards; `SolverController.GenerateMealAsWritten` models that. The search itself is not in the source, so `SolverController.GenerateMeal` takes it as a parameter.
- The reverse handler is not registered in `solverRoutes.js`, and `pantryRoutes.js` names handlers (consume, meal logs) that `pantryController.js` does not define. Routing and those handlers are not part of this model. Two modelled paths are unreachable as written. `recipeRoutes.js` registers no PUT route, so the rename request of Recipes.jsx:79 never reaches `updateRecipeName`; `RecipeController.UpdateRecipeName` and `RecipesPage.RenameMirrorsServer` state what would happen if it did. `pantryServices.js` exports no `deleteMealLog`, so History.jsx:45 always throws and the filter on line 46 never runs; `History.WithoutLog` and `History.WithoutLogRemovesOne` state what that filter would do.
- NaN in request bodies and in the LP answer: a request body's number is finite or null. The ingredient page turns NaN into null before sending (`CreateIngredientPage.ToJson`). The generator page sends its inputs' text unchanged, and its `type="number"` inputs hold only numeric text or the empty string.
- Floating point: numbers are exact reals. `Math.round` is modelled on reals, with ties rounded up (toward +∞). `toFixed(1)` is modelled on reals as well, with ties rounded away from zero, so a negative tie moves down.
- `IngredientController.CreateIngredient`: requires a non-zero serving size when rescaling, because a "0" string is truthy yet `Number("0")` divides by zero at line 25, giving Infinity values that this model has no number for.
- `PantryController.UpdatePantryItem`: the source stores a null quantity as null, since `findOneAndUpdate` runs no schema validators, and later reads it as 0 through `|| 0`. The model stores 0. `undefined` is refused in both.
- `IngredientController.NameTaken`: `new RegExp('^' + name + '$', 'i')` is modelled as equality ignoring case. Regex metacharacters in a name are not interpreted, and only ASCII letters are case-folded.
- The generator page's `reverseResult` and `activeTab` state: `onSubmit` resets both (GeneratorPage.jsx:64-65), and `onSubmitReverse` clears `reverseResult` and, on success, sets it and switches `activeTab` to 'shopping' (lines 107-112). `GeneratorPage.PageState` holds only the form, the errors, the plans and the selection, so the reverse result is not shown in the model.
- `buildMacroSeries` of the dashboard, the charts and their colours, all toasts, navigation and loading flags, and the recipe-save dialog of the generator page (it calls the same `createRecipe`).
- The confirm dialogs in front of the recipe list's delete and cook, which only decide whether those functions run at all.
- The ingredient's `category`, which the schema lacks: `Analytics.InventoryItem` keeps it optional.
- Integer-like and `__proto__` property names: JavaScript enumerates integer-like keys ("1", "42") first, in ascending order, and `o["__proto__"] = v` sets the prototype instead of an own key. `JsObject.Obj` keeps every key, in insertion order, so the key order of `SolverController.ExtractPlan`, `SolverController.Diff`, `MealSelection.Aggregate`, `RecipesPage.CookPayload` and `Analytics.BuildInventoryBreakdown` is the source's only for names that are not integer-like and not `__proto__`.
- Names inherited from `Object.prototype` ("constructor", "toString", ...): in the source, `aggregatedIngredients[ingredient]` (GeneratorPage.jsx:149, Generator.jsx:78) and `totals[category] || 0` (AnalyticsDashboard.jsx:92) read a function for such a name, and the `+` then joins strings instead of adding numbers. Likewise `categoryLabels[key] || key` (AnalyticsDashboard.jsx:97) yields the inherited function as the label for such a key. `MealSelection.Aggregate` and `Analytics.AddItem` treat such a name as absent, like any other new key, and `Analytics.CategoryLabel` returns the key itself.
- HTML constraint validation: the inputs of the ingredient form are `required`, and its number inputs have `type="number"`. The browser therefore does not submit an empty name or an empty or non-numeric number. The model's `CreateIngredientPage.HandleSubmit` takes any form, so the lemmas about such forms say what `handleSubmit` would send if it ran on them. The generator form sets `noValidate`, but its target inputs are `type="number"` too, and the browser sanitises non-numeric text in them to the empty string. `GeneratorPage.Field` admits any text, so the text case of `GeneratorPage.ZeroBlocksButTextPasses` says what the page's validation would do if it ran on such text.
- Services (axios wrappers), the user controller, the meal-log model and the seed scripts.

## Findings

| source | as written | input that shows it | evidently intended | confidence | as-written member | corrected member |
|---|---|---|---|---|---|---|
| backend/controllers/solverController.js:3 | imports `solveMultipleMeals` from `macroSolver.js`, which exports only `solveMeal`; the call on line 80 throws, and lines 89-91 answer 500 | targets 150/100/60 with any non-empty pantry | run a multi-plan search for three plans, answering them, or 400 when it finds none | high; not executed | SolverController.GenerateMealAsWritten, SolverController.SearchMissingAlwaysFails | SolverController.GenerateMeal |

=== FILE: analytics.dfy ===
/**
  frontend/src/pages/AnalyticsDashboard.jsx: `buildInventoryBreakdown`, the pantry grouped by
  ingredient category for the pie chart. Each category's slice carries its total quantity,
  its display name and its rounded share of the whole.
 */
module Analytics {
  import opened Js
  import opened JsObject

  /** A pantry item as the chart reads it: the populated ingredient's category, if any, and the quantity, if any. */
  datatype InventoryItem = InventoryItem(category: Option<string>, quantity: Option<real>)

  /** `item.ingredient?.category || 'other'` */
  function CategoryOf(item: InventoryItem): (c: string)
    ensures c != ""
    ensures item.category.Some? && item.category.value != "" ==> c == item.category.value
  {
    if item.category.Some? && item.category.value != "" then item.category.value else "other"
  }

  /** `item.quantity || 0`: an absent quantity counts as 0; a 0 quantity is falsy too, but `|| 0` maps it to the same 0. */
  function QuantityOf(item: InventoryItem): (q: real)
    ensures item.quantity.Some? ==> q == item.quantity.value
    ensures item.quantity.None? ==> q == 0.0
  {
    match item.quantity
    case Some(q) => q
    case None => 0.0
  }

  /** `totals[category] || 0`: a category's running total, 0 before its first item (a total of 0 is falsy, and `|| 0` keeps it 0). */
  function RunningTotal(t: Option<real>): (r: real)
    ensures r == t.GetOr(0.0)
  {
    match t
    case Some(v) => v
    case None => 0.0
  }

  /** One pass of the loop body: `totals[category] = (totals[category] || 0) + quantity`. */
  function AddItem(totals: Obj<real>, item: InventoryItem): (r: Obj<real>)
    ensures Get(r, CategoryOf(item)) == Some(Get(totals, CategoryOf(item)).GetOr(0.0) + QuantityOf(item))
    ensures forall k :: k != CategoryOf(item) ==> Get(r, k) == Get(totals, k)
    ensures ValueSum(r) == ValueSum(totals) + QuantityOf(item)
    ensures r.keys == if CategoryOf(item) in totals.values then totals.keys else totals.keys + [CategoryOf(item)]
  {
    var c := CategoryOf(item);
    var running := RunningTotal(Get(totals, c));
    SetValueSum(totals, c, running + QuantityOf(item));
    Set(totals, c, running + QuantityOf(item))
  }

  /** The loop's `totals`: each item adds its quantity to its category's running total, starting it when new. */
  function Totals(items: seq<InventoryItem>): Obj<real> {
    if items == [] then Empty() else AddItem(Totals(items[..|items| - 1]), items[|items| - 1])
  }

  /** The loop's `grandTotal`: every quantity added up. */
  function GrandTotal(items: seq<InventoryItem>): real {
    if items == [] then 0.0 else GrandTotal(items[..|items| - 1]) + QuantityOf(items[|items| - 1])
  }

  /** The reference total of one category: the quantities of the items in it. */
  function CategorySum(items: seq<InventoryItem>, c: string): real {
    if items == [] then 0.0
    else CategorySum(items[..|items| - 1], c) + (if CategoryOf(items[|items| - 1]) == c then QuantityOf(items[|items| - 1]) else 0.0)
  }

  /** Some item falls in category c. */
  predicate InCategory(items: seq<InventoryItem>, c: string) {
    items != [] && (CategoryOf(items[|items| - 1]) == c || InCategory(items[..|items| - 1], c))
  }

  /** The totals hold a category exactly when some item is in it, with the sum of those items' quantities. */
  lemma {:induction false} TotalsGet(items: seq<InventoryItem>, c: string)
    ensures Get(Totals(items), c).Some? <==> InCategory(items, c)
    ensures Get(Totals(items), c).GetOr(0.0) == CategorySum(items, c)
  {
    if items != [] {
      var init := items[..|items| - 1];
      TotalsGet(init, c);
      CategoryStep(Totals(init), items, c);
    }
  }

  /** One more item keeps the totals equal to the per-category reference sums. */
  lemma CategoryStep(t: Obj<real>, items: seq<InventoryItem>, c: string)
    requires items != []
    requires Get(t, c).Some? <==> InCategory(items[..|items| - 1], c)
    requires Get(t, c).GetOr(0.0) == CategorySum(items[..|items| - 1], c)
    ensures Get(AddItem(t, items[|items| - 1]), c).Some? <==> InCategory(items, c)
    ensures Get(AddItem(t, items[|items| - 1]), c).GetOr(0.0) == CategorySum(items, c)
  {
    var init, last := items[..|items| - 1], items[|items| - 1];
    if CategoryOf(last) == c {
      assert InCategory(items, c);
    } else {
      assert InCategory(items, c) == InCategory(init, c);
    }
  }

  /** The sum of an object's values over the keys ks. */
  function SumOver(o: Obj<real>, ks: seq<string>): real
    requires forall i :: 0 <= i < |ks| ==> ks[i] in o.values
  {
    if ks == [] then 0.0 else SumOver(o, ks[..|ks| - 1]) + o.values[ks[|ks| - 1]]
  }

  /** The sum of all of an object's values: what the slices' values add up to. */
  function ValueSum(o: Obj<real>): real {
    SumOver(o, o.keys)
  }

  /** Keys the assignment does not touch keep their part of the sum. */
  lemma {:induction false} SumOverUntouched(o: Obj<real>, c: string, v: real, ks: seq<string>)
    requires forall i :: 0 <= i < |ks| ==> ks[i] in o.values && ks[i] != c
    ensures forall i :: 0 <= i < |ks| ==> ks[i] in Set(o, c, v).values
    ensures SumOver(Set(o, c, v), ks) == SumOver(o, ks)
  {
    if ks != [] {
      SumOverUntouched(o, c, v, ks[..|ks| - 1]);
      assert Get(Set(o, c, v), ks[|ks| - 1]) == Get(o, ks[|ks| - 1]);
    }
  }

  /** Over distinct keys that include c, assigning v to c changes the sum by v minus c's old value. */
  lemma {:induction false} SumOverChanged(o: Obj<real>, c: string, v: real, ks: seq<string>)
    requires forall i :: 0 <= i < |ks| ==> ks[i] in o.values
    requires NoDuplicates(ks) && c in ks
    ensures forall i :: 0 <= i < |ks| ==> ks[i] in Set(o, c, v).values
    ensures SumOver(Set(o, c, v), ks) == SumOver(o, ks) - o.values[c] + v
  {
    var init, last := ks[..|ks| - 1], ks[|ks| - 1];
    assert forall i :: 0 <= i < |init| ==> init[i] == ks[i];
    if last == c {
      assert forall i :: 0 <= i < |init| ==> init[i] != c;
      SumOverUntouched(o, c, v, init);
    } else {
      assert c in init by {
        var j :| 0 <= j < |ks| && ks[j] == c;
        assert j < |init|;
        assert init[j] == c;
      }
      SumOverChanged(o, c, v, init);
      assert Get(Set(o, c, v), last) == Get(o, last);
    }
  }

  /** Assigning v to c changes the sum of values by v minus c's old value (0 for a new key). */
  lemma SetValueSum(o: Obj<real>, c: string, v: real)
    ensures ValueSum(Set(o, c, v)) == ValueSum(o) - Get(o, c).GetOr(0.0) + v
  {
    if c in o.values {
      SumOverChanged(o, c, v, o.keys);
    } else {
      NewKeyValueSum(o, c, v);
    }
  }

  /** A new key's value is added to the sum. */
  lemma NewKeyValueSum(o: Obj<real>, c: string, v: real)
    requires c !in o.values
    ensures ValueSum(Set(o, c, v)) == ValueSum(o) + v
  {
    var r := Set(o, c, v);
    assert forall i :: 0 <= i < |o.keys| ==> o.keys[i] != c;
    SumOverUntouched(o, c, v, o.keys);
    assert r.keys[..|r.keys| - 1] == o.keys;
    assert ValueSum(r) == SumOver(r, o.keys) + r.values[c];
  }

  /** The categories' totals add up to the grand total. */
  lemma {:induction false} TotalsSum(items: seq<InventoryItem>)
    ensures ValueSum(Totals(items)) == GrandTotal(items)
  {
    if items != [] {
      TotalsSum(items[..|items| - 1]);
    }
  }

  /** `categoryLabels[key] || key` */
  function CategoryLabel(key: string): (name: string)
    ensures key == "other" ==> name == "Other"
  {
    if key == "protein" then "Protein Sources"
    else if key == "carb" then "Grains & Carbs"
    else if key == "fat" then "Fats & Oils"
    else if key == "vegetable" then "Vegetables"
    else if key == "fruit" then "Fruits"
    else if key == "dairy" then "Dairy"
    else if key == "spice" then "Spices"
    else if key == "other" then "Other"
    else key
  }

  /** One pie slice. */
  datatype Slice = Slice(key: string, name: string, value: real, percent: int)

  /** `Math.round((value / grandTotal) * 100)`, or 0 when the grand total is 0. */
  function Percent(value: real, grandTotal: real): int {
    if grandTotal != 0.0 then Round((value / grandTotal) * 100.0) else 0
  }

  /** `Object.entries(totals).map(...)`: a slice per key, in key order. */
  function SlicesOf(totals: Obj<real>, grandTotal: real): (slices: seq<Slice>)
    ensures |slices| == |totals.keys|
    ensures forall i :: 0 <= i < |slices| ==>
      && slices[i].key == totals.keys[i]
      && Get(totals, totals.keys[i]) == Some(slices[i].value)
      && slices[i].name == CategoryLabel(slices[i].key)
      && slices[i].percent == Percent(slices[i].value, grandTotal)
  {
    seq(|totals.keys|, i requires 0 <= i < |totals.keys| =>
      var k := totals.keys[i];
      Slice(k, CategoryLabel(k), totals.values[k], Percent(totals.values[k], grandTotal)))
  }

  /**
    `buildInventoryBreakdown`: one slice per category, in the order categories first appear,
    each with its label, the total quantity of its items and its share of the grand total.
   */
  function BuildInventoryBreakdown(items: seq<InventoryItem>): (slices: seq<Slice>)
    ensures |slices| == |Totals(items).keys|
    ensures forall i :: 0 <= i < |slices| ==> slices[i].key == Totals(items).keys[i]
    ensures forall i, j :: 0 <= i < j < |slices| ==> slices[i].key != slices[j].key
    ensures forall c :: InCategory(items, c) <==> exists i :: 0 <= i < |slices| && slices[i].key == c
    ensures forall i :: 0 <= i < |slices| ==>
      && slices[i].name == CategoryLabel(slices[i].key)
      && slices[i].value == CategorySum(items, slices[i].key)
      && slices[i].percent == Percent(slices[i].value, GrandTotal(items))
  {
    var slices := SlicesOf(Totals(items), GrandTotal(items));
    SlicesCoverCategories(items, slices);
    SliceValues(items, slices);
    slices
  }

  lemma SlicesCoverCategories(items: seq<InventoryItem>, slices: seq<Slice>)
    requires |slices| == |Totals(items).keys|
    requires forall i :: 0 <= i < |slices| ==> slices[i].key == Totals(items).keys[i]
    ensures forall c :: InCategory(items, c) <==> exists i :: 0 <= i < |slices| && slices[i].key == c
  {
    var totals := Totals(items);
    forall c
      ensures InCategory(items, c) <==> exists i :: 0 <= i < |slices| && slices[i].key == c
    {
      TotalsGet(items, c);
      if InCategory(items, c) {
        var i :| 0 <= i < |totals.keys| && totals.keys[i] == c;
        assert slices[i].key == c;
      }
    }
  }

  lemma SliceValues(items: seq<InventoryItem>, slices: seq<Slice>)
    requires |slices| == |Totals(items).keys|
    requires forall i :: 0 <= i < |slices| ==> Get(Totals(items), slices[i].key) == Some(slices[i].value)
    ensures forall i :: 0 <= i < |slices| ==> slices[i].value == CategorySum(items, slices[i].key)
  {
    forall i | 0 <= i < |slices|
      ensures slices[i].value == CategorySum(items, slices[i].key)
    {
      TotalsGet(items, slices[i].key);
    }
  }

  /** The slices' values add up to the grand total. */
  lemma SlicesSum(items: seq<InventoryItem>)
    ensures SliceSum(BuildInventoryBreakdown(items)) == GrandTotal(items)
  {
    var totals := Totals(items);
    var slices := SlicesOf(totals, GrandTotal(items));
    assert BuildInventoryBreakdown(items) == slices;
    SliceSumIsValueSum(totals, slices, |slices|);
    assert slices[..|slices|] == slices;
    assert totals.keys[..|slices|] == totals.keys;
    TotalsSum(items);
  }

  function SliceSum(slices: seq<Slice>): real {
    if slices == [] then 0.0 else SliceSum(slices[..|slices| - 1]) + slices[|slices| - 1].value
  }

  lemma {:induction false} SliceSumIsValueSum(o: Obj<real>, slices: seq<Slice>, n: nat)
    requires n <= |slices| == |o.keys|
    requires forall i :: 0 <= i < |slices| ==> Get(o, o.keys[i]) == Some(slices[i].value)
    ensures forall i :: 0 <= i < n ==> o.keys[..n][i] in o.values
    ensures SliceSum(slices[..n]) == SumOver(o, o.keys[..n])
  {
    if n > 0 {
      SliceSumIsValueSum(o, slices, n - 1);
      assert slices[..n][..n - 1] == slices[..n - 1];
      assert o.keys[..n][..n - 1] == o.keys[..n - 1];
    }
  }

  predicate NonNegative(items: seq<InventoryItem>) {
    forall i :: 0 <= i < |items| ==> QuantityOf(items[i]) >= 0.0
  }

  /** With no negative quantity, a category's total lies between 0 and the grand total. */
  lemma {:induction false} CategoryWithinTotal(items: seq<InventoryItem>, c: string)
    requires NonNegative(items)
    ensures 0.0 <= CategorySum(items, c) <= GrandTotal(items)
  {
    if items != [] {
      CategoryWithinTotal(items[..|items| - 1], c);
      assert QuantityOf(items[|items| - 1]) >= 0.0;
    }
  }

  /** With no negative quantity every slice's percent lies in [0, 100]. */
  lemma PercentBounds(items: seq<InventoryItem>)
    requires NonNegative(items)
    ensures forall i :: 0 <= i < |BuildInventoryBreakdown(items)| ==> 0 <= BuildInventoryBreakdown(items)[i].percent <= 100
  {
    var slices := BuildInventoryBreakdown(items);
    var g := GrandTotal(items);
    forall i | 0 <= i < |slices|
      ensures 0 <= slices[i].percent <= 100
    {
      CategoryWithinTotal(items, slices[i].key);
      if g != 0.0 {
        PercentOfPart(slices[i].value, g);
      }
    }
  }

  lemma PercentOfPart(v: real, g: real)
    requires 0.0 <= v <= g && g != 0.0
    ensures 0 <= Percent(v, g) <= 100
  {
    assert 0.0 <= v / g <= 1.0;
  }

  /** Items without a category, or with an empty one, land in the one "Other" slice. */
  lemma UncategorisedIsOther(items: seq<InventoryItem>)
    requires items == [InventoryItem(None, Some(250.0)), InventoryItem(Some(""), None)]
    ensures BuildInventoryBreakdown(items) == [Slice("other", "Other", 250.0, 100)]
  {
    OtherTotals(items);
    var slices := SlicesOf(Totals(items), 250.0);
    assert |slices| == 1;
    RoundUnique(100.0, 100);
    assert slices[0] == Slice("other", "Other", 250.0, 100);
  }

  lemma OtherTotals(items: seq<InventoryItem>)
    requires items == [InventoryItem(None, Some(250.0)), InventoryItem(Some(""), None)]
    ensures Totals(items).keys == ["other"] && Get(Totals(items), "other") == Some(250.0)
    ensures GrandTotal(items) == 250.0
  {
    var head, tail := items[0], items[1];
    assert CategoryOf(head) == "other" && QuantityOf(head) == 250.0;
    assert CategoryOf(tail) == "other" && QuantityOf(tail) == 0.0;
    assert items[..1] == [head] && [head][..0] == [];
    var first := AddItem(Empty(), head);
    assert Totals(items[..1]) == first;
    assert first.keys == ["other"] && Get(first, "other") == Some(250.0);
    assert Totals(items) == AddItem(first, tail);
    assert GrandTotal(items[..1]) == 250.0;
  }
}

=== FILE: appshell.dfy ===
/**
  frontend/src/components/AppShell.jsx: which navigation entry is shown as active for the
  current pathname.
 */
module AppShell {
  import opened Js

  datatype NavLink = NavLink(to: string, caption: string)

  /** The navigation bar's links, in display order. */
  const NavLinks: seq<NavLink> := [
    NavLink("/", "Pantry"),
    NavLink("/dashboard", "Dashboard"),
    NavLink("/history", "History"),
    NavLink("/recipes", "Recipes")
  ]

  /** `navLinks.find(link => pathname === link.to)` */
  function FindLink(links: seq<NavLink>, pathname: string): (r: Option<NavLink>)
    ensures r.Some? ==> r.value in links && r.value.to == pathname
    ensures r.None? <==> forall i :: 0 <= i < |links| ==> links[i].to != pathname
  {
    if links == [] then None
    else if links[0].to == pathname then Some(links[0])
    else FindLink(links[1..], pathname)
  }

  /** `activePath`: the generator and new-ingredient sections own every path under them. */
  function ActivePath(pathname: string): (p: string)
    ensures StartsWith(pathname, "/generate") ==> p == "/generate"
    ensures !StartsWith(pathname, "/generate") && StartsWith(pathname, "/new-ingredient") ==> p == "/new-ingredient"
    ensures !StartsWith(pathname, "/generate") && !StartsWith(pathname, "/new-ingredient") ==> p == pathname
  {
    if StartsWith(pathname, "/generate") then "/generate"
    else if StartsWith(pathname, "/new-ingredient") then "/new-ingredient"
    else
      match FindLink(NavLinks, pathname)
      case Some(link) => link.to
      case None => pathname
  }

  /** Resolving an active path again changes nothing. */
  lemma ActivePathIdempotent(pathname: string)
    ensures ActivePath(ActivePath(pathname)) == ActivePath(pathname)
  {
    var p := ActivePath(pathname);
    if StartsWith(pathname, "/generate") {
      assert p[..|"/generate"|] == "/generate";
    } else if StartsWith(pathname, "/new-ingredient") {
      assert !StartsWith(p, "/generate") by {
        assert p[1] != "/generate"[1];
      }
      assert p[..|"/new-ingredient"|] == "/new-ingredient";
    }
  }

  /** A nav link is highlighted when it is the active path. */
  predicate Highlighted(pathname: string, i: nat)
    requires i < |NavLinks|
  {
    ActivePath(pathname) == NavLinks[i].to
  }

  /** The links' targets are distinct, so at most one link is highlighted. */
  lemma AtMostOneHighlighted(pathname: string, i: nat, j: nat)
    requires i < |NavLinks| && j < |NavLinks|
    requires Highlighted(pathname, i) && Highlighted(pathname, j)
    ensures i == j
  {
  }

  /** Under the generator's section no nav link is highlighted, only the Generate Plan button. */
  lemma GenerateHighlightsButtonOnly(pathname: string, i: nat)
    requires StartsWith(pathname, "/generate") && i < |NavLinks|
    ensures ActivePath(pathname) == "/generate" && !Highlighted(pathname, i)
  {
  }

  /** A nav link's own path highlights exactly that link. */
  lemma LinkPathHighlightsIt(i: nat)
    requires i < |NavLinks|
    ensures Highlighted(NavLinks[i].to, i)
  {
    var to := NavLinks[i].to;
    assert "/generate"[1] == 'g' && "/new-ingredient"[1] == 'n';
    assert |to| == 1 || to[1] in "dhr";
    DiffersAt(to, "/generate", 1);
    DiffersAt(to, "/new-ingredient", 1);
  }

  /** A string that is too short for a prefix, or differs from it at one position, does not start with it. */
  lemma DiffersAt(s: string, prefix: string, k: nat)
    requires k < |prefix|
    requires k < |s| ==> s[k] != prefix[k]
    ensures !StartsWith(s, prefix)
  {
    if |prefix| <= |s| {
      assert s[..|prefix|][k] == s[k];
    }
  }
}

=== FILE: createingredientpage.dfy ===
/**
  frontend/src/pages/CreateIngredient.jsx: `handleSubmit`. The entered calories are checked
  against the 4/4/9 kcal-per-gram estimate from the macros, the user may decline a mismatch,
  and every number field is sent through `Number`. A field that is not a number becomes NaN,
  which the JSON request body carries as null. The browser's own validation of the
  `required` and `type="number"` inputs, which keeps such forms from being submitted, is not
  modelled: `HandleSubmit` takes any form, and the lemmas about an empty name or a NaN field
  say what `handleSubmit` would send if it ran on one.
 */
module CreateIngredientPage {
  import opened Js
  import opened Nutrition
  import opened IngredientController

  /** The form as numbers: each field is `Number(text)` of what was typed. */
  datatype IngredientForm = IngredientForm(name: string, calories: Num, protein: Num, carbs: Num, fats: Num, servingSize: Num)

  /** The form the page starts with: empty texts (which `Number` reads as 0) and a serving size of 100. */
  function InitialForm(): IngredientForm {
    IngredientForm("", Finite(0.0), Finite(0.0), Finite(0.0), Finite(0.0), Finite(100.0))
  }

  /** The estimate: 4 kcal per gram of protein and of carbs, 9 per gram of fat. */
  function Estimate(protein: real, carbs: real, fats: real): real {
    protein * 4.0 + carbs * 4.0 + fats * 9.0
  }

  function Abs(x: real): (a: real)
    ensures a >= 0.0 && (a == x || a == -x)
  {
    if x < 0.0 then -x else x
  }

  /**
    The mismatch warning: the entered calories differ from the estimate by more than 20% of
    the entered calories. Any NaN makes the comparison false, so no warning.
   */
  predicate Warns(f: IngredientForm) {
    && f.calories.Finite? && f.protein.Finite? && f.carbs.Finite? && f.fats.Finite?
    && Abs(f.calories.r - Estimate(f.protein.r, f.carbs.r, f.fats.r)) > f.calories.r * 0.2
  }

  /** How `JSON.stringify` writes a number: NaN becomes null. */
  function ToJson(n: Num): (v: Json)
    ensures n.Finite? ==> v == Number(n.r)
    ensures n.NaN? ==> v == Null
  {
    match n
    case Finite(r) => Number(r)
    case NaN => Null
  }

  /**
    The create request's body. It never makes the server divide by zero: a serving size
    the server rescales by is a truthy number, so not 0.
   */
  function Payload(f: IngredientForm): (b: IngredientBody)
    ensures ScalableServing(b)
    ensures b.name == Some(f.name)
    ensures b.calories == ToJson(f.calories) && b.protein == ToJson(f.protein)
    ensures b.carbs == ToJson(f.carbs) && b.fats == ToJson(f.fats)
    ensures b.servingSize == ToJson(f.servingSize)
  {
    IngredientBody(Some(f.name), ToJson(f.calories), ToJson(f.protein), ToJson(f.carbs), ToJson(f.fats), ToJson(f.servingSize))
  }

  /**
    `handleSubmit`: a warned mismatch the user declines sends nothing; otherwise the body is
    sent. `confirmed` is the answer the dialog would give.
   */
  function HandleSubmit(f: IngredientForm, confirmed: bool): (r: Option<IngredientBody>)
    ensures r.None? <==> Warns(f) && !confirmed
    ensures r.Some? ==> r.value == Payload(f)
  {
    if Warns(f) && !confirmed then None else Some(Payload(f))
  }

  /** Macros that match the calories exactly never raise the warning; 50% too many always does. */
  lemma WarningThreshold(p: real, c: real, fat: real, name: string, size: Num)
    requires Estimate(p, c, fat) > 0.0
    ensures !Warns(IngredientForm(name, Finite(Estimate(p, c, fat)), Finite(p), Finite(c), Finite(fat), size))
    ensures Warns(IngredientForm(name, Finite(Estimate(p, c, fat) * 1.5), Finite(p), Finite(c), Finite(fat), size))
  {
  }

  /** If `handleSubmit` ran with a number field that is not a number, it would reach the server as null and be refused as missing. */
  lemma NaNFieldRefused(catalog: seq<Ingredient>, nextId: nat, f: IngredientForm)
    requires f.calories.NaN? || f.protein.NaN? || f.carbs.NaN? || f.fats.NaN?
    ensures CreateIngredient(catalog, nextId, Payload(f)) == Failure(MissingFields)
  {
  }

  /**
    A named, all-numeric form with the default serving size is stored as entered: the server
    rescales nothing when the serving is already 100 g.
   */
  lemma PerHundredStoredAsEntered(catalog: seq<Ingredient>, nextId: nat, f: IngredientForm)
    requires f.name != "" && !NameTaken(catalog, f.name)
    requires f.calories.Finite? && f.protein.Finite? && f.carbs.Finite? && f.fats.Finite?
    requires f.servingSize == Finite(100.0)
    ensures CreateIngredient(catalog, nextId, Payload(f)) ==
        Success(Ingredient(nextId, f.name, f.calories.r, f.protein.r, f.carbs.r, f.fats.r, 100.0))
  {
    assert !Rescaled(Payload(f));
  }

  /** If `handleSubmit` ran on the untouched form, it would send an empty name, which the server refuses. */
  lemma InitialFormRefused(catalog: seq<Ingredient>, nextId: nat)
    ensures HandleSubmit(InitialForm(), false) == Some(Payload(InitialForm()))
    ensures CreateIngredient(catalog, nextId, Payload(InitialForm())) == Failure(MissingFields)
  {
  }
}

=== FILE: generator.dfy ===
/**
  frontend/src/pages/Generator.jsx, the older generator page: its selection toggle is
  MealSelection.Toggle, but a consume click always asks through the browser's confirm dialog
  and then sends the aggregate itself.
 */
module Generator {
  import opened Js
  import opened JsObject
  import opened MealSelection

  /**
    `handleConsume`: no request without a selection or when the user declines the dialog;
    otherwise the request of the selected plans' aggregate, or its failure message.
   */
  function HandleConsume(plans: seq<Obj<real>>, selected: seq<nat>, confirmed: bool): (r: Option<Result<Obj<real>, string>>)
    ensures r.None? <==> selected == [] || !confirmed
    ensures r.Some? && ValidSelection(plans, selected) ==> r.value.Success? && forall k :: (Get(r.value.value, k) ==
      if InAny(plans, selected, k) then Some(Total(plans, selected, k)) else None)
    ensures r.Some? && !ValidSelection(plans, selected) ==> r.value == Failure("Failed to consume meals")
  {
    if selected == [] || !confirmed then None else Some(ConsumeRequest(plans, selected))
  }

  /** Selecting one plan and confirming sends exactly that plan's amounts. */
  lemma OnePlanSendsItself(plans: seq<Obj<real>>, index: nat)
    requires index < |plans|
    ensures
      var r := HandleConsume(plans, Toggle([], index), true);
      r.Some? && r.value.Success? && forall k :: Get(r.value.value, k) == Get(plans[index], k)
  {
    var sel := Toggle([], index);
    assert sel == [index];
    assert ValidSelection(plans, sel);
    var r := HandleConsume(plans, sel, true);
    forall k
      ensures Get(r.value.value, k) == Get(plans[index], k)
    {
      SinglePlanTotal(plans, index, k);
    }
  }
}

=== FILE: generatorpage.dfy ===
/**
  frontend/src/pages/GeneratorPage.jsx: the target form, its per-field validation, the error
  clearing on edit, and which requests a submit or a consume click makes. Toggling and
  aggregating the selected plans are those of MealSelection. The target inputs have
  `type="number"`, so the browser sanitises text that is not a number to the empty string
  before the page sees it. `Field` admits any text, and the lemma about such text says what
  the page's validation would do if it ran on it.
 */
module GeneratorPage {
  import opened Js
  import opened JsObject
  import opened MealSelection

  /** A form input's value: its text and the number `Number(text)` gives (NaN for "abc"). */
  datatype Field = Field(text: string, number: Num)

  /** The three target inputs, in the order they are checked. */
  const TargetFields: seq<string> := ["targetProtein", "targetCarbs", "targetFats"]

  /** The message for an empty target. */
  function RequiredMessage(name: string): string {
    if name == "targetProtein" then "Protein target is required"
    else if name == "targetCarbs" then "Carbs target is required"
    else "Fats target is required"
  }

  /** The message for a target that is not above 0. */
  function NotPositiveMessage(name: string): string {
    if name == "targetProtein" then "Protein target must be greater than 0"
    else if name == "targetCarbs" then "Carbs target must be greater than 0"
    else "Fats target must be greater than 0"
  }

  /** `formData[name]`; an input the form lacks reads as empty. */
  function FieldOf(form: Obj<Field>, name: string): Field {
    Get(form, name).GetOr(Field("", Finite(0.0)))
  }

  /** A number that `Number(x) <= 0` catches: NaN compares false, so non-numeric text is not caught. */
  predicate NotPositive(n: Num) {
    n.Finite? && n.r <= 0.0
  }

  /** One field's check: an empty input is required, a number not above 0 is refused, anything else passes. */
  function FieldError(name: string, v: Field): (e: Option<string>)
    ensures e.None? <==> v.text != "" && !NotPositive(v.number)
    ensures v.text == "" ==> e == Some(RequiredMessage(name))
    ensures v.text != "" && NotPositive(v.number) ==> e == Some(NotPositiveMessage(name))
  {
    if v.text == "" then Some(RequiredMessage(name))
    else if NotPositive(v.number) then Some(NotPositiveMessage(name))
    else None
  }

  /** `newErrors.name = message` when the field fails its check. */
  function Check(errors: Obj<string>, form: Obj<Field>, name: string): (r: Obj<string>)
    ensures Get(r, name) == (if FieldError(name, FieldOf(form, name)).Some? then FieldError(name, FieldOf(form, name)) else Get(errors, name))
    ensures forall k :: k != name ==> Get(r, k) == Get(errors, k)
    ensures r.keys == [] <==> errors.keys == [] && FieldError(name, FieldOf(form, name)).None?
  {
    match FieldError(name, FieldOf(form, name))
    case Some(m) => Set(errors, name, m)
    case None => errors
  }

  /** Every target passes its check. */
  predicate AllValid(form: Obj<Field>) {
    forall k :: k in TargetFields ==> FieldError(k, FieldOf(form, k)).None?
  }

  /**
    The errors a submit records: exactly the failing targets, each with its message, and
    no entry at all when every target passes.
   */
  function Validate(form: Obj<Field>): (errors: Obj<string>)
    ensures forall k :: k in TargetFields ==> Get(errors, k) == FieldError(k, FieldOf(form, k))
    ensures forall k :: k !in TargetFields ==> Get(errors, k) == None
    ensures errors.keys == [] <==> AllValid(form)
  {
    ValidateGets(form);
    ValidateKeys(form);
    Checked(form)
  }

  /** The three checks in order, starting from no errors. */
  function Checked(form: Obj<Field>): Obj<string> {
    Check(Check(Check(Empty(), form, "targetProtein"), form, "targetCarbs"), form, "targetFats")
  }

  /** Each target's entry is its own check's message; no other key is set. */
  lemma ValidateGets(form: Obj<Field>)
    ensures forall k :: k in TargetFields ==> Get(Checked(form), k) == FieldError(k, FieldOf(form, k))
    ensures forall k :: k !in TargetFields ==> Get(Checked(form), k) == None
  {
    TargetNamesDistinct();
  }

  /** No key at all exactly when every check passes. */
  lemma ValidateKeys(form: Obj<Field>)
    ensures Checked(form).keys == [] <==> AllValid(form)
  {
    TargetNamesDistinct();
    var ok1 := FieldError("targetProtein", FieldOf(form, "targetProtein")).None?;
    var ok2 := FieldError("targetCarbs", FieldOf(form, "targetCarbs")).None?;
    var ok3 := FieldError("targetFats", FieldOf(form, "targetFats")).None?;
    assert Checked(form).keys == [] <==> ok1 && ok2 && ok3;
  }

  /** The three target names differ (at their seventh letter), so checking one leaves the others' errors alone. */
  lemma TargetNamesDistinct()
    ensures "targetProtein" != "targetCarbs" && "targetProtein" != "targetFats" && "targetCarbs" != "targetFats"
    ensures forall k :: k in TargetFields <==> k == "targetProtein" || k == "targetCarbs" || k == "targetFats"
  {
    assert "targetProtein"[6] == 'P' && "targetCarbs"[6] == 'C' && "targetFats"[6] == 'F';
  }

  /** The page's state that the handlers read and write. */
  datatype PageState = PageState(form: Obj<Field>, errors: Obj<string>, mealPlans: seq<Obj<real>>, selected: seq<nat>)

  /**
    `onChange`: the input takes the new value; its error, if it has a truthy one, becomes '';
    no other input or error changes.
   */
  function OnChange(s: PageState, name: string, value: Field): (r: PageState)
    ensures Get(r.form, name) == Some(value)
    ensures forall k :: k != name ==> Get(r.form, k) == Get(s.form, k)
    ensures Get(r.errors, name) == if Get(s.errors, name).None? then None else Some("")
    ensures forall k :: k != name ==> Get(r.errors, k) == Get(s.errors, k)
    ensures r.mealPlans == s.mealPlans && r.selected == s.selected
  {
    var errors := match Get(s.errors, name)
      case Some(m) => if m != "" then Set(s.errors, name, "") else s.errors
      case None => s.errors;
    s.(form := Set(s.form, name, value), errors := errors)
  }

  /** A submit's outcome: the state afterwards and whether the request went out with the form. */
  datatype Submission = Submission(state: PageState, sent: bool)

  /**
    `onSubmit`: with a failing target nothing is sent and only the errors change (the plans
    and the selection stay); otherwise the errors, plans and selection are cleared and the
    form is sent.
   */
  function OnSubmit(s: PageState): (r: Submission)
    ensures r.sent <==> AllValid(s.form)
    ensures !r.sent ==> r.state == s.(errors := Validate(s.form)) && r.state.errors.keys != []
    ensures r.sent ==> r.state == s.(errors := Empty(), mealPlans := [], selected := [])
  {
    var errors := Validate(s.form);
    if errors.keys != [] then Submission(s.(errors := errors), false)
    else Submission(s.(errors := Empty(), mealPlans := [], selected := []), true)
  }

  /** `onSubmitReverse`: the same checks; a passing form is sent and leaves plans and selection alone. */
  function OnSubmitReverse(s: PageState): (r: Submission)
    ensures r.sent <==> AllValid(s.form)
    ensures !r.sent ==> r.state == s.(errors := Validate(s.form))
    ensures r.sent ==> r.state == s.(errors := Empty())
  {
    var errors := Validate(s.form);
    if errors.keys != [] then Submission(s.(errors := errors), false)
    else Submission(s.(errors := Empty()), true)
  }

  /** The form the page starts with: empty targets and the savory flavour. */
  function InitialForm(): (f: Obj<Field>)
    ensures FieldOf(f, "targetProtein").text == "" && FieldOf(f, "targetCarbs").text == "" && FieldOf(f, "targetFats").text == ""
    ensures FieldOf(f, "flavorProfile").text == "savory"
  {
    var empty := Field("", Finite(0.0));
    var f := Set(Set(Set(Set(Empty(), "targetProtein", empty), "targetCarbs", empty), "targetFats", empty),
      "flavorProfile", Field("savory", NaN));
    assert Get(f, "targetProtein") == Some(empty);
    f
  }

  /** Submitting with all targets empty, as the untouched form is, sends nothing and marks all three as required. */
  lemma EmptyTargetsBlocked(s: PageState)
    requires FieldOf(s.form, "targetProtein").text == "" && FieldOf(s.form, "targetCarbs").text == ""
    requires FieldOf(s.form, "targetFats").text == ""
    ensures !OnSubmit(s).sent && !OnSubmitReverse(s).sent
    ensures Get(OnSubmit(s).state.errors, "targetProtein") == Some("Protein target is required")
    ensures Get(OnSubmit(s).state.errors, "targetCarbs") == Some("Carbs target is required")
    ensures Get(OnSubmit(s).state.errors, "targetFats") == Some("Fats target is required")
  {
    assert "targetProtein" in TargetFields && "targetCarbs" in TargetFields && "targetFats" in TargetFields;
  }

  /** The plans the solver answered with replace the list; nothing else changes. */
  function OnPlans(s: PageState, plans: seq<Obj<real>>): (r: PageState)
    ensures r.mealPlans == plans
    ensures r.form == s.form && r.errors == s.errors && r.selected == s.selected
  {
    s.(mealPlans := plans)
  }

  /** `toggleMealSelection` on the page: only the selection changes, and only at `index`. */
  function OnToggle(s: PageState, index: nat): (r: PageState)
    ensures r.form == s.form && r.errors == s.errors && r.mealPlans == s.mealPlans
    ensures index in r.selected <==> index !in s.selected
    ensures forall j :: j != index ==> (j in r.selected <==> j in s.selected)
  {
    s.(selected := Toggle(s.selected, index))
  }

  /** Every selected index names a plan on the page. */
  predicate SelectionShown(s: PageState) {
    ValidSelection(s.mealPlans, s.selected)
  }

  /**
    The selection only ever names shown plans: a forward submit clears it before the new plans
    arrive, and a card can only be toggled while it is shown.
   */
  lemma SelectionStaysShown(s: PageState, name: string, value: Field, plans: seq<Obj<real>>, index: nat)
    requires SelectionShown(s)
    ensures SelectionShown(OnChange(s, name, value))
    ensures SelectionShown(OnSubmit(s).state)
    ensures SelectionShown(OnSubmitReverse(s).state)
    ensures OnSubmit(s).sent ==> SelectionShown(OnPlans(OnSubmit(s).state, plans))
    ensures index < |s.mealPlans| ==> SelectionShown(OnToggle(s, index))
  {
    if index < |s.mealPlans| {
      var r := OnToggle(s, index);
      forall i | 0 <= i < |r.selected|
        ensures r.selected[i] < |r.mealPlans|
      {
        var j := r.selected[i];
        assert j in r.selected;
        if j != index {
          assert j in s.selected;
        }
      }
    }
  }

  /** What a consume click leads to. */
  datatype ConsumeStep = Nothing | AskConfirmation | Execute

  /** `handleConsume`: nothing without a selection; otherwise straight to consuming when the user opted out of the dialog. */
  function HandleConsume(selected: seq<nat>, dontAsk: bool): (r: ConsumeStep)
    ensures r == Nothing <==> selected == []
    ensures r == Execute <==> selected != [] && dontAsk
  {
    if selected == [] then Nothing else if dontAsk then Execute else AskConfirmation
  }

  /**
    `executeConsume`, reached from a click without the dialog or from its confirm button: the
    request carries the aggregate of the selected plans.
   */
  function ExecuteConsume(s: PageState): (r: Result<Obj<real>, string>)
    ensures SelectionShown(s) ==> r.Success? && forall k :: (Get(r.value, k) ==
      if InAny(s.mealPlans, s.selected, k) then Some(Total(s.mealPlans, s.selected, k)) else None)
    ensures !SelectionShown(s) ==> r == Failure("Failed to consume meals")
  {
    ConsumeRequest(s.mealPlans, s.selected)
  }

  /**
    A zero or negative target blocks the submit. The validation itself lets text that is not
    a number through: if it ran on such text, as the `type="number"` inputs prevent, the
    request would be sent.
   */
  lemma ZeroBlocksButTextPasses(s: PageState)
    requires FieldOf(s.form, "targetCarbs").text != "" && FieldOf(s.form, "targetFats").text != ""
    requires !NotPositive(FieldOf(s.form, "targetCarbs").number) && !NotPositive(FieldOf(s.form, "targetFats").number)
    ensures FieldOf(s.form, "targetProtein") == Field("0", Finite(0.0)) ==>
      !OnSubmit(s).sent && Get(OnSubmit(s).state.errors, "targetProtein") == Some("Protein target must be greater than 0")
    ensures FieldOf(s.form, "targetProtein") == Field("abc", NaN) ==> OnSubmit(s).sent
  {
    if FieldOf(s.form, "targetProtein") == Field("0", Finite(0.0)) {
      ZeroProteinBlocks(s);
    }
    if FieldOf(s.form, "targetProtein") == Field("abc", NaN) {
      TextProteinPasses(s);
    }
  }

  lemma ZeroProteinBlocks(s: PageState)
    requires FieldOf(s.form, "targetProtein") == Field("0", Finite(0.0))
    ensures !OnSubmit(s).sent && Get(OnSubmit(s).state.errors, "targetProtein") == Some("Protein target must be greater than 0")
  {
    TargetNamesDistinct();
    assert FieldError("targetProtein", FieldOf(s.form, "targetProtein")) == Some("Protein target must be greater than 0");
    assert !AllValid(s.form);
  }

  lemma TextProteinPasses(s: PageState)
    requires FieldOf(s.form, "targetProtein") == Field("abc", NaN)
    requires FieldOf(s.form, "targetCarbs").text != "" && FieldOf(s.form, "targetFats").text != ""
    requires !NotPositive(FieldOf(s.form, "targetCarbs").number) && !NotPositive(FieldOf(s.form, "targetFats").number)
    ensures OnSubmit(s).sent
  {
    TargetNamesDistinct();
    assert FieldError("targetProtein", FieldOf(s.form, "targetProtein")).None?;
    assert AllValid(s.form);
  }

  /** An edit after a failed submit clears that field's message and keeps the others'. */
  lemma EditClearsOnlyThatError(s: PageState, value: Field)
    requires !OnSubmit(s).sent
    requires FieldError("targetProtein", FieldOf(s.form, "targetProtein")).Some?
    ensures
      var after := OnChange(OnSubmit(s).state, "targetProtein", value);
      && Get(after.errors, "targetProtein") == Some("")
      && Get(after.errors, "targetCarbs") == FieldError("targetCarbs", FieldOf(s.form, "targetCarbs"))
      && Get(after.errors, "targetFats") == FieldError("targetFats", FieldOf(s.form, "targetFats"))
  {
    var errors := OnSubmit(s).state.errors;
    assert "targetProtein" in TargetFields && "targetCarbs" in TargetFields && "targetFats" in TargetFields;
    assert Get(errors, "targetProtein").Some?;
  }
}

=== FILE: history.dfy ===
/**
  frontend/src/pages/History.jsx: the meal-history list. Deleting a log goes straight through
  or by way of a dialog that remembers the log; saving a log as a recipe turns its item lines
  into the name→grams object `createRecipe` takes.
 */
module History {
  import opened Js
  import opened JsObject
  import opened Nutrition
  import opened RecipeController
  import opened RecipesPage

  /** One eaten item of a log: the name it was logged under and the grams. */
  datatype LogItem = LogItem(ingredientName: string, amount: real)

  datatype MealLog = MealLog(id: nat, items: seq<LogItem>)

  /** What a delete click does: delete this id now, or open the dialog with `selectedLog = { _id: id }`. */
  datatype DeleteStep = DeleteNow(id: nat) | AskFirst(selectedLog: nat)

  /** `handleDeleteLog`: straight to deletion when the user opted out of the dialog. */
  function HandleDeleteLog(id: nat, dontAsk: bool): (r: DeleteStep)
    ensures dontAsk <==> r.DeleteNow?
    ensures r.DeleteNow? ==> r.id == id
    ensures r.AskFirst? ==> r.selectedLog == id
  {
    if dontAsk then DeleteNow(id) else AskFirst(id)
  }

  /** `id || selectedLog?._id`: the argument when one is given, else the remembered log's id. */
  function ChooseLogId(id: Option<nat>, selectedLog: Option<nat>): (r: Option<nat>)
    ensures id.Some? ==> r == id
    ensures id.None? ==> r == selectedLog
  {
    if id.Some? then id else selectedLog
  }

  /** The id a delete click ends up deleting, whichever path it takes (the dialog's confirm passes no id). */
  function DeletedId(step: DeleteStep): Option<nat> {
    match step
    case DeleteNow(id) => ChooseLogId(Some(id), None)
    case AskFirst(sel) => ChooseLogId(None, Some(sel))
  }

  /** Both paths delete the log that was clicked. */
  lemma BothPathsDeleteClicked(id: nat, dontAsk: bool)
    ensures DeletedId(HandleDeleteLog(id, dontAsk)) == Some(id)
  {
  }

  /** `prev.filter(log => log._id !== logId)`: the log goes, every other log stays in order. */
  function WithoutLog(history: seq<MealLog>, logId: nat): (r: seq<MealLog>)
    ensures forall i :: 0 <= i < |r| ==> r[i].id != logId && r[i] in history
    ensures forall i :: 0 <= i < |history| && history[i].id != logId ==> history[i] in r
  {
    Filter(history, (log: MealLog) => log.id != logId)
  }

  /** With distinct ids, removing one log is removing it at its position. */
  lemma WithoutLogRemovesOne(history: seq<MealLog>, k: nat)
    requires k < |history|
    requires forall i, j :: 0 <= i < j < |history| ==> history[i].id != history[j].id
    ensures WithoutLog(history, history[k].id) == history[..k] + history[k + 1..]
  {
    var id := history[k].id;
    forall j | 0 <= j < |history| && j != k
      ensures history[j].id != id
    {
      if j < k {
        assert history[j].id != history[k].id;
      } else {
        assert history[k].id != history[j].id;
      }
    }
    FilterSplice(history, k, (log: MealLog) => log.id != id);
  }

  /** The entries `{ [item.ingredientName]: item.amount }` of a log, in item order. */
  function ItemEntries(items: seq<LogItem>): (es: seq<Entry<real>>)
    ensures |es| == |items|
    ensures forall i :: 0 <= i < |items| ==> es[i] == Entry(items[i].ingredientName, items[i].amount)
  {
    seq(|items|, i requires 0 <= i < |items| => Entry(items[i].ingredientName, items[i].amount))
  }

  /** Item i is the last item logged under its name. */
  predicate LastLogged(items: seq<LogItem>, i: nat)
    requires i < |items|
  {
    forall j :: i < j < |items| ==> items[j].ingredientName != items[i].ingredientName
  }

  /** The `createRecipe` body a save sends. */
  datatype RecipeRequest = RecipeRequest(name: string, ingredients: Obj<real>)

  /**
    `executeSaveRecipe`: nothing is sent without a name or a selected log; otherwise the name
    and the object built from the log's items, where only logged names are keys and the last
    item with a name decides its amount.
   */
  function ExecuteSaveRecipe(name: Option<string>, selectedLog: Option<MealLog>): (r: Option<RecipeRequest>)
    ensures r.None? <==> Falsy(name) || selectedLog.None?
    ensures r.Some? ==> r.value.name == name.value
    ensures r.Some? ==> forall k :: (Get(r.value.ingredients, k).Some? <==>
      exists i :: 0 <= i < |selectedLog.value.items| && selectedLog.value.items[i].ingredientName == k)
    ensures r.Some? ==> forall i :: 0 <= i < |selectedLog.value.items| && LastLogged(selectedLog.value.items, i) ==>
      Get(r.value.ingredients, selectedLog.value.items[i].ingredientName) == Some(selectedLog.value.items[i].amount)
  {
    if Falsy(name) || selectedLog.None? then None
    else
      var items := selectedLog.value.items;
      var es := ItemEntries(items);
      var o := FromEntries(es);
      forall k
        ensures Get(o, k).Some? <==> exists i :: 0 <= i < |items| && items[i].ingredientName == k
      {
        FromEntriesHas(es, k);
        if exists i :: 0 <= i < |items| && items[i].ingredientName == k {
          var i :| 0 <= i < |items| && items[i].ingredientName == k;
          assert KeysOf(es)[i] == k;
        }
      }
      forall i | 0 <= i < |items| && LastLogged(items, i)
        ensures Get(o, items[i].ingredientName) == Some(items[i].amount)
      {
        FromEntriesLastWins(es, i);
      }
      Some(RecipeRequest(name.value, o))
  }

  /** A log without items makes an empty object, which `createRecipe` refuses. */
  lemma EmptyLogRefused(user: nat, id: nat, name: string, log: MealLog, catalog: seq<Ingredient>)
    requires name != "" && log.items == [] && AllStoredIngredients(catalog)
    ensures
      var req := ExecuteSaveRecipe(Some(name), Some(log)).value;
      CreateRecipe(user, id, Some(req.name), Some(req.ingredients), catalog) == Failure(MissingFields)
  {
  }

  /**
    Saving a log and then cooking the saved recipe asks to consume, for each logged name, the
    amount of its last item in the log again.
   */
  lemma SavedLogCooksAsLogged(user: nat, id: nat, name: string, log: MealLog, catalog: seq<Ingredient>, i: nat)
    requires name != "" && AllStoredIngredients(catalog)
    requires ExecuteSaveRecipe(Some(name), Some(log)).Some?
    requires
      var req := ExecuteSaveRecipe(Some(name), Some(log)).value;
      CreateRecipe(user, id, Some(req.name), Some(req.ingredients), catalog).Success?
    requires i < |log.items| && LastLogged(log.items, i)
    ensures
      var req := ExecuteSaveRecipe(Some(name), Some(log)).value;
      var recipe := CreateRecipe(user, id, Some(req.name), Some(req.ingredients), catalog).value;
      Get(CookPayload(recipe), log.items[i].ingredientName) == Some(log.items[i].amount)
  {
    var req := ExecuteSaveRecipe(Some(name), Some(log)).value;
    CookReturnsCreatedIngredients(user, id, Some(req.name), req.ingredients, catalog);
  }
}

=== FILE: ingredientcontroller.dfy ===
/**
  backend/controllers/ingredientController.js: `createIngredient`. The body's fields are
  checked, a missing serving size becomes 100 g, values given per some other serving are
  rescaled to per 100 g, and a name that matches a catalog name ignoring case is refused.
  The catalog is a sequence of ingredients; the new ingredient is appended to it.
 */
module IngredientController {
  import opened Js
  import opened Nutrition

  /** The fields of the request body that the handler reads. */
  datatype IngredientBody = IngredientBody(
    name: Option<string>,
    calories: Json,
    protein: Json,
    carbs: Json,
    fats: Json,
    servingSize: Json)

  datatype IngredientError = MissingFields | AlreadyExists

  function Message(e: IngredientError): string {
    match e
    case MissingFields => "Please fill in all fields"
    case AlreadyExists => "Ingredient already exists"
  }

  /** The validation guard: a falsy name, or any nutrient that is null or undefined. Zero passes. */
  predicate MissingField(b: IngredientBody) {
    || b.name.None? || b.name.value == ""
    || IsNullish(b.calories) || IsNullish(b.protein) || IsNullish(b.carbs) || IsNullish(b.fats)
  }

  /** `if (!servingSize) servingSize = 100` */
  function ServingOrDefault(v: Json): (r: Json)
    ensures Truthy(r) && !IsNullish(r)
    ensures Truthy(v) ==> r == v
    ensures !Truthy(v) ==> r == Number(100.0)
  {
    if Truthy(v) then v else Number(100.0)
  }

  /** The nutrient values exactly as given, once the schema has cast them to numbers. */
  function Given(b: IngredientBody): Macros
    requires !MissingField(b)
  {
    Macros(ToNumber(b.calories), ToNumber(b.protein), ToNumber(b.carbs), ToNumber(b.fats))
  }

  /**
    Normalisation takes place unless the (defaulted) serving size is the number 100 itself;
    the strict comparison means a text "100" is rescaled too (by a ratio of 1).
   */
  predicate Rescaled(b: IngredientBody) {
    ServingOrDefault(b.servingSize) != Number(100.0)
  }

  /**
    The serving size divides: a truthy number is never 0, but a non-empty text such as "0"
    converts to 0, for which the source computes an infinite ratio that this model leaves out.
   */
  predicate ScalableServing(b: IngredientBody) {
    !Rescaled(b) || ToNumber(ServingOrDefault(b.servingSize)) != 0.0
  }

  /** The factor that turns per-serving values into per-100 g values. */
  function Ratio(b: IngredientBody): real
    requires ScalableServing(b) && Rescaled(b)
  {
    100.0 / ToNumber(ServingOrDefault(b.servingSize))
  }

  /** Whole calories and tenths of a gram nearest to `per` scaled by `ratio`. */
  function Rescale(per: Macros, ratio: real): (m: Macros)
    ensures m.calories.Floor as real == m.calories
    ensures -0.5 < m.calories - per.calories * ratio <= 0.5
    ensures -0.05 <= m.protein - per.protein * ratio <= 0.05
    ensures -0.05 <= m.carbs - per.carbs * ratio <= 0.05
    ensures -0.05 <= m.fats - per.fats * ratio <= 0.05
    ensures (m.protein * 10.0).Floor as real == m.protein * 10.0
    ensures (m.carbs * 10.0).Floor as real == m.carbs * 10.0
    ensures (m.fats * 10.0).Floor as real == m.fats * 10.0
  {
    var calories := Round(per.calories * ratio);
    assert (calories as real).Floor as real == calories as real;
    Macros(calories as real, ToFixed1(per.protein * ratio), ToFixed1(per.carbs * ratio), ToFixed1(per.fats * ratio))
  }

  /**
    The stored per-100 g values: the given values when no rescaling takes place, and
    otherwise the given values rescaled by 100 / servingSize.
   */
  function Normalise(b: IngredientBody): (m: Macros)
    requires !MissingField(b) && ScalableServing(b)
    ensures !Rescaled(b) ==> m == Given(b)
    ensures Rescaled(b) ==> m == Rescale(Given(b), Ratio(b))
  {
    if !Rescaled(b) then Given(b) else Rescale(Given(b), Ratio(b))
  }

  /** Some catalog ingredient's name equals `name` ignoring case. */
  predicate NameTaken(catalog: seq<Ingredient>, name: string) {
    exists i :: 0 <= i < |catalog| && EqualsIgnoreCase(catalog[i].name, name)
  }

  /**
    `createIngredient`: refuses a body with a missing field, then a name the catalog already
    has ignoring case; otherwise answers the new ingredient, stored per 100 g.
   */
  function CreateIngredient(catalog: seq<Ingredient>, nextId: nat, b: IngredientBody): (r: Result<Ingredient, IngredientError>)
    requires !MissingField(b) ==> ScalableServing(b)
    ensures r == Failure(MissingFields) <==> MissingField(b)
    ensures r == Failure(AlreadyExists) <==> !MissingField(b) && NameTaken(catalog, b.name.value)
    ensures r.Success? ==>
      && r.value.id == nextId
      && r.value.name == b.name.value
      && r.value.servingSize == 100.0
      && Macros(r.value.calories, r.value.protein, r.value.carbs, r.value.fats) == Normalise(b)
  {
    if MissingField(b) then Failure(MissingFields)
    else
      var m := Normalise(b);
      if NameTaken(catalog, b.name.value) then Failure(AlreadyExists)
      else Success(Ingredient(nextId, b.name.value, m.calories, m.protein, m.carbs, m.fats, 100.0))
  }

  /** The catalog after a request: the new ingredient appended, or unchanged on a refusal. */
  function AfterCreate(catalog: seq<Ingredient>, r: Result<Ingredient, IngredientError>): (c: seq<Ingredient>)
    ensures r.Failure? ==> c == catalog
    ensures r.Success? ==> |c| == |catalog| + 1 && c[..|catalog|] == catalog && c[|catalog|] == r.value
  {
    match r
    case Success(ing) => catalog + [ing]
    case Failure(_) => catalog
  }

  /** No two catalog names are equal ignoring case. */
  predicate DistinctIgnoringCase(catalog: seq<Ingredient>) {
    forall i, j :: 0 <= i < j < |catalog| ==> !EqualsIgnoreCase(catalog[i].name, catalog[j].name)
  }

  /**
    The invariant the duplicate check keeps: names stay distinct ignoring case (hence also
    exactly, as the schema's unique index demands) and every ingredient keeps a positive
    serving size.
   */
  lemma CreatePreservesCatalog(catalog: seq<Ingredient>, nextId: nat, b: IngredientBody)
    requires !MissingField(b) ==> ScalableServing(b)
    requires DistinctIgnoringCase(catalog) && AllStoredIngredients(catalog)
    ensures DistinctIgnoringCase(AfterCreate(catalog, CreateIngredient(catalog, nextId, b)))
    ensures AllStoredIngredients(AfterCreate(catalog, CreateIngredient(catalog, nextId, b)))
  {
    var r := CreateIngredient(catalog, nextId, b);
    var c := AfterCreate(catalog, r);
    if r.Success? {
      forall i, j | 0 <= i < j < |c|
        ensures !EqualsIgnoreCase(c[i].name, c[j].name)
      {
        if j == |catalog| {
          assert c[i] == catalog[i];
          assert !NameTaken(catalog, b.name.value);
        } else {
          assert c[i] == catalog[i] && c[j] == catalog[j];
        }
      }
      forall i | 0 <= i < |c|
        ensures Stored(c[i])
      {
        if i < |catalog| {
          assert c[i] == catalog[i];
        }
      }
    }
  }

  /** A name that differs from a catalog name only in letter case is refused. */
  lemma CaseVariantRefused(catalog: seq<Ingredient>, nextId: nat, b: IngredientBody, i: nat)
    requires !MissingField(b) && ScalableServing(b)
    requires i < |catalog| && ToLower(catalog[i].name) == ToLower(b.name.value)
    ensures CreateIngredient(catalog, nextId, b) == Failure(AlreadyExists)
  {
    assert EqualsIgnoreCase(catalog[i].name, b.name.value);
  }

  /** The worked example: 165 kcal and 31/0/3.6 g per 150 g become 110 kcal and 20.7/0/2.4 g per 100 g. */
  lemma PerServingExample()
    ensures
      var b := IngredientBody(Some("Chicken"), Number(165.0), Number(31.0), Number(0.0), Number(3.6), Number(150.0));
      CreateIngredient([], 4, b) == Success(Ingredient(4, "Chicken", 110.0, 20.7, 0.0, 2.4, 100.0))
  {
    var b := IngredientBody(Some("Chicken"), Number(165.0), Number(31.0), Number(0.0), Number(3.6), Number(150.0));
    assert Rescaled(b);
    assert Ratio(b) == 100.0 / 150.0;
    RoundUnique(165.0 * (100.0 / 150.0), 110);
    assert ToFixed1(31.0 * (100.0 / 150.0)) == 20.7 by {
      assert Round(31.0 * (100.0 / 150.0) * 10.0) == 207 by {
        RoundUnique(31.0 * (100.0 / 150.0) * 10.0, 207);
      }
    }
    assert ToFixed1(0.0 * (100.0 / 150.0)) == 0.0 by {
      RoundUnique(0.0, 0);
    }
    assert ToFixed1(3.6 * (100.0 / 150.0)) == 2.4 by {
      RoundUnique(3.6 * (100.0 / 150.0) * 10.0, 24);
    }
  }

  /** A zero nutrient is a value, not a missing field; a serving size of 0 means the default 100. */
  lemma ZeroIsAccepted()
    ensures
      var b := IngredientBody(Some("Water"), Number(0.0), Number(0.0), Number(0.0), Number(0.0), Number(0.0));
      CreateIngredient([], 1, b) == Success(Ingredient(1, "Water", 0.0, 0.0, 0.0, 0.0, 100.0))
  {
    var b := IngredientBody(Some("Water"), Number(0.0), Number(0.0), Number(0.0), Number(0.0), Number(0.0));
    assert !Rescaled(b);
  }
}

=== FILE: js.dfy ===
/**
  The few JavaScript language rules the MacroMatch code leans on, stated over
  Dafny values: optional values and results, the truthiness of request fields,
  `Math.round`, `toFixed(1)`, `String.prototype.trim`, `startsWith`,
  case-insensitive comparison and `Array.prototype.filter`.
 */
module Js {

  datatype Option<+T> = None | Some(value: T) {
    /** `x ?? default` */
    function GetOr(default: T): T {
      match this
      case Some(v) => v
      case None => default
    }
  }

  /** A handler's outcome: the value it answers with, or the error it reports. */
  datatype Result<+R, +E> = Success(value: R) | Failure(error: E)

  /** A JavaScript number as the pages see it: finite, or NaN (`Number("abc")`). */
  datatype Num = Finite(r: real) | NaN

  /** A field of a JSON request body. Text carries the number `Number(text)` gives. */
  datatype Json = Undefined | Null | Number(r: real) | Text(s: string, asNumber: real)

  /** `v == null`: loose equality with null holds for null and undefined only. */
  predicate IsNullish(v: Json) {
    v.Undefined? || v.Null?
  }

  /** `!!v` for the values a JSON body can hold. */
  predicate Truthy(v: Json) {
    match v
    case Undefined => false
    case Null => false
    case Number(r) => r != 0.0
    case Text(s, _) => s != ""
  }

  /** `Number(v)`; `Number(undefined)` is NaN, which this model leaves out. */
  function ToNumber(v: Json): real
    requires !v.Undefined?
  {
    match v
    case Null => 0.0
    case Number(r) => r
    case Text(_, n) => n
  }

  /** Every truthy value is also non-null, so a truthiness check is the stricter one. */
  lemma TruthyIsNotNullish(v: Json)
    ensures Truthy(v) ==> !IsNullish(v)
    ensures v == Number(0.0) ==> !Truthy(v) && !IsNullish(v)
  {
  }

  function Min(a: real, b: real): (m: real)
    ensures m <= a && m <= b
    ensures m == a || m == b
  {
    if a <= b then a else b
  }

  function Max(a: real, b: real): (m: real)
    ensures a <= m && b <= m
    ensures m == a || m == b
  {
    if a >= b then a else b
  }

  /** `Math.round(x)`: the nearest integer, a half rounded towards +infinity. */
  function Round(x: real): (n: int)
    ensures x - 0.5 < n as real <= x + 0.5
  {
    (x + 0.5).Floor
  }

  /** The rounding is unique: an integer within half a unit below/above x is Round(x). */
  lemma RoundUnique(x: real, n: int)
    requires x - 0.5 < n as real <= x + 0.5
    ensures Round(x) == n
  {
  }

  /** The nearest tenth of a non-negative x, a half rounded up. */
  function Tenths(x: real): (y: real)
    requires x >= 0.0
    ensures -0.05 < y - x <= 0.05
    ensures y >= 0.0
    ensures (y * 10.0).Floor as real == y * 10.0
  {
    var n := Round(x * 10.0);
    assert n as real / 10.0 * 10.0 == n as real;
    n as real / 10.0
  }

  /**
    `Number(x.toFixed(1))` on exact reals: the nearest tenth, a half rounded
    away from zero (toFixed rounds the magnitude and puts the sign back).
   */
  function ToFixed1(x: real): (y: real)
    ensures -0.05 <= y - x <= 0.05
    ensures (y * 10.0).Floor as real == y * 10.0
    ensures (x >= 0.0 ==> y >= 0.0) && (x <= 0.0 ==> y <= 0.0)
  {
    if x < 0.0 then
      var t := Tenths(-x);
      var k := (t * 10.0).Floor;
      assert -t * 10.0 == (-k) as real;
      assert ((-k) as real).Floor == -k;
      -t
    else
      Tenths(x)
  }

  /** The characters `String.prototype.trim` removes (white space and line terminators). */
  predicate IsSpace(c: char) {
    || c == ' ' || c == '\t' || c == '\n' || c == '\r'
    || c == '\U{000B}' || c == '\U{000C}' || c == '\U{00A0}' || c == '\U{1680}'
    || ('\U{2000}' <= c <= '\U{200A}')
    || c == '\U{2028}' || c == '\U{2029}' || c == '\U{202F}' || c == '\U{205F}'
    || c == '\U{3000}' || c == '\U{FEFF}'
  }

  function TrimStart(s: string): (r: string)
    ensures |r| <= |s| && r == s[|s| - |r|..]
    ensures forall i :: 0 <= i < |s| - |r| ==> IsSpace(s[i])
    ensures r == [] || !IsSpace(r[0])
  {
    if s != [] && IsSpace(s[0]) then TrimStart(s[1..]) else s
  }

  function TrimEnd(s: string): (r: string)
    ensures |r| <= |s| && r == s[..|r|]
    ensures forall i :: |r| <= i < |s| ==> IsSpace(s[i])
    ensures r == [] || !IsSpace(r[|r| - 1])
  {
    if s != [] && IsSpace(s[|s| - 1]) then TrimEnd(s[..|s| - 1]) else s
  }

  /**
    `s.trim()`: the input with its leading and trailing white space removed and the middle
    kept; empty exactly when s is white space only, otherwise it starts and ends with a non-space.
   */
  function Trim(s: string): (r: string)
    ensures |r| <= |s|
    ensures exists a, b :: 0 <= a <= b <= |s| && r == s[a..b]
                           && (forall i :: 0 <= i < a ==> IsSpace(s[i]))
                           && (forall i :: b <= i < |s| ==> IsSpace(s[i]))
    ensures r == [] <==> forall i :: 0 <= i < |s| ==> IsSpace(s[i])
    ensures r != [] ==> !IsSpace(r[0]) && !IsSpace(r[|r| - 1])
  {
    var t := TrimStart(s);
    var a := |s| - |t|;
    assert TrimEnd(t) == s[a..a + |TrimEnd(t)|];
    TrimEnd(t)
  }

  /** Trimming twice is trimming once. */
  lemma TrimIdempotent(s: string)
    ensures Trim(Trim(s)) == Trim(s)
  {
    var r := Trim(s);
    assert r == [] || (!IsSpace(r[0]) && !IsSpace(r[|r| - 1]));
    assert TrimStart(r) == r;
    assert TrimEnd(r) == r;
  }

  /** `s.startsWith(p)` */
  predicate StartsWith(s: string, p: string) {
    |p| <= |s| && s[..|p|] == p
  }

  function LowerChar(c: char): char {
    if 'A' <= c <= 'Z' then (c as int + 32) as char else c
  }

  function ToLower(s: string): (r: string)
    ensures |r| == |s|
    ensures forall i :: 0 <= i < |s| ==> r[i] == LowerChar(s[i])
  {
    seq(|s|, i requires 0 <= i < |s| => LowerChar(s[i]))
  }

  /** Equality ignoring case, the test a `^name$` pattern with the 'i' flag makes. */
  predicate EqualsIgnoreCase(a: string, b: string) {
    ToLower(a) == ToLower(b)
  }

  /** `s.filter(keep)`: the elements kept, in their order. */
  function Filter<T>(s: seq<T>, keep: T -> bool): (r: seq<T>)
    ensures |r| <= |s|
    ensures forall i :: 0 <= i < |r| ==> r[i] in s && keep(r[i])
    ensures forall i :: 0 <= i < |s| && keep(s[i]) ==> s[i] in r
  {
    if s == [] then [] else (if keep(s[0]) then [s[0]] else []) + Filter(s[1..], keep)
  }

  /** Filtering a concatenation filters each part in place: the kept elements keep their order. */
  lemma {:induction false} FilterAppend<T>(a: seq<T>, b: seq<T>, keep: T -> bool)
    ensures Filter(a + b, keep) == Filter(a, keep) + Filter(b, keep)
  {
    if a == [] {
      assert a + b == b;
    } else {
      assert (a + b)[0] == a[0];
      assert (a + b)[1..] == a[1..] + b;
      FilterAppend(a[1..], b, keep);
    }
  }

  /** Filtering with a test every element passes changes nothing. */
  lemma {:induction false} FilterKeepsAll<T>(s: seq<T>, keep: T -> bool)
    requires forall i :: 0 <= i < |s| ==> keep(s[i])
    ensures Filter(s, keep) == s
  {
    if s != [] {
      FilterKeepsAll(s[1..], keep);
    }
  }

  /** Filtering out exactly one element removes it and keeps the rest in order. */
  lemma FilterSplice<T>(s: seq<T>, k: nat, keep: T -> bool)
    requires k < |s| && !keep(s[k])
    requires forall j :: 0 <= j < |s| && j != k ==> keep(s[j])
    ensures Filter(s, keep) == s[..k] + s[k + 1..]
  {
    var before, after := s[..k], s[k + 1..];
    assert s == before + ([s[k]] + after);
    assert forall j :: 0 <= j < |after| ==> after[j] == s[k + 1 + j];
    FilterDropsBetween(before, s[k], after, keep);
  }

  /** The same, with the list given as the kept elements before and after the dropped one. */
  lemma FilterDropsBetween<T>(before: seq<T>, x: T, after: seq<T>, keep: T -> bool)
    requires !keep(x)
    requires forall j :: 0 <= j < |before| ==> keep(before[j])
    requires forall j :: 0 <= j < |after| ==> keep(after[j])
    ensures Filter(before + ([x] + after), keep) == before + after
  {
    FilterAppend(before, [x] + after, keep);
    FilterAppend([x], after, keep);
    FilterKeepsAll(before, keep);
    FilterKeepsAll(after, keep);
    assert Filter([x], keep) == [] by {
      assert [x][1..] == [];
    }
    assert [] + after == after;
  }
}

=== FILE: jsobject.dfy ===
/**
  Plain JavaScript objects used as dictionaries: the solver's model and result,
  meal plans, request bodies of the form `{ "Chicken": 100, "Rice": 50 }`.
  An object is its own string keys in insertion order, each once, and the value
  of each key. Assigning to a present key keeps its position, assigning to a new
  key appends it; an object literal with a repeated (computed) key behaves the
  same way. This is JavaScript's order for names that are not integer-like: such
  names ("1", "42") are listed first in JavaScript, in ascending order, and
  `__proto__` is no own key at all. Neither exception is modelled.
 */
module JsObject {
  import opened Js

  datatype Entry<V> = Entry(key: string, value: V)

  predicate NoDuplicates<T(==)>(s: seq<T>) {
    forall i, j :: 0 <= i < j < |s| ==> s[i] != s[j]
  }

  datatype Object<V> = Object(keys: seq<string>, values: map<string, V>)

  ghost predicate Valid<V>(o: Object<V>) {
    && NoDuplicates(o.keys)
    && forall k :: k in o.values <==> k in o.keys
  }

  type Obj<V> = o: Object<V> | Valid(o) witness Object([], map[])

  /** `{}` */
  function Empty<V>(): Obj<V> {
    Object([], map[])
  }

  /** `o[k]`, None when k is not an own key. */
  function Get<V>(o: Obj<V>, k: string): Option<V> {
    if k in o.values then Some(o.values[k]) else None
  }

  /** `o[k] = v` */
  function Set<V>(o: Obj<V>, k: string, v: V): (r: Obj<V>)
    ensures Get(r, k) == Some(v)
    ensures forall k' :: k' != k ==> Get(r, k') == Get(o, k')
    ensures r.keys == if k in o.values then o.keys else o.keys + [k]
  {
    Object(if k in o.values then o.keys else o.keys + [k], o.values[k := v])
  }

  /** `Object.entries(o)`: the entries in key order. */
  function Entries<V>(o: Obj<V>): (es: seq<Entry<V>>)
    ensures |es| == |o.keys|
    ensures forall i :: 0 <= i < |es| ==> es[i].key == o.keys[i] && Get(o, o.keys[i]) == Some(es[i].value)
  {
    seq(|o.keys|, i requires 0 <= i < |o.keys| => Entry(o.keys[i], o.values[o.keys[i]]))
  }

  /** The key of each entry in a list. */
  function KeysOf<V>(es: seq<Entry<V>>): (ks: seq<string>)
    ensures |ks| == |es|
    ensures forall i :: 0 <= i < |es| ==> ks[i] == es[i].key
  {
    seq(|es|, i requires 0 <= i < |es| => es[i].key)
  }

  /** The entries assigned one after another into o: `for (e of es) o[e.key] = e.value`. */
  function Assign<V>(o: Obj<V>, es: seq<Entry<V>>): Obj<V>
  {
    if es == [] then o else Set(Assign(o, es[..|es| - 1]), es[|es| - 1].key, es[|es| - 1].value)
  }

  /** The object a fresh `{}` becomes when the entries are assigned in order. */
  function FromEntries<V>(es: seq<Entry<V>>): Obj<V> {
    Assign(Empty(), es)
  }

  /** The position of the last entry with key k. */
  function LastIndex<V>(es: seq<Entry<V>>, k: string): (i: nat)
    requires k in KeysOf(es)
    ensures i < |es| && es[i].key == k
    ensures forall j :: i < j < |es| ==> es[j].key != k
  {
    if es[|es| - 1].key == k then |es| - 1
    else
      assert k in KeysOf(es[..|es| - 1]) by {
        var j :| 0 <= j < |es| && KeysOf(es)[j] == k;
        assert KeysOf(es[..|es| - 1])[j] == k;
      }
      LastIndex(es[..|es| - 1], k)
  }

  lemma KeysOfInit<V>(es: seq<Entry<V>>)
    requires es != []
    ensures KeysOf(es) == KeysOf(es[..|es| - 1]) + [es[|es| - 1].key]
  {
    var init := es[..|es| - 1];
    assert forall i :: 0 <= i < |init| ==> KeysOf(init)[i] == es[i].key;
  }

  /** After assigning a list of entries, the last assignment to a key decides its value; other keys keep theirs. */
  lemma {:induction false} AssignGet<V>(o: Obj<V>, es: seq<Entry<V>>, k: string)
    ensures Get(Assign(o, es), k) == if k in KeysOf(es) then Some(es[LastIndex(es, k)].value) else Get(o, k)
  {
    if es != [] {
      var init, last := es[..|es| - 1], es[|es| - 1];
      AssignGet(o, init, k);
      KeysOfInit(es);
      if last.key == k {
        assert LastIndex(es, k) == |es| - 1;
      } else {
        assert k in KeysOf(es) <==> k in KeysOf(init);
        if k in KeysOf(init) {
          assert LastIndex(es, k) == LastIndex(init, k);
          assert es[LastIndex(init, k)] == init[LastIndex(init, k)];
        }
      }
    }
  }

  /** A key of `FromEntries(es)` is exactly a key some entry has. */
  lemma FromEntriesHas<V>(es: seq<Entry<V>>, k: string)
    ensures Get(FromEntries(es), k).Some? <==> k in KeysOf(es)
  {
    AssignGet(Empty(), es, k);
  }

  /** The last entry with a key gives that key its value in `FromEntries(es)`. */
  lemma FromEntriesLastWins<V>(es: seq<Entry<V>>, i: nat)
    requires i < |es|
    requires forall j :: i < j < |es| ==> es[j].key != es[i].key
    ensures Get(FromEntries(es), es[i].key) == Some(es[i].value)
  {
    var k := es[i].key;
    assert KeysOf(es)[i] == k;
    var last := LastIndex(es, k);
    assert last == i by {
      assert es[last].key == k;
    }
    AssignGet(Empty(), es, k);
  }

  /** Building an object from the entries of an object gives that object back. */
  lemma FromEntriesOfEntries<V>(o: Obj<V>)
    ensures FromEntries(Entries(o)) == o
  {
    FromEntriesSameKeys(o);
    FromEntriesSameValues(o);
  }

  lemma FromEntriesSameKeys<V>(o: Obj<V>)
    ensures FromEntries(Entries(o)).keys == o.keys
  {
    var es := Entries(o);
    assert KeysOf(es) == o.keys;
    FromEntriesKeys(es);
  }

  lemma FromEntriesSameValues<V>(o: Obj<V>)
    ensures FromEntries(Entries(o)).values == o.values
  {
    var r := FromEntries(Entries(o));
    forall k
      ensures k in r.values <==> k in o.values
      ensures k in r.values ==> r.values[k] == o.values[k]
    {
      FromEntriesValue(o, k);
    }
  }

  /** Each key of an object gets its own value back from the object's entries. */
  lemma FromEntriesValue<V>(o: Obj<V>, k: string)
    ensures Get(FromEntries(Entries(o)), k) == Get(o, k)
  {
    var es := Entries(o);
    AssignGet(Empty(), es, k);
    if k in KeysOf(es) {
      var i := LastIndex(es, k);
      assert o.keys[i] == k;
    }
  }

  /** Entries with distinct keys are added to a fresh object in their order. */
  lemma {:induction false} FromEntriesKeys<V>(es: seq<Entry<V>>)
    requires NoDuplicates(KeysOf(es))
    ensures FromEntries(es).keys == KeysOf(es)
  {
    if es != [] {
      var init := es[..|es| - 1];
      KeysOfInit(es);
      NoDuplicatesPrefix(KeysOf(es), |es| - 1);
      FromEntriesKeys(init);
      assert es[|es| - 1].key !in KeysOf(init) by {
        forall i | 0 <= i < |init|
          ensures KeysOf(init)[i] != es[|es| - 1].key
        {
          assert KeysOf(es)[i] == KeysOf(init)[i];
        }
      }
    }
  }

  lemma NoDuplicatesPrefix<T>(s: seq<T>, n: nat)
    requires n <= |s| && NoDuplicates(s)
    ensures NoDuplicates(s[..n])
  {
  }
}

=== FILE: lp.dfy ===
/**
  The linear models both meal builders hand to javascript-lp-solver, and what a
  solution of such a model is. The library itself is not modelled: callers take
  it as a function from models to answers, and any guarantee about its answers is
  stated as the premise `Sound(model, answer)`.
 */
module Lp {
  import opened Js
  import opened JsObject

  /** A constraint's bounds: `{ min, max }` for a macro band, `{ max }` for a capacity. */
  datatype Bound = Bound(min: Option<real>, max: Option<real>)

  /**
    A javascript-lp-solver model: the attribute to optimise and the direction, the
    constraints by attribute name, and each variable's record of attribute coefficients.
   */
  datatype Model = Model(
    optimize: string,
    opType: string,
    constraints: Obj<Bound>,
    variables: Obj<Obj<real>>)

  /** Target grams of protein, carbs and fats. */
  datatype Targets = Targets(protein: real, carbs: real, fats: real)

  /** Grams a macro total may deviate from its target. */
  const Tolerance: real := 5.0

  function Band(target: real): Bound {
    Bound(Some(target - Tolerance), Some(target + Tolerance))
  }

  function Cap(max: real): Bound {
    Bound(None, Some(max))
  }

  /** The names of the three macro constraints. */
  const MacroNames: set<string> := {"protein", "carbs", "fats"}

  /** The model both builders start from: minimise "cost", each macro within its band, no variables. */
  function MacroModel(t: Targets): (m: Model)
    ensures m.optimize == "cost" && m.opType == "min"
    ensures m.constraints.keys == ["protein", "carbs", "fats"]
    ensures Get(m.constraints, "protein") == Some(Band(t.protein))
    ensures Get(m.constraints, "carbs") == Some(Band(t.carbs))
    ensures Get(m.constraints, "fats") == Some(Band(t.fats))
    ensures Get(m.constraints, "calories") == None
    ensures m.variables.keys == []
  {
    var bands := map["protein" := Band(t.protein), "carbs" := Band(t.carbs), "fats" := Band(t.fats)];
    assert bands.Keys == {"protein", "carbs", "fats"};
    Model("cost", "min", Object(["protein", "carbs", "fats"], bands), Empty())
  }

  /** One ingredient as the builders add it: a variable name, its coefficient record, its capacity. */
  datatype VarSpec = VarSpec(name: string, record: Obj<real>, cap: real)

  function VarEntries(vs: seq<VarSpec>): (es: seq<Entry<Obj<real>>>)
    ensures |es| == |vs|
    ensures forall i :: 0 <= i < |vs| ==> es[i] == Entry(vs[i].name, vs[i].record)
  {
    seq(|vs|, i requires 0 <= i < |vs| => Entry(vs[i].name, vs[i].record))
  }

  function CapEntries(vs: seq<VarSpec>): (es: seq<Entry<Bound>>)
    ensures |es| == |vs|
    ensures forall i :: 0 <= i < |vs| ==> es[i] == Entry(vs[i].name, Cap(vs[i].cap))
  {
    seq(|vs|, i requires 0 <= i < |vs| => Entry(vs[i].name, Cap(vs[i].cap)))
  }

  /**
    The builders' loop: for each spec in order, `variables[name] = record` and
    `constraints[name] = { max: cap }`. The two objects are independent, so doing
    all variable assignments and all constraint assignments each in order is the loop.
   */
  function AddAll(m: Model, vs: seq<VarSpec>): Model {
    m.(variables := Assign(m.variables, VarEntries(vs)), constraints := Assign(m.constraints, CapEntries(vs)))
  }

  /** After the loop, a name that some spec carries maps to its last spec's record and capacity. */
  lemma AddAllLookup(m: Model, vs: seq<VarSpec>, k: string)
    ensures k in KeysOf(VarEntries(vs)) <==> k in KeysOf(CapEntries(vs))
    ensures k in KeysOf(VarEntries(vs)) ==>
      var i := LastIndex(VarEntries(vs), k);
      && LastIndex(CapEntries(vs), k) == i
      && Get(AddAll(m, vs).variables, k) == Some(vs[i].record)
      && Get(AddAll(m, vs).constraints, k) == Some(Cap(vs[i].cap))
    ensures k !in KeysOf(VarEntries(vs)) ==>
      && Get(AddAll(m, vs).variables, k) == Get(m.variables, k)
      && Get(AddAll(m, vs).constraints, k) == Get(m.constraints, k)
  {
    AssignGet(m.variables, VarEntries(vs), k);
    AssignGet(m.constraints, CapEntries(vs), k);
    assert KeysOf(VarEntries(vs)) == KeysOf(CapEntries(vs));
    if k in KeysOf(VarEntries(vs)) {
      var i := LastIndex(VarEntries(vs), k);
      var j := LastIndex(CapEntries(vs), k);
      assert i == j;
    }
  }

  /** Starting without variables, every variable after the loop is the record of a spec of that name. */
  lemma AddAllVariable(m: Model, vs: seq<VarSpec>, n: string)
    requires m.variables.keys == []
    requires n in AddAll(m, vs).variables.values
    ensures exists j :: 0 <= j < |vs| && vs[j].name == n && AddAll(m, vs).variables.values[n] == vs[j].record
  {
    AddAllLookup(m, vs, n);
    assert Get(AddAll(m, vs).variables, n) == Some(AddAll(m, vs).variables.values[n]);
    assert Get(m.variables, n) == None;
    var j := LastIndex(VarEntries(vs), n);
    assert VarEntries(vs)[j] == Entry(vs[j].name, vs[j].record);
  }

  /** A spec that no later spec shares a name with decides that name's variable and capacity. */
  lemma AddAllLast(m: Model, vs: seq<VarSpec>, i: nat)
    requires i < |vs|
    requires forall j :: i < j < |vs| ==> vs[j].name != vs[i].name
    ensures Get(AddAll(m, vs).variables, vs[i].name) == Some(vs[i].record)
    ensures Get(AddAll(m, vs).constraints, vs[i].name) == Some(Cap(vs[i].cap))
  {
    var es := VarEntries(vs);
    assert es[i].key == vs[i].name;
    assert vs[i].name in KeysOf(es);
    var last := LastIndex(es, vs[i].name);
    assert last == i;
    AddAllLookup(m, vs, vs[i].name);
  }

  /** When every spec has the same capacity, every spec's name has that capacity. */
  lemma AddAllSameCap(m: Model, vs: seq<VarSpec>, cap: real, i: nat)
    requires i < |vs|
    requires forall j :: 0 <= j < |vs| ==> vs[j].cap == cap
    ensures Get(AddAll(m, vs).constraints, vs[i].name) == Some(Cap(cap))
  {
    assert KeysOf(VarEntries(vs))[i] == vs[i].name;
    AddAllLookup(m, vs, vs[i].name);
  }

  /** The coefficient of attribute c in a variable's record; an absent attribute counts 0. */
  function Coef(rec: Obj<real>, c: string): real {
    Get(rec, c).GetOr(0.0)
  }

  /** The value of a variable in an answer; a variable the answer leaves out is 0. */
  function Val(x: Obj<real>, v: string): real {
    Get(x, v).GetOr(0.0)
  }

  /** The left-hand side of constraint c at x: the sum of coefficient times value over the variables. */
  function Row(vars: seq<Entry<Obj<real>>>, c: string, x: Obj<real>): real {
    if vars == [] then 0.0 else Coef(vars[0].value, c) * Val(x, vars[0].key) + Row(vars[1..], c, x)
  }

  predicate Within(b: Bound, v: real) {
    (b.min.Some? ==> b.min.value <= v) && (b.max.Some? ==> v <= b.max.value)
  }

  /** x is a feasible point of m: no variable is negative and every constraint's row is within its bounds. */
  predicate Satisfies(m: Model, x: Obj<real>) {
    && (forall v :: v in m.variables.values ==> Val(x, v) >= 0.0)
    && (forall c :: c in m.constraints.values ==>
          Within(m.constraints.values[c], Row(Entries(m.variables), c, x)))
  }

  /**
    What `solver.Solve(model)` answers: the `feasible` flag and the numeric keys of the
    result object, that is `result` (the objective) and the variables it reports.
    The boolean keys `feasible` and `bounded` are not numbers and are not listed.
   */
  datatype SolverOutput = SolverOutput(feasible: bool, values: Obj<real>)

  /** The assumption made of the library: a feasible answer is a feasible point of the model. */
  predicate Sound(m: Model, out: SolverOutput) {
    out.feasible ==> Satisfies(m, out.values)
  }

  /** A row whose only non-zero coefficient is a 1 for variable k is the value of k. */
  lemma {:induction false} RowOfOwnName(vars: seq<Entry<Obj<real>>>, k: string, x: Obj<real>)
    requires NoDuplicates(KeysOf(vars))
    requires forall i :: 0 <= i < |vars| && vars[i].key == k ==> Coef(vars[i].value, k) == 1.0
    requires forall i :: 0 <= i < |vars| && vars[i].key != k ==> Coef(vars[i].value, k) == 0.0
    ensures Row(vars, k, x) == if k in KeysOf(vars) then Val(x, k) else 0.0
  {
    if vars != [] {
      assert KeysOf(vars) == [vars[0].key] + KeysOf(vars[1..]);
      RowOfOwnName(vars[1..], k, x);
    }
  }

  /**
    Capacity: at a feasible point, a variable that has a `{ max }` constraint under its
    own name, a coefficient 1 in it, and no other variable's record mentioning that
    name, is at most the max.
   */
  lemma CapacityRespected(m: Model, x: Obj<real>, k: string, max: real)
    requires Satisfies(m, x)
    requires Get(m.constraints, k) == Some(Cap(max))
    requires Get(m.variables, k).Some? && Coef(Get(m.variables, k).value, k) == 1.0
    requires forall v :: v in m.variables.values && v != k ==> Coef(m.variables.values[v], k) == 0.0
    ensures 0.0 <= Val(x, k) <= max
  {
    var es := Entries(m.variables);
    assert KeysOf(es) == m.variables.keys;
    forall i | 0 <= i < |es|
      ensures es[i].value == m.variables.values[es[i].key]
    {
    }
    RowOfOwnName(es, k, x);
    assert k in m.variables.values;
    assert k in KeysOf(es);
    assert Row(es, k, x) == Val(x, k);
    assert k in m.constraints.values && m.constraints.values[k] == Cap(max);
    assert Within(Cap(max), Row(es, k, x));
  }

  /** A macro band: at a feasible point, a constraint that is still `Band(t)` keeps its row within t ± 5. */
  lemma BandRespected(m: Model, x: Obj<real>, c: string, t: real)
    requires Satisfies(m, x)
    requires Get(m.constraints, c) == Some(Band(t))
    ensures t - Tolerance <= Row(Entries(m.variables), c, x) <= t + Tolerance
  {
  }
}

=== FILE: macrosolver.dfy ===
/**
  `solveMeal` of backend/utils/macroSolver.js: the pantry-based linear model. Every
  pantry item whose ingredient is populated becomes a variable whose record holds the
  ingredient's per-gram nutrients (per-100 g values divided by 100), a cost of 1 and a
  1 under its own name, and a capacity constraint `{ max: quantity }` under that name.
  The solver's answer is handed back as it is.
 */
module MacroSolver {
  import opened Js
  import opened JsObject
  import opened Nutrition
  import opened Lp

  /** A pantry item with its ingredient populated; None when the reference is dangling. */
  datatype PantryEntry = PantryEntry(ingredient: Option<Ingredient>, quantity: real)

  /** The attributes a pantry variable's record names besides the variable's own name. */
  const MealAttributes: set<string> := {"protein", "carbs", "fats", "calories", "cost"}

  /**
    The record of one pantry ingredient: the object literal of macroSolver.js with the
    computed own-name key last. A name equal to an attribute overwrites that attribute
    with 1 in its place; any other name is a sixth key.
   */
  function MealRecord(ing: Ingredient): (r: Obj<real>)
    ensures Get(r, ing.name) == Some(1.0)
    ensures forall c :: c != ing.name ==> Get(r, c) == Get(Attributes(ing), c)
  {
    Set(Attributes(ing), ing.name, 1.0)
  }

  /** The five attributes of the literal before the own-name key: per-gram macros and a unit cost. */
  function Attributes(ing: Ingredient): (r: Obj<real>)
    ensures Get(r, "protein") == Some(ing.protein / 100.0) && Get(r, "carbs") == Some(ing.carbs / 100.0)
    ensures Get(r, "fats") == Some(ing.fats / 100.0) && Get(r, "calories") == Some(ing.calories / 100.0)
    ensures Get(r, "cost") == Some(1.0)
    ensures forall c :: c !in MealAttributes ==> Get(r, c) == None
  {
    var values := map[
      "protein" := ing.protein / 100.0, "carbs" := ing.carbs / 100.0, "fats" := ing.fats / 100.0,
      "calories" := ing.calories / 100.0, "cost" := 1.0];
    assert values.Keys == MealAttributes;
    Object(["protein", "carbs", "fats", "calories", "cost"], values)
  }

  /** A pantry item whose ingredient is populated: the ingredient and the grams on hand. */
  datatype Stock = Stock(ing: Ingredient, quantity: real)

  /** The pantry items that take part, in pantry order: those with a populated ingredient. */
  function Stocked(items: seq<PantryEntry>): (r: seq<Stock>)
    ensures |r| <= |items|
    ensures forall j :: 0 <= j < |r| ==> PantryEntry(Some(r[j].ing), r[j].quantity) in items
  {
    if items == [] then []
    else
      var head := match items[0].ingredient
        case None => []
        case Some(ing) => [Stock(ing, items[0].quantity)];
      head + Stocked(items[1..])
  }

  /** One variable per stocked item: its name, its record, its quantity as the capacity. */
  function Specs(s: seq<Stock>): (vs: seq<VarSpec>)
    ensures |vs| == |s|
    ensures forall j :: 0 <= j < |s| ==> vs[j] == VarSpec(s[j].ing.name, MealRecord(s[j].ing), s[j].quantity)
  {
    seq(|s|, j requires 0 <= j < |s| => VarSpec(s[j].ing.name, MealRecord(s[j].ing), s[j].quantity))
  }

  /** The model `solveMeal` builds for the targets and the user's pantry. */
  function MealModel(t: Targets, items: seq<PantryEntry>): Model {
    AddAll(MacroModel(t), Specs(Stocked(items)))
  }

  /** `solveMeal(targets, pantryItems)`: the library's answer for the model, unchanged. */
  function SolveMeal(t: Targets, items: seq<PantryEntry>, lp: Model -> SolverOutput): SolverOutput {
    lp(MealModel(t, items))
  }

  /** No pantry ingredient carries the name k. */
  predicate NoItemNamed(items: seq<PantryEntry>, k: string) {
    forall i :: 0 <= i < |items| && items[i].ingredient.Some? ==> items[i].ingredient.value.name != k
  }

  lemma {:induction false} StockedAppend(a: seq<PantryEntry>, b: seq<PantryEntry>)
    ensures Stocked(a + b) == Stocked(a) + Stocked(b)
  {
    if a == [] {
      assert a + b == b;
    } else {
      assert (a + b)[0] == a[0];
      assert (a + b)[1..] == a[1..] + b;
      StockedAppend(a[1..], b);
    }
  }

  /** A name no pantry ingredient carries is no stocked item's name. */
  lemma StockNames(items: seq<PantryEntry>, k: string)
    requires NoItemNamed(items, k)
    ensures forall j :: 0 <= j < |Stocked(items)| ==> Stocked(items)[j].ing.name != k
  {
    var s := Stocked(items);
    forall j | 0 <= j < |s|
      ensures s[j].ing.name != k
    {
      assert PantryEntry(Some(s[j].ing), s[j].quantity) in items;
    }
  }

  /** A name no pantry ingredient carries is not a variable of the model. */
  lemma SpecNames(items: seq<PantryEntry>, k: string)
    requires NoItemNamed(items, k)
    ensures k !in KeysOf(VarEntries(Specs(Stocked(items))))
  {
    StockNames(items, k);
  }

  /** A pantry item without an ingredient adds no variable and no constraint. */
  lemma MissingIngredientIgnored(t: Targets, a: seq<PantryEntry>, b: seq<PantryEntry>, quantity: real)
    ensures MealModel(t, a + [PantryEntry(None, quantity)] + b) == MealModel(t, a + b)
  {
    StockedAppend(a + [PantryEntry(None, quantity)], b);
    StockedAppend(a, [PantryEntry(None, quantity)]);
    StockedAppend(a, b);
    assert Stocked([PantryEntry(None, quantity)]) == [];
    assert Stocked(a + [PantryEntry(None, quantity)] + b) == Stocked(a + b);
  }

  /**
    The objective is the minimum of "cost"; the macro bands are target ± 5 unless an
    ingredient is named like the macro; there is no calorie constraint unless an
    ingredient is named "calories".
   */
  lemma MealConstraints(t: Targets, items: seq<PantryEntry>)
    ensures MealModel(t, items).optimize == "cost" && MealModel(t, items).opType == "min"
    ensures NoItemNamed(items, "protein") ==> Get(MealModel(t, items).constraints, "protein") == Some(Band(t.protein))
    ensures NoItemNamed(items, "carbs") ==> Get(MealModel(t, items).constraints, "carbs") == Some(Band(t.carbs))
    ensures NoItemNamed(items, "fats") ==> Get(MealModel(t, items).constraints, "fats") == Some(Band(t.fats))
    ensures NoItemNamed(items, "calories") ==> Get(MealModel(t, items).constraints, "calories") == None
  {
    if NoItemNamed(items, "protein") { MacroConstraintKept(t, items, "protein"); }
    if NoItemNamed(items, "carbs") { MacroConstraintKept(t, items, "carbs"); }
    if NoItemNamed(items, "fats") { MacroConstraintKept(t, items, "fats"); }
    if NoItemNamed(items, "calories") { MacroConstraintKept(t, items, "calories"); }
  }

  /** A name no pantry ingredient carries keeps the constraint the base model gives it. */
  lemma MacroConstraintKept(t: Targets, items: seq<PantryEntry>, k: string)
    requires NoItemNamed(items, k)
    ensures Get(MealModel(t, items).constraints, k) == Get(MacroModel(t).constraints, k)
  {
    SpecNames(items, k);
    AddAllLookup(MacroModel(t), Specs(Stocked(items)), k);
  }

  /** The last stocked item with a given name sits at position |Stocked(items[..i])|. */
  lemma LastStock(items: seq<PantryEntry>, i: nat)
    requires i < |items| && items[i].ingredient.Some?
    requires NoItemNamed(items[i + 1..], items[i].ingredient.value.name)
    ensures
      var s := Stocked(items);
      var a := |Stocked(items[..i])|;
      && a < |s| && s[a] == Stock(items[i].ingredient.value, items[i].quantity)
      && forall j :: a < j < |s| ==> s[j].ing.name != items[i].ingredient.value.name
  {
    var k := items[i].ingredient.value.name;
    assert items == items[..i] + [items[i]] + items[i + 1..];
    StockedAppend(items[..i] + [items[i]], items[i + 1..]);
    StockedAppend(items[..i], [items[i]]);
    assert Stocked([items[i]]) == [Stock(items[i].ingredient.value, items[i].quantity)];
    StockNames(items[i + 1..], k);
  }

  /**
    A pantry item that no later item shares a name with decides its ingredient's
    variable (the ingredient's record) and capacity (the item's quantity): a later item
    with the same name overwrites an earlier one.
   */
  lemma MealItemLookup(t: Targets, items: seq<PantryEntry>, i: nat)
    requires i < |items| && items[i].ingredient.Some?
    requires NoItemNamed(items[i + 1..], items[i].ingredient.value.name)
    ensures
      var m := MealModel(t, items);
      var ing := items[i].ingredient.value;
      && Get(m.variables, ing.name) == Some(MealRecord(ing))
      && Get(m.constraints, ing.name) == Some(Cap(items[i].quantity))
  {
    var k := items[i].ingredient.value.name;
    LastStock(items, i);
    var a := |Stocked(items[..i])|;
    var vs := Specs(Stocked(items));
    var es := VarEntries(vs);
    assert es[a].key == k;
    assert k in KeysOf(es);
    var last := LastIndex(es, k);
    assert last == a;
    AddAllLookup(MacroModel(t), vs, k);
  }

  /** Every variable of the model is the record of a pantry ingredient of that name. */
  lemma MealVariable(t: Targets, items: seq<PantryEntry>, n: string)
    requires n in MealModel(t, items).variables.values
    ensures exists ing: Ingredient :: ing.name == n && MealModel(t, items).variables.values[n] == MealRecord(ing)
  {
    var s := Stocked(items);
    AddAllVariable(MacroModel(t), Specs(s), n);
    var j :| 0 <= j < |s| && Specs(s)[j].name == n &&
      MealModel(t, items).variables.values[n] == Specs(s)[j].record;
    assert MealModel(t, items).variables.values[n] == MealRecord(s[j].ing);
  }

  /** Every variable's cost coefficient is 1, so the objective is the total grams. */
  lemma MealCostIsOne(t: Targets, items: seq<PantryEntry>)
    ensures forall n :: n in MealModel(t, items).variables.values ==>
      Coef(MealModel(t, items).variables.values[n], "cost") == 1.0
  {
    forall n | n in MealModel(t, items).variables.values
      ensures Coef(MealModel(t, items).variables.values[n], "cost") == 1.0
    {
      MealVariable(t, items, n);
    }
  }

  /**
    If the library's answer is sound, a feasible answer never uses more of a pantry
    ingredient than its item's quantity (for a name that is not also an attribute).
   */
  lemma MealWithinPantry(t: Targets, items: seq<PantryEntry>, lp: Model -> SolverOutput, i: nat)
    requires Sound(MealModel(t, items), SolveMeal(t, items, lp))
    requires SolveMeal(t, items, lp).feasible
    requires i < |items| && items[i].ingredient.Some?
    requires items[i].ingredient.value.name !in MealAttributes
    requires NoItemNamed(items[i + 1..], items[i].ingredient.value.name)
    ensures 0.0 <= Val(SolveMeal(t, items, lp).values, items[i].ingredient.value.name) <= items[i].quantity
  {
    MealCapacityFacts(t, items, i);
    CapacityRespected(MealModel(t, items), SolveMeal(t, items, lp).values, items[i].ingredient.value.name, items[i].quantity);
  }

  /** An item named last under its own, non-attribute name has its cap, its unit coefficient and no rival coefficient. */
  lemma MealCapacityFacts(t: Targets, items: seq<PantryEntry>, i: nat)
    requires i < |items| && items[i].ingredient.Some?
    requires items[i].ingredient.value.name !in MealAttributes
    requires NoItemNamed(items[i + 1..], items[i].ingredient.value.name)
    ensures var m, k := MealModel(t, items), items[i].ingredient.value.name;
      && Get(m.constraints, k) == Some(Cap(items[i].quantity))
      && Get(m.variables, k).Some? && Coef(Get(m.variables, k).value, k) == 1.0
      && forall v :: v in m.variables.values && v != k ==> Coef(m.variables.values[v], k) == 0.0
  {
    var ing := items[i].ingredient.value;
    MealItemLookup(t, items, i);
    assert Get(MealRecord(ing), ing.name) == Some(1.0);
    OnlyOwnVariable(t, items, ing.name);
  }

  /** A name that is not an attribute appears in no other variable's record. */
  lemma OnlyOwnVariable(t: Targets, items: seq<PantryEntry>, k: string)
    requires k !in MealAttributes
    ensures forall v :: v in MealModel(t, items).variables.values && v != k ==>
      Coef(MealModel(t, items).variables.values[v], k) == 0.0
  {
    forall v | v in MealModel(t, items).variables.values && v != k
      ensures Coef(MealModel(t, items).variables.values[v], k) == 0.0
    {
      OtherVariableLacks(t, items, k, v);
    }
  }

  lemma OtherVariableLacks(t: Targets, items: seq<PantryEntry>, k: string, v: string)
    requires k !in MealAttributes
    requires v in MealModel(t, items).variables.values && v != k
    ensures Coef(MealModel(t, items).variables.values[v], k) == 0.0
  {
    MealVariable(t, items, v);
    var ing: Ingredient :| ing.name == v && MealModel(t, items).variables.values[v] == MealRecord(ing);
    assert Get(MealRecord(ing), k) == None;
  }

  /** If the library's answer is sound, a feasible answer meets each macro band. */
  lemma MealWithinBands(t: Targets, items: seq<PantryEntry>, lp: Model -> SolverOutput)
    requires Sound(MealModel(t, items), SolveMeal(t, items, lp))
    requires SolveMeal(t, items, lp).feasible
    requires NoItemNamed(items, "protein") && NoItemNamed(items, "carbs") && NoItemNamed(items, "fats")
    ensures
      var m := MealModel(t, items);
      var x := SolveMeal(t, items, lp).values;
      && t.protein - Tolerance <= Row(Entries(m.variables), "protein", x) <= t.protein + Tolerance
      && t.carbs - Tolerance <= Row(Entries(m.variables), "carbs", x) <= t.carbs + Tolerance
      && t.fats - Tolerance <= Row(Entries(m.variables), "fats", x) <= t.fats + Tolerance
  {
    var m := MealModel(t, items);
    var x := SolveMeal(t, items, lp).values;
    MealConstraints(t, items);
    BandRespected(m, x, "protein", t.protein);
    BandRespected(m, x, "carbs", t.carbs);
    BandRespected(m, x, "fats", t.fats);
  }

  /**
    An ingredient named "protein" takes the protein constraint over: it becomes that
    ingredient's capacity and the protein band is gone.
   */
  lemma ProteinNamedIngredient(t: Targets)
    ensures
      var egg := Ingredient(1, "protein", 155.0, 13.0, 1.1, 11.0, 100.0);
      Get(MealModel(t, [PantryEntry(Some(egg), 50.0)]).constraints, "protein") == Some(Cap(50.0))
  {
    var egg := Ingredient(1, "protein", 155.0, 13.0, 1.1, 11.0, 100.0);
    MealItemLookup(t, [PantryEntry(Some(egg), 50.0)], 0);
  }
}

=== FILE: mealselection.dfy ===
/**
  Choosing meal plans and consuming them, as both generator pages do
  (frontend/src/pages/GeneratorPage.jsx and frontend/src/pages/Generator.jsx):
  the selection is a list of plan indices that a click toggles, and consuming sends
  one object that maps each ingredient to the grams of it over all selected plans.
 */
module MealSelection {
  import opened Js
  import opened JsObject

  /** Filtering a list without repeated elements gives a list without repeated elements. */
  lemma {:induction false} FilterKeepsDistinct<T>(s: seq<T>, keep: T -> bool)
    requires NoDuplicates(s)
    ensures NoDuplicates(Filter(s, keep))
  {
    if s != [] {
      FilterKeepsDistinct(s[1..], keep);
      var rest := Filter(s[1..], keep);
      assert forall i :: 0 <= i < |rest| ==> rest[i] in s[1..];
      assert s[0] !in s[1..];
      assert Filter(s, keep) == (if keep(s[0]) then [s[0]] else []) + rest;
    }
  }

  /**
    `toggleMealSelection(index)`: a selected index is removed, an unselected one is appended.
    No other index changes membership, and a selection without repeats stays so.
   */
  function Toggle(selected: seq<nat>, index: nat): (r: seq<nat>)
    ensures index in r <==> index !in selected
    ensures forall j :: j != index ==> (j in r <==> j in selected)
    ensures NoDuplicates(selected) ==> NoDuplicates(r)
  {
    if index in selected then
      var r := Filter(selected, i => i != index);
      assert NoDuplicates(selected) ==> NoDuplicates(r) by {
        if NoDuplicates(selected) {
          FilterKeepsDistinct(selected, i => i != index);
        }
      }
      r
    else
      selected + [index]
  }

  /** Toggling an unselected index twice gives back the very same selection. */
  lemma ToggleTwice(selected: seq<nat>, index: nat)
    requires index !in selected
    ensures Toggle(Toggle(selected, index), index) == selected
  {
    var keep := (i: nat) => i != index;
    assert Toggle(selected, index) == selected + [index];
    FilterAppend(selected, [index], keep);
    FilterKeepsAll(selected, keep);
    assert Filter([index], keep) == [];
  }

  /** Toggling a selected index twice moves it to the end: membership is the same as before. */
  lemma ToggleTwiceMembership(selected: seq<nat>, index: nat)
    ensures forall j :: j in Toggle(Toggle(selected, index), index) <==> j in selected
  {
  }

  /**
    One step of the inner loop: `agg[k]` is truthy (present and non-zero) and the amount is
    added to it, or it is (re)started at the amount. Either way it ends at the old value plus
    the amount, counting an absent one as 0.
   */
  function Bump(acc: Obj<real>, e: Entry<real>): (r: Obj<real>)
    ensures Get(r, e.key) == Some(Get(acc, e.key).GetOr(0.0) + e.value)
  {
    match Get(acc, e.key)
    case Some(v) => if v != 0.0 then Set(acc, e.key, v + e.value) else Set(acc, e.key, e.value)
    case None => Set(acc, e.key, e.value)
  }

  /** A step for one ingredient leaves every other ingredient alone. */
  lemma BumpOther(acc: Obj<real>, e: Entry<real>, k: string)
    requires k != e.key
    ensures Get(Bump(acc, e), k) == Get(acc, k)
  {
  }

  /** The inner loop over one plan's entries, in order. */
  function AddPlan(acc: Obj<real>, es: seq<Entry<real>>): Obj<real> {
    if es == [] then acc else Bump(AddPlan(acc, es[..|es| - 1]), es[|es| - 1])
  }

  /** The sum of the amounts of the entries with key k. */
  function SumFor(es: seq<Entry<real>>, k: string): real {
    if es == [] then 0.0
    else SumFor(es[..|es| - 1], k) + (if es[|es| - 1].key == k then es[|es| - 1].value else 0.0)
  }

  /** Some entry has key k. */
  predicate HasKey(es: seq<Entry<real>>, k: string) {
    es != [] && (es[|es| - 1].key == k || HasKey(es[..|es| - 1], k))
  }

  /** What a key holds after entries `es` have been added to `acc`. */
  function Expected(acc: Obj<real>, es: seq<Entry<real>>, k: string): Option<real> {
    if Get(acc, k).Some? || HasKey(es, k) then Some(Get(acc, k).GetOr(0.0) + SumFor(es, k)) else None
  }

  /** After one plan's entries, a key holds its old value (0 when absent) plus that key's amounts. */
  lemma {:induction false} AddPlanGet(acc: Obj<real>, es: seq<Entry<real>>, k: string)
    ensures Get(AddPlan(acc, es), k) == Expected(acc, es, k)
  {
    if es != [] {
      AddPlanGet(acc, es[..|es| - 1], k);
      AddPlanStep(acc, es, k);
    }
  }

  /** The last entry's step, given the claim for the entries before it. */
  lemma AddPlanStep(acc: Obj<real>, es: seq<Entry<real>>, k: string)
    requires es != []
    requires Get(AddPlan(acc, es[..|es| - 1]), k) == Expected(acc, es[..|es| - 1], k)
    ensures Get(AddPlan(acc, es), k) == Expected(acc, es, k)
  {
    var init, e := es[..|es| - 1], es[|es| - 1];
    assert AddPlan(acc, es) == Bump(AddPlan(acc, init), e);
    if e.key == k {
      ExpectedSameKey(acc, es, k);
    } else {
      BumpOther(AddPlan(acc, init), e, k);
      ExpectedOtherKey(acc, es, k);
    }
  }

  /** A last entry with another key leaves the expected value as it was. */
  lemma ExpectedOtherKey(acc: Obj<real>, es: seq<Entry<real>>, k: string)
    requires es != [] && es[|es| - 1].key != k
    ensures Expected(acc, es, k) == Expected(acc, es[..|es| - 1], k)
  {
  }

  /** A last entry with key k adds its amount to the expected value. */
  lemma ExpectedSameKey(acc: Obj<real>, es: seq<Entry<real>>, k: string)
    requires es != [] && es[|es| - 1].key == k
    ensures Expected(acc, es, k) == Some(Expected(acc, es[..|es| - 1], k).GetOr(0.0) + es[|es| - 1].value)
  {
    var init := es[..|es| - 1];
    if !(Get(acc, k).Some? || HasKey(init, k)) {
      SumForAbsent(init, k);
    }
  }

  /** A key no entry carries has no amounts. */
  lemma {:induction false} SumForAbsent(es: seq<Entry<real>>, k: string)
    requires !HasKey(es, k)
    ensures SumFor(es, k) == 0.0
  {
    if es != [] {
      SumForAbsent(es[..|es| - 1], k);
    }
  }

  /** In a list with distinct keys, the amounts of key k are those of its one entry with that key. */
  lemma {:induction false} SumForDistinct(es: seq<Entry<real>>, k: string, i: nat)
    requires NoDuplicates(KeysOf(es))
    requires i < |es| && es[i].key == k
    ensures HasKey(es, k)
    ensures SumFor(es, k) == es[i].value
  {
    var init := es[..|es| - 1];
    if i == |es| - 1 {
      assert !HasKey(init, k) by {
        HasKeyWitness(init, k);
        forall j | 0 <= j < |init|
          ensures init[j].key != k
        {
          assert KeysOf(es)[j] != KeysOf(es)[i];
        }
      }
      SumForAbsent(init, k);
    } else {
      assert KeysOf(init) == KeysOf(es)[..|es| - 1];
      assert init[i] == es[i];
      assert es[|es| - 1].key != k by {
        assert KeysOf(es)[i] != KeysOf(es)[|es| - 1];
      }
      SumForDistinct(init, k, i);
    }
  }

  /** HasKey means what it says: some position holds the key. */
  lemma {:induction false} HasKeyWitness(es: seq<Entry<real>>, k: string)
    ensures HasKey(es, k) <==> exists j :: 0 <= j < |es| && es[j].key == k
  {
    if es != [] {
      var init := es[..|es| - 1];
      HasKeyWitness(init, k);
      if exists j :: 0 <= j < |es| && es[j].key == k {
        var j :| 0 <= j < |es| && es[j].key == k;
        if j < |es| - 1 {
          assert init[j].key == k;
        }
      }
      if HasKey(init, k) {
        var j :| 0 <= j < |init| && init[j].key == k;
        assert es[j].key == k;
      }
    }
  }

  /** An object's entries carry key k exactly when the object has k. */
  lemma EntriesHasKey(o: Obj<real>, k: string)
    ensures HasKey(Entries(o), k) <==> Get(o, k).Some?
  {
    HasKeyWitness(Entries(o), k);
  }

  /** The amounts of key k in an object's entries are its value, or 0 when it has none. */
  lemma SumForEntries(o: Obj<real>, k: string)
    ensures SumFor(Entries(o), k) == Get(o, k).GetOr(0.0)
  {
    var es := Entries(o);
    EntriesHasKey(o, k);
    if Get(o, k).Some? {
      assert KeysOf(es) == o.keys;
      var i :| 0 <= i < |o.keys| && o.keys[i] == k;
      SumForDistinct(es, k, i);
    } else {
      SumForAbsent(es, k);
    }
  }

  /** Every selected index names a plan. */
  predicate ValidSelection(plans: seq<Obj<real>>, selected: seq<nat>) {
    forall i :: 0 <= i < |selected| ==> selected[i] < |plans|
  }

  /** The outer loop: the plans' entries added in selection order. */
  function Consume(acc: Obj<real>, plans: seq<Obj<real>>, selected: seq<nat>): Obj<real>
    requires ValidSelection(plans, selected)
  {
    if selected == [] then acc
    else AddPlan(Consume(acc, plans, selected[..|selected| - 1]), Entries(plans[selected[|selected| - 1]]))
  }

  /** Some selected plan has ingredient k. */
  predicate InAny(plans: seq<Obj<real>>, selected: seq<nat>, k: string)
    requires ValidSelection(plans, selected)
  {
    exists i :: 0 <= i < |selected| && Get(plans[selected[i]], k).Some?
  }

  /** The reference total: the grams of k over the selected plans, a plan without k adding 0. */
  function Total(plans: seq<Obj<real>>, selected: seq<nat>, k: string): real
    requires ValidSelection(plans, selected)
  {
    if selected == [] then 0.0
    else Total(plans, selected[..|selected| - 1], k) + Get(plans[selected[|selected| - 1]], k).GetOr(0.0)
  }

  /** What a key holds after a whole plan has been added to `acc`. */
  function Combined(acc: Obj<real>, plan: Obj<real>, k: string): Option<real> {
    if Get(acc, k).Some? || Get(plan, k).Some? then Some(Get(acc, k).GetOr(0.0) + Get(plan, k).GetOr(0.0)) else None
  }

  /** Adding a whole plan to a running object adds the plan's amount of each key to it. */
  lemma AddPlanEntries(acc: Obj<real>, plan: Obj<real>, k: string)
    ensures Get(AddPlan(acc, Entries(plan)), k) == Combined(acc, plan, k)
  {
    var es := Entries(plan);
    AddPlanGet(acc, es, k);
    EntriesHasKey(plan, k);
    SumForEntries(plan, k);
    ExpectedIsCombined(acc, plan, es, k);
  }

  lemma ExpectedIsCombined(acc: Obj<real>, plan: Obj<real>, es: seq<Entry<real>>, k: string)
    requires HasKey(es, k) <==> Get(plan, k).Some?
    requires SumFor(es, k) == Get(plan, k).GetOr(0.0)
    ensures Expected(acc, es, k) == Combined(acc, plan, k)
  {
  }

  /** After the selected plans, a key is present exactly when some selected plan has it, with the sum of their amounts. */
  lemma {:induction false} ConsumeGet(plans: seq<Obj<real>>, selected: seq<nat>, k: string)
    requires ValidSelection(plans, selected)
    ensures Get(Consume(Empty(), plans, selected), k).Some? <==> InAny(plans, selected, k)
    ensures Get(Consume(Empty(), plans, selected), k).GetOr(0.0) == Total(plans, selected, k)
  {
    if selected != [] {
      var init := selected[..|selected| - 1];
      var plan := plans[selected[|selected| - 1]];
      var before := Consume(Empty(), plans, init);
      ConsumeGet(plans, init, k);
      AddWholePlan(before, plan, k);
      InAnyStep(plans, selected, k);
      assert Consume(Empty(), plans, selected) == AddPlan(before, Entries(plan));
    }
  }

  /** Adding a whole plan: k is present afterwards when it was before or the plan has it, and the amounts add. */
  lemma AddWholePlan(before: Obj<real>, plan: Obj<real>, k: string)
    ensures Get(AddPlan(before, Entries(plan)), k).Some? <==> Get(before, k).Some? || Get(plan, k).Some?
    ensures Get(AddPlan(before, Entries(plan)), k).GetOr(0.0) == Get(before, k).GetOr(0.0) + Get(plan, k).GetOr(0.0)
  {
    AddPlanEntries(before, plan, k);
  }

  /** Some selected plan has k exactly when one before the last does or the last does. */
  lemma InAnyStep(plans: seq<Obj<real>>, selected: seq<nat>, k: string)
    requires ValidSelection(plans, selected) && selected != []
    ensures InAny(plans, selected, k) <==>
      InAny(plans, selected[..|selected| - 1], k) || Get(plans[selected[|selected| - 1]], k).Some?
  {
    var init := selected[..|selected| - 1];
    if InAny(plans, selected, k) && Get(plans[selected[|selected| - 1]], k).None? {
      var i :| 0 <= i < |selected| && Get(plans[selected[i]], k).Some?;
      assert i < |init| && init[i] == selected[i];
    }
    if InAny(plans, init, k) {
      var i :| 0 <= i < |init| && Get(plans[init[i]], k).Some?;
      assert selected[i] == init[i];
    }
  }

  /**
    The consumption object: its keys are exactly the ingredients of the selected plans, and
    each maps to that ingredient's grams summed over the selected plans.
   */
  function Aggregate(plans: seq<Obj<real>>, selected: seq<nat>): (r: Obj<real>)
    requires ValidSelection(plans, selected)
    ensures forall k :: Get(r, k) == if InAny(plans, selected, k) then Some(Total(plans, selected, k)) else None
  {
    var r := Consume(Empty(), plans, selected);
    forall k
      ensures Get(r, k) == if InAny(plans, selected, k) then Some(Total(plans, selected, k)) else None
    {
      ConsumeGet(plans, selected, k);
      assert Get(r, k).Some? ==> Get(r, k) == Some(Get(r, k).GetOr(0.0));
    }
    r
  }

  /**
    The consume request: the aggregated object, or, when an index names no plan (reading
    its entries throws), the page's fallback error message.
   */
  function ConsumeRequest(plans: seq<Obj<real>>, selected: seq<nat>): (r: Result<Obj<real>, string>)
    ensures r.Success? <==> ValidSelection(plans, selected)
    ensures r.Success? ==> forall k :: (Get(r.value, k) ==
      if InAny(plans, selected, k) then Some(Total(plans, selected, k)) else None)
    ensures r.Failure? ==> r.error == "Failed to consume meals"
  {
    if ValidSelection(plans, selected) then Success(Aggregate(plans, selected)) else Failure("Failed to consume meals")
  }

  /** A selection of one plan totals that plan's own amounts. */
  lemma SinglePlanTotal(plans: seq<Obj<real>>, index: nat, k: string)
    requires index < |plans|
    ensures ValidSelection(plans, [index])
    ensures InAny(plans, [index], k) <==> Get(plans[index], k).Some?
    ensures Total(plans, [index], k) == Get(plans[index], k).GetOr(0.0)
  {
    var sel: seq<nat> := [index];
    assert sel[..0] == [];
    assert Total(plans, sel, k) == Total(plans, [], k) + Get(plans[index], k).GetOr(0.0);
    if Get(plans[index], k).Some? {
      assert 0 < |sel| && Get(plans[sel[0]], k).Some?;
    }
  }

  /** The worked example: plans {A: 100, B: 50} and {A: 30} selected together give {A: 130, B: 50}. */
  lemma TwoPlans(p0: Obj<real>, p1: Obj<real>)
    requires p0 == Set(Set(Empty(), "A", 100.0), "B", 50.0)
    requires p1 == Set(Empty(), "A", 30.0)
    ensures
      var r := Aggregate([p0, p1], [0, 1]);
      Get(r, "A") == Some(130.0) && Get(r, "B") == Some(50.0) && Get(r, "C") == None
  {
    assert Get(p0, "A") == Some(100.0) && Get(p0, "B") == Some(50.0) && Get(p0, "C") == None;
    assert Get(p1, "A") == Some(30.0) && Get(p1, "B") == None && Get(p1, "C") == None;
    PairTotal([p0, p1], 0, 1, "A");
    PairTotal([p0, p1], 0, 1, "B");
    PairTotal([p0, p1], 0, 1, "C");
  }

  /** A selection of two plans totals the sum of their amounts. */
  lemma PairTotal(plans: seq<Obj<real>>, i: nat, j: nat, k: string)
    requires i < |plans| && j < |plans|
    ensures ValidSelection(plans, [i, j])
    ensures InAny(plans, [i, j], k) <==> Get(plans[i], k).Some? || Get(plans[j], k).Some?
    ensures Total(plans, [i, j], k) == Get(plans[i], k).GetOr(0.0) + Get(plans[j], k).GetOr(0.0)
  {
    var sel: seq<nat> := [i, j];
    SinglePlanTotal(plans, i, k);
    assert sel[..1] == [i];
    InAnyStep(plans, sel, k);
  }
}

=== FILE: nutrition.dfy ===
/**
  Ingredients and macro totals, shared by the solver, the recipe handler and the pages.
  An ingredient's nutrient values are given per serving of `servingSize` grams; the
  nutrients in `g` grams are every value times g / servingSize.
 */
module Nutrition {
  import opened Js
  import opened JsObject

  /** A catalog ingredient (models/Ingredient.js). */
  datatype Ingredient = Ingredient(
    id: nat,
    name: string,
    calories: real,
    protein: real,
    carbs: real,
    fats: real,
    servingSize: real)

  /**
    What every stored ingredient satisfies: a positive serving size. createIngredient
    stores 100 for every ingredient and the schema default is 100.
   */
  predicate Stored(ing: Ingredient) {
    ing.servingSize > 0.0
  }

  predicate AllStoredIngredients(catalog: seq<Ingredient>) {
    forall i :: 0 <= i < |catalog| ==> Stored(catalog[i])
  }

  /** A `{ calories, protein, carbs, fats }` record. */
  datatype Macros = Macros(calories: real, protein: real, carbs: real, fats: real)

  function Zero(): Macros {
    Macros(0.0, 0.0, 0.0, 0.0)
  }

  function Plus(a: Macros, b: Macros): Macros {
    Macros(a.calories + b.calories, a.protein + b.protein, a.carbs + b.carbs, a.fats + b.fats)
  }

  /** The nutrients in `grams` of an ingredient. */
  function Portion(ing: Ingredient, grams: real): (m: Macros)
    requires Stored(ing)
    ensures grams == ing.servingSize ==>
      m == Macros(ing.calories, ing.protein, ing.carbs, ing.fats)
    ensures grams == 0.0 ==> m == Zero()
  {
    var ratio := grams / ing.servingSize;
    Macros(ing.calories * ratio, ing.protein * ratio, ing.carbs * ratio, ing.fats * ratio)
  }

  /** An ingredient together with the amount of it that is eaten. */
  datatype Serving = Serving(ingredient: Ingredient, grams: real)

  predicate AllStored(ss: seq<Serving>) {
    forall i :: 0 <= i < |ss| ==> Stored(ss[i].ingredient)
  }

  /** The reference total: the sum of the portions of every serving. */
  function Sum(ss: seq<Serving>): Macros
    requires AllStored(ss)
  {
    if ss == [] then Zero() else Plus(Portion(ss[0].ingredient, ss[0].grams), Sum(ss[1..]))
  }

  lemma {:induction false} SumAppend(a: seq<Serving>, b: seq<Serving>)
    requires AllStored(a) && AllStored(b)
    ensures AllStored(a + b)
    ensures Sum(a + b) == Plus(Sum(a), Sum(b))
  {
    if a == [] {
      assert a + b == b;
    } else {
      assert (a + b)[0] == a[0];
      assert (a + b)[1..] == a[1..] + b;
      SumAppend(a[1..], b);
    }
  }

  /** A running total: `totals.x += portion.x` for each serving in order, starting from acc. */
  function AddUp(acc: Macros, ss: seq<Serving>): (r: Macros)
    requires AllStored(ss)
    ensures r == Plus(acc, Sum(ss))
    decreases |ss|
  {
    if ss == [] then acc else AddUp(Plus(acc, Portion(ss[0].ingredient, ss[0].grams)), ss[1..])
  }

  /** `new Map(ingredients.map(ing => [ing.name, ing]))`: a later ingredient with the same name replaces an earlier one. */
  function ByName(catalog: seq<Ingredient>): (m: map<string, Ingredient>)
    ensures forall i :: 0 <= i < |catalog| ==> catalog[i].name in m
    ensures forall n :: n in m ==> exists i :: 0 <= i < |catalog| && m[n] == catalog[i] && catalog[i].name == n
  {
    if catalog == [] then map[]
    else
      var last := catalog[|catalog| - 1];
      var m := ByName(catalog[..|catalog| - 1]);
      assert forall i :: 0 <= i < |catalog| - 1 ==> catalog[i] == catalog[..|catalog| - 1][i];
      m[last.name := last]
  }

  lemma ByNameStored(catalog: seq<Ingredient>)
    requires AllStoredIngredients(catalog)
    ensures forall n :: n in ByName(catalog) ==> Stored(ByName(catalog)[n])
  {
  }

  /** The servings a plan describes: one per entry whose name the lookup knows, in plan order. */
  function PlanServings(es: seq<Entry<real>>, byName: map<string, Ingredient>): (ss: seq<Serving>)
    ensures |ss| <= |es|
    ensures forall i :: 0 <= i < |ss| ==> ss[i].ingredient in byName.Values
  {
    if es == [] then []
    else
      (if es[0].key in byName then [Serving(byName[es[0].key], es[0].value)] else [])
      + PlanServings(es[1..], byName)
  }

  predicate StoredLookup(byName: map<string, Ingredient>) {
    forall n :: n in byName ==> Stored(byName[n])
  }

  /**
    The accumulation of solverController.js: starting from `acc`, every plan entry whose
    name the lookup knows adds the portion of that ingredient; unknown names are skipped.
    It ends at `acc` plus the reference total of the plan's servings.
   */
  function Accumulate(acc: Macros, es: seq<Entry<real>>, byName: map<string, Ingredient>): (r: Macros)
    requires StoredLookup(byName)
    ensures AllStored(PlanServings(es, byName))
    ensures r == Plus(acc, Sum(PlanServings(es, byName)))
    decreases |es|
  {
    if es == [] then acc
    else
      var name := es[0].key;
      var next := if name in byName then Plus(acc, Portion(byName[name], es[0].value)) else acc;
      var head := if name in byName then [Serving(byName[name], es[0].value)] else [];
      var r := Accumulate(next, es[1..], byName);
      assert PlanServings(es, byName) == head + PlanServings(es[1..], byName);
      SumAppend(head, PlanServings(es[1..], byName));
      r
  }

  lemma {:induction false} PlanServingsAppend(a: seq<Entry<real>>, b: seq<Entry<real>>, byName: map<string, Ingredient>)
    ensures PlanServings(a + b, byName) == PlanServings(a, byName) + PlanServings(b, byName)
  {
    if a == [] {
      assert a + b == b;
    } else {
      assert (a + b)[0] == a[0];
      assert (a + b)[1..] == a[1..] + b;
      PlanServingsAppend(a[1..], b, byName);
    }
  }

  /** Entries whose names the lookup does not know add nothing to the total. */
  lemma {:induction false} UnknownNamesAddNothing(es: seq<Entry<real>>, byName: map<string, Ingredient>)
    requires StoredLookup(byName)
    ensures PlanServings(es, byName) == PlanServings(Filter(es, (e: Entry<real>) => e.key in byName), byName)
  {
    if es != [] {
      var keep := (e: Entry<real>) => e.key in byName;
      UnknownNamesAddNothing(es[1..], byName);
      assert Filter(es, keep) == (if keep(es[0]) then [es[0]] else []) + Filter(es[1..], keep);
      PlanServingsAppend(if keep(es[0]) then [es[0]] else [], Filter(es[1..], keep), byName);
    }
  }

  /** A plan that names no known ingredient has a zero total. */
  lemma {:induction false} AllUnknownIsZero(es: seq<Entry<real>>, byName: map<string, Ingredient>)
    requires StoredLookup(byName)
    requires forall i :: 0 <= i < |es| ==> es[i].key !in byName
    ensures Accumulate(Zero(), es, byName) == Zero()
  {
    if es != [] {
      AllUnknownIsZero(es[1..], byName);
    }
  }

  /** The worked example: 200 g of an ingredient with 20/0/5 g per 100 g gives 40/0/10 g. */
  lemma TwoHundredGrams()
    ensures
      var a := Ingredient(1, "A", 125.0, 20.0, 0.0, 5.0, 100.0);
      var t := Accumulate(Zero(), [Entry("A", 200.0)], map["A" := a]);
      t.protein == 40.0 && t.carbs == 0.0 && t.fats == 10.0 && t.calories == 250.0
  {
    var a := Ingredient(1, "A", 125.0, 20.0, 0.0, 5.0, 100.0);
    var m := map["A" := a];
    var es := [Entry("A", 200.0)];
    assert es[1..] == [];
    assert PlanServings(es, m) == [Serving(a, 200.0)];
    assert Portion(a, 200.0) == Macros(250.0, 40.0, 0.0, 10.0);
  }
}

=== FILE: pantrycontroller.dfy ===
/**
  backend/controllers/pantryController.js with models/PantryItem.js: a user's pantry is a
  store of items, each the quantity (in grams) of one ingredient. The schema allows one item
  per (user, ingredient) pair and no negative quantity. Adding, changing and removing an item
  are total operations on the store that answer the new store or an error and leave the
  store as it was on an error.
 */
module PantryController {
  import opened Js

  /** A stored pantry item: its id, its owner, the catalog ingredient's id and the grams held. */
  datatype PantryItem = PantryItem(id: nat, user: nat, ingredient: nat, quantity: real)

  datatype PantryError = MissingFields | AlreadyInPantry | NegativeQuantity | InvalidQuantity | NotFound

  /**
    The messages the handlers answer with; a schema refusal answers the schema's own message,
    which also quotes the refused value in parentheses after the path name; the message
    here leaves that value out.
   */
  function Message(e: PantryError): string {
    match e
    case MissingFields => "Please complete all fields"
    case AlreadyInPantry => "Ingredient already in pantry. Please update the quantity instead."
    case NegativeQuantity => "PantryItem validation failed: quantity: Path `quantity` is less than minimum allowed value (0)."
    case InvalidQuantity => "Please provide a valid quantity"
    case NotFound => "Pantry item not found"
  }

  /** A store's answer to a request that changes one item: the new store and that item. */
  datatype Change = Change(store: seq<PantryItem>, item: PantryItem)

  /** Item ids are distinct, each (user, ingredient) pair has at most one item, and no quantity is negative. */
  predicate Consistent(store: seq<PantryItem>) {
    && (forall i, j :: 0 <= i < j < |store| ==> store[i].id != store[j].id)
    && (forall i, j :: 0 <= i < j < |store| ==>
          store[i].user != store[j].user || store[i].ingredient != store[j].ingredient)
    && (forall i :: 0 <= i < |store| ==> store[i].quantity >= 0.0)
  }

  /** The user already holds an item of this ingredient. */
  predicate Holds(store: seq<PantryItem>, user: nat, ingredient: nat) {
    exists i :: 0 <= i < |store| && store[i].user == user && store[i].ingredient == ingredient
  }

  predicate IdUsed(store: seq<PantryItem>, id: nat) {
    exists i :: 0 <= i < |store| && store[i].id == id
  }

  /**
    `postPantryItem`: a missing ingredient id or a null/undefined quantity is refused, then an
    ingredient the user already holds, then (by the schema) a negative quantity; otherwise
    one item is appended for the user with the given quantity under the id `nextId`.
   */
  function PostPantryItem(store: seq<PantryItem>, user: nat, nextId: nat, ingredientId: Option<nat>, quantity: Json)
    : (r: Result<Change, PantryError>)
    ensures r == Failure(MissingFields) <==> ingredientId.None? || IsNullish(quantity)
    ensures r == Failure(AlreadyInPantry) <==>
      ingredientId.Some? && !IsNullish(quantity) && Holds(store, user, ingredientId.value)
    ensures r == Failure(NegativeQuantity) <==>
      ingredientId.Some? && !IsNullish(quantity) && !Holds(store, user, ingredientId.value) && ToNumber(quantity) < 0.0
    ensures r.Success? <==>
      ingredientId.Some? && !IsNullish(quantity) && !Holds(store, user, ingredientId.value) && ToNumber(quantity) >= 0.0
    ensures r.Success? ==>
      && r.value.item == PantryItem(nextId, user, ingredientId.value, ToNumber(quantity))
      && r.value.store == store + [r.value.item]
      && r.value.item.quantity >= 0.0
  {
    if ingredientId.None? || IsNullish(quantity) then Failure(MissingFields)
    else if Holds(store, user, ingredientId.value) then Failure(AlreadyInPantry)
    else if ToNumber(quantity) < 0.0 then Failure(NegativeQuantity)
    else
      var item := PantryItem(nextId, user, ingredientId.value, ToNumber(quantity));
      Success(Change(store + [item], item))
  }

  /** The position of the item with this id owned by this user, if any. */
  function Position(store: seq<PantryItem>, id: nat, user: nat): (r: Option<nat>)
    ensures r.Some? ==> r.value < |store| && store[r.value].id == id && store[r.value].user == user
    ensures r.None? <==> forall j :: 0 <= j < |store| ==> !(store[j].id == id && store[j].user == user)
  {
    if store == [] then None
    else if store[0].id == id && store[0].user == user then Some(0)
    else
      match Position(store[1..], id, user)
      case None => None
      case Some(k) => Some(k + 1)
  }

  /** `updatedStore` is `store` with only item k given the quantity q. */
  predicate QuantityChanged(store: seq<PantryItem>, updatedStore: seq<PantryItem>, k: nat, q: real) {
    && |updatedStore| == |store| && k < |store|
    && updatedStore[k] == store[k].(quantity := q)
    && forall j :: 0 <= j < |store| && j != k ==> updatedStore[j] == store[j]
  }

  /**
    `updatePantryItem`: an undefined or negative quantity is refused; an id the user does not
    own is not found; otherwise only that item's quantity changes.
   */
  function UpdatePantryItem(store: seq<PantryItem>, id: nat, user: nat, quantity: Json): (r: Result<Change, PantryError>)
    ensures r == Failure(InvalidQuantity) <==> quantity.Undefined? || ToNumber(quantity) < 0.0
    ensures r == Failure(NotFound) <==>
      !quantity.Undefined? && ToNumber(quantity) >= 0.0 &&
      forall j :: 0 <= j < |store| ==> !(store[j].id == id && store[j].user == user)
    ensures r.Success? <==>
      !quantity.Undefined? && ToNumber(quantity) >= 0.0 &&
      exists j :: 0 <= j < |store| && store[j].id == id && store[j].user == user
    ensures r.Success? ==>
      exists k :: 0 <= k < |store| && store[k].id == id && store[k].user == user &&
        QuantityChanged(store, r.value.store, k, ToNumber(quantity)) && r.value.item == r.value.store[k]
  {
    if quantity.Undefined? || ToNumber(quantity) < 0.0 then Failure(InvalidQuantity)
    else
      match Position(store, id, user)
      case None => Failure(NotFound)
      case Some(k) =>
        var item := store[k].(quantity := ToNumber(quantity));
        Success(Change(store[k := item], item))
  }

  /** `deletePantryItem`: the item with this id owned by this user goes, the rest keep their order. */
  function DeletePantryItem(store: seq<PantryItem>, id: nat, user: nat): (r: Result<seq<PantryItem>, PantryError>)
    ensures r.Failure? <==> forall j :: 0 <= j < |store| ==> !(store[j].id == id && store[j].user == user)
    ensures r.Failure? ==> r.error == NotFound
    ensures r.Success? ==>
      exists k :: 0 <= k < |store| && store[k].id == id && store[k].user == user && r.value == store[..k] + store[k + 1..]
  {
    match Position(store, id, user)
    case None => Failure(NotFound)
    case Some(k) => Success(store[..k] + store[k + 1..])
  }

  /** The store after a request: the changed store, or the same store on a refusal. */
  function After(store: seq<PantryItem>, r: Result<Change, PantryError>): (s: seq<PantryItem>)
    ensures r.Failure? ==> s == store
    ensures r.Success? ==> s == r.value.store
  {
    match r
    case Success(c) => c.store
    case Failure(_) => store
  }

  /** Adding keeps the store consistent, given a fresh id: the duplicate check is what keeps pairs unique. */
  lemma PostKeepsConsistent(store: seq<PantryItem>, user: nat, nextId: nat, ingredientId: Option<nat>, quantity: Json)
    requires Consistent(store) && !IdUsed(store, nextId)
    ensures Consistent(After(store, PostPantryItem(store, user, nextId, ingredientId, quantity)))
  {
    var r := PostPantryItem(store, user, nextId, ingredientId, quantity);
    if r.Success? {
      var s := r.value.store;
      var n := |store|;
      forall i, j | 0 <= i < j < |s|
        ensures s[i].id != s[j].id
        ensures s[i].user != s[j].user || s[i].ingredient != s[j].ingredient
      {
        assert s[i] == store[i];
        if j == n {
          assert s[j] == r.value.item;
        } else {
          assert s[j] == store[j];
        }
      }
      forall i | 0 <= i < |s|
        ensures s[i].quantity >= 0.0
      {
        if i < n {
          assert s[i] == store[i];
        }
      }
    }
  }

  /** Changing a quantity keeps the store consistent: ids, owners and ingredients stay as they were. */
  lemma UpdateKeepsConsistent(store: seq<PantryItem>, id: nat, user: nat, quantity: Json)
    requires Consistent(store)
    ensures Consistent(After(store, UpdatePantryItem(store, id, user, quantity)))
  {
    var r := UpdatePantryItem(store, id, user, quantity);
    if r.Success? {
      var k :| 0 <= k < |store| && store[k].id == id && store[k].user == user &&
        QuantityChanged(store, r.value.store, k, ToNumber(quantity)) && r.value.item == r.value.store[k];
      var s := r.value.store;
      assert forall i :: 0 <= i < |s| ==> s[i].id == store[i].id && s[i].user == store[i].user && s[i].ingredient == store[i].ingredient;
    }
  }

  /** Removing an item keeps the store consistent. */
  lemma DeleteKeepsConsistent(store: seq<PantryItem>, id: nat, user: nat)
    requires Consistent(store)
    ensures DeletePantryItem(store, id, user).Success? ==> Consistent(DeletePantryItem(store, id, user).value)
  {
    var p := Position(store, id, user);
    if p.Some? {
      var k := p.value;
      var s := store[..k] + store[k + 1..];
      assert DeletePantryItem(store, id, user) == Success(s);
      forall i, j | 0 <= i < j < |s|
        ensures s[i].id != s[j].id
        ensures s[i].user != s[j].user || s[i].ingredient != s[j].ingredient
      {
        var i' := if i < k then i else i + 1;
        var j' := if j < k then j else j + 1;
        assert s[i] == store[i'] && s[j] == store[j'] && i' < j';
      }
      forall i | 0 <= i < |s|
        ensures s[i].quantity >= 0.0
      {
        assert s[i] == store[if i < k then i else i + 1];
      }
    }
  }

  /** After a successful add, the user holds the ingredient, so a second identical add is refused. */
  lemma SecondPostRefused(store: seq<PantryItem>, user: nat, nextId: nat, ingredient: nat, quantity: Json, laterId: nat)
    requires PostPantryItem(store, user, nextId, Some(ingredient), quantity).Success?
    ensures
      var s := PostPantryItem(store, user, nextId, Some(ingredient), quantity).value.store;
      PostPantryItem(s, user, laterId, Some(ingredient), quantity) == Failure(AlreadyInPantry)
  {
    var s := PostPantryItem(store, user, nextId, Some(ingredient), quantity).value.store;
    assert s[|store|].user == user && s[|store|].ingredient == ingredient;
  }
}

=== FILE: recipecontroller.dfy ===
/**
  backend/controllers/recipeController.js: creating a recipe from a name→grams object
  (looking every name up in the catalog and totalling the macros), deleting a recipe
  and renaming it. The recipe collection is a sequence of recipes.
 */
module RecipeController {
  import opened Js
  import opened JsObject
  import opened Nutrition

  /** One stored ingredient line of a recipe: the ingredient's id, the name as given, the grams. */
  datatype RecipeItem = RecipeItem(ingredient: nat, name: string, amount: real)

  datatype Recipe = Recipe(id: nat, user: nat, name: string, ingredients: seq<RecipeItem>, totalMacros: Macros)

  datatype RecipeError = MissingFields | IngredientNotFound(name: string) | MissingName | RecipeNotFound

  function Message(e: RecipeError): string {
    match e
    case MissingFields => "Please provide a name and ingredients"
    case IngredientNotFound(n) => "Ingredient '" + n + "' not found"
    case MissingName => "Please provide a recipe name"
    case RecipeNotFound => "Recipe not found"
  }

  /** `!s` for a string field that may be absent. */
  predicate Falsy(s: Option<string>) {
    s.None? || s.value == ""
  }

  /** `Ingredient.findOne({ name })`: the first catalog ingredient with exactly that name. */
  function Find(catalog: seq<Ingredient>, name: string): (r: Option<Ingredient>)
    ensures r.Some? ==> r.value in catalog && r.value.name == name
    ensures r.None? <==> forall i :: 0 <= i < |catalog| ==> catalog[i].name != name
  {
    if catalog == [] then None
    else if catalog[0].name == name then Some(catalog[0])
    else Find(catalog[1..], name)
  }

  /** Every entry before position i names a catalog ingredient. */
  predicate FoundBefore(es: seq<Entry<real>>, catalog: seq<Ingredient>, i: nat) {
    forall j :: 0 <= j < i && j < |es| ==> Find(catalog, es[j].key).Some?
  }

  /** The entries are looked up in order; the first name the catalog lacks ends the loop with that name. */
  function Lookup(es: seq<Entry<real>>, catalog: seq<Ingredient>): (r: Result<seq<Serving>, string>)
    ensures r.Success? <==> forall i :: 0 <= i < |es| ==> Find(catalog, es[i].key).Some?
    ensures r.Success? ==> |r.value| == |es|
    ensures r.Success? ==> forall i :: 0 <= i < |es| ==>
      Find(catalog, es[i].key) == Some(r.value[i].ingredient) && r.value[i].grams == es[i].value
    ensures r.Failure? ==>
      exists i :: 0 <= i < |es| && es[i].key == r.error && Find(catalog, es[i].key).None? && FoundBefore(es, catalog, i)
  {
    if es == [] then Success([])
    else
      match Find(catalog, es[0].key)
      case None => Failure(es[0].key)
      case Some(ing) =>
        var rest := Lookup(es[1..], catalog);
        match rest
        case Failure(n) =>
          FailureShifts(es, catalog, n);
          Failure(n)
        case Success(ss) =>
          SuccessShifts(es, catalog, ing, ss);
          Success([Serving(ing, es[0].value)] + ss)
  }

  /** A name missing further down the entries is missing in the whole list, all names before it found. */
  lemma FailureShifts(es: seq<Entry<real>>, catalog: seq<Ingredient>, n: string)
    requires es != [] && Find(catalog, es[0].key).Some?
    requires exists k :: 0 <= k < |es[1..]| && es[1..][k].key == n && Find(catalog, es[1..][k].key).None? && FoundBefore(es[1..], catalog, k)
    ensures exists i :: 0 <= i < |es| && es[i].key == n && Find(catalog, es[i].key).None? && FoundBefore(es, catalog, i)
  {
    var k :| 0 <= k < |es[1..]| && es[1..][k].key == n && Find(catalog, es[1..][k].key).None? && FoundBefore(es[1..], catalog, k);
    assert es[k + 1].key == n;
    forall j | 0 <= j < k + 1
      ensures Find(catalog, es[j].key).Some?
    {
      if j > 0 {
        assert es[j] == es[1..][j - 1];
      }
    }
  }

  /** Servings found for the tail, after the first entry's, are servings for the whole list. */
  lemma SuccessShifts(es: seq<Entry<real>>, catalog: seq<Ingredient>, ing: Ingredient, ss: seq<Serving>)
    requires es != [] && Find(catalog, es[0].key) == Some(ing)
    requires |ss| == |es| - 1
    requires forall i :: 0 <= i < |es[1..]| ==> Find(catalog, es[1..][i].key) == Some(ss[i].ingredient) && ss[i].grams == es[1..][i].value
    ensures var r := [Serving(ing, es[0].value)] + ss;
      forall i :: 0 <= i < |es| ==> Find(catalog, es[i].key) == Some(r[i].ingredient) && r[i].grams == es[i].value
  {
    var r := [Serving(ing, es[0].value)] + ss;
    forall i | 0 < i < |es|
      ensures Find(catalog, es[i].key) == Some(r[i].ingredient) && r[i].grams == es[i].value
    {
      assert es[i] == es[1..][i - 1] && r[i] == ss[i - 1];
    }
  }

  /** The stored ingredient lines for the looked-up servings, with the names and grams as given. */
  function Items(es: seq<Entry<real>>, ss: seq<Serving>): (items: seq<RecipeItem>)
    requires |ss| == |es|
    ensures |items| == |es|
    ensures forall i :: 0 <= i < |es| ==> items[i] == RecipeItem(ss[i].ingredient.id, es[i].key, es[i].value)
  {
    seq(|es|, i requires 0 <= i < |es| => RecipeItem(ss[i].ingredient.id, es[i].key, es[i].value))
  }

  /**
    `createRecipe`: a name and a non-empty ingredients object are required; every name
    must be in the catalog; the recipe keeps the entries in order and totals their portions.
   */
  function CreateRecipe(
    user: nat, id: nat, name: Option<string>, ingredients: Option<Obj<real>>, catalog: seq<Ingredient>)
    : (r: Result<Recipe, RecipeError>)
    requires AllStoredIngredients(catalog)
    ensures r == Failure(MissingFields) <==> Falsy(name) || ingredients.None? || ingredients.value.keys == []
    ensures r.Success? <==>
      && !Falsy(name) && ingredients.Some? && ingredients.value.keys != []
      && forall i :: 0 <= i < |ingredients.value.keys| ==> Find(catalog, ingredients.value.keys[i]).Some?
    ensures r.Failure? && r.error != MissingFields ==>
      && ingredients.Some?
      && Lookup(Entries(ingredients.value), catalog).Failure?
      && r.error == IngredientNotFound(Lookup(Entries(ingredients.value), catalog).error)
    ensures r.Failure? && r.error.IngredientNotFound? ==>
      exists i :: 0 <= i < |ingredients.value.keys| && ingredients.value.keys[i] == r.error.name &&
        Find(catalog, r.error.name).None? && FoundBefore(Entries(ingredients.value), catalog, i)
    ensures r.Success? ==>
      && !Falsy(name) && ingredients.Some?
      && var o := ingredients.value;
      && r.value == Recipe(id, user, name.value, r.value.ingredients, r.value.totalMacros)
      && |r.value.ingredients| == |o.keys| > 0
      && (forall i :: 0 <= i < |o.keys| ==>
            && r.value.ingredients[i].name == o.keys[i]
            && r.value.ingredients[i].amount == o.values[o.keys[i]]
            && Find(catalog, o.keys[i]).Some?
            && r.value.ingredients[i].ingredient == Find(catalog, o.keys[i]).value.id)
    ensures r.Success? ==>
      var ss := Lookup(Entries(ingredients.value), catalog);
      ss.Success? && AllStored(ss.value) && r.value.totalMacros == Sum(ss.value)
  {
    if Falsy(name) || ingredients.None? || ingredients.value.keys == [] then Failure(MissingFields)
    else
      var es := Entries(ingredients.value);
      match Lookup(es, catalog)
      case Failure(n) => Failure(IngredientNotFound(n))
      case Success(ss) =>
        assert AllStored(ss) by {
          forall i | 0 <= i < |ss|
            ensures Stored(ss[i].ingredient)
          {
            assert Find(catalog, es[i].key) == Some(ss[i].ingredient);
          }
        }
        Success(Recipe(id, user, name.value, Items(es, ss), AddUp(Zero(), ss)))
  }

  /** The position of the recipe with this id owned by this user, if any. */
  function Owned(store: seq<Recipe>, id: nat, user: nat): (r: Option<nat>)
    ensures r.Some? ==> r.value < |store| && store[r.value].id == id && store[r.value].user == user
    ensures r.Some? ==> forall j :: 0 <= j < r.value ==> !(store[j].id == id && store[j].user == user)
    ensures r.None? <==> forall j :: 0 <= j < |store| ==> !(store[j].id == id && store[j].user == user)
  {
    if store == [] then None
    else if store[0].id == id && store[0].user == user then Some(0)
    else
      match Owned(store[1..], id, user)
      case None => None
      case Some(k) => Some(k + 1)
  }

  /** `deleteRecipe`: only the recipe matching both id and user goes; otherwise 404 and nothing changes. */
  function DeleteRecipe(store: seq<Recipe>, id: nat, user: nat): (r: Result<seq<Recipe>, RecipeError>)
    ensures r.Failure? <==> forall j :: 0 <= j < |store| ==> !(store[j].id == id && store[j].user == user)
    ensures r.Failure? ==> r.error == RecipeNotFound
    ensures r.Success? ==> exists k :: (0 <= k < |store| && store[k].id == id && store[k].user == user &&
      r.value == store[..k] + store[k + 1..])
  {
    match Owned(store, id, user)
    case None => Failure(RecipeNotFound)
    case Some(k) => Success(store[..k] + store[k + 1..])
  }

  /** `after` is `store` with only recipe k renamed. */
  predicate Renamed(store: seq<Recipe>, after: seq<Recipe>, k: nat, name: string) {
    && |after| == |store| && k < |store|
    && after[k] == store[k].(name := name)
    && forall j :: 0 <= j < |store| && j != k ==> after[j] == store[j]
  }

  /**
    `updateRecipeName`: an absent, empty or white-space-only name is refused; otherwise
    the matching recipe, and only it, gets the trimmed name.
   */
  function UpdateRecipeName(store: seq<Recipe>, id: nat, user: nat, name: Option<string>): (r: Result<seq<Recipe>, RecipeError>)
    ensures r == Failure(MissingName) <==> Falsy(name) || Trim(name.value) == ""
    ensures r == Failure(RecipeNotFound) <==>
      !Falsy(name) && Trim(name.value) != "" && Owned(store, id, user).None?
    ensures r.Success? <==> !Falsy(name) && Trim(name.value) != "" && Owned(store, id, user).Some?
    ensures r.Success? ==> |r.value| == |store|
    ensures r.Success? ==>
      exists k :: 0 <= k < |store| && store[k].id == id && store[k].user == user && Renamed(store, r.value, k, Trim(name.value))
  {
    if Falsy(name) || Trim(name.value) == "" then Failure(MissingName)
    else
      match Owned(store, id, user)
      case None => Failure(RecipeNotFound)
      case Some(k) => Success(store[k := store[k].(name := Trim(name.value))])
  }

  /** A renamed recipe's name is non-empty and already trimmed. */
  lemma RenamedIsTrimmed(store: seq<Recipe>, id: nat, user: nat, name: Option<string>, k: nat)
    requires UpdateRecipeName(store, id, user, name).Success?
    requires Owned(store, id, user) == Some(k)
    ensures UpdateRecipeName(store, id, user, name).value[k].name != ""
    ensures Trim(UpdateRecipeName(store, id, user, name).value[k].name) == UpdateRecipeName(store, id, user, name).value[k].name
  {
    var r := UpdateRecipeName(store, id, user, name);
    assert r == Success(store[k := store[k].(name := Trim(name.value))]);
    assert r.value[k].name == Trim(name.value);
    TrimIdempotent(name.value);
  }

  const Chicken: Ingredient := Ingredient(1, "Chicken", 165.0, 31.0, 0.0, 3.6, 100.0)
  const Rice: Ingredient := Ingredient(2, "Rice", 130.0, 2.7, 28.0, 0.3, 100.0)

  /** The worked example's lookup: both names are found, in the order given. */
  lemma ChickenAndRiceLookup()
    ensures Lookup([Entry("Chicken", 200.0), Entry("Rice", 150.0)], [Chicken, Rice])
      == Success([Serving(Chicken, 200.0), Serving(Rice, 150.0)])
  {
    var es := [Entry("Chicken", 200.0), Entry("Rice", 150.0)];
    var cat := [Chicken, Rice];
    assert Find(cat, "Chicken") == Some(Chicken);
    assert cat[1..] == [Rice];
    assert Find(cat, "Rice") == Some(Rice);
    assert es[1..] == [Entry("Rice", 150.0)] && es[1..][1..] == [];
    assert Lookup(es[1..][1..], cat) == Success([]);
    assert [Serving(Rice, 150.0)] + [] == [Serving(Rice, 150.0)];
    assert Lookup(es[1..], cat).Success?;
    assert Lookup(es[1..], cat) == Success([Serving(Rice, 150.0)]);
    assert [Serving(Chicken, 200.0)] + [Serving(Rice, 150.0)] == [Serving(Chicken, 200.0), Serving(Rice, 150.0)];
    assert Lookup(es, cat).Success?;
  }

  /** The worked example's totals: 200 g of chicken and 150 g of rice. */
  lemma ChickenAndRiceTotals()
    ensures Sum([Serving(Chicken, 200.0), Serving(Rice, 150.0)]) == Macros(525.0, 66.05, 42.0, 7.65)
  {
    var ss := [Serving(Chicken, 200.0), Serving(Rice, 150.0)];
    assert ss[1..] == [Serving(Rice, 150.0)] && ss[1..][1..] == [];
    assert Portion(Chicken, 200.0) == Macros(330.0, 62.0, 0.0, 7.2);
    assert Portion(Rice, 150.0) == Macros(195.0, 4.05, 42.0, 0.45);
    assert Sum(ss[1..]) == Plus(Portion(Rice, 150.0), Zero());
  }
}

=== FILE: recipespage.dfy ===
/**
  frontend/src/pages/Recipes.jsx: the saved-recipes list. Cooking a recipe turns its
  ingredient lines back into the name→grams object the consume request takes; deleting and
  renaming update the list the page shows the same way the server updates its store.
 */
module RecipesPage {
  import opened Js
  import opened JsObject
  import opened Nutrition
  import opened RecipeController

  /** The entries `{ [item.name]: item.amount }` of a recipe's lines, in line order. */
  function LineEntries(items: seq<RecipeItem>): (es: seq<Entry<real>>)
    ensures |es| == |items|
    ensures forall i :: 0 <= i < |items| ==> es[i] == Entry(items[i].name, items[i].amount)
  {
    seq(|items|, i requires 0 <= i < |items| => Entry(items[i].name, items[i].amount))
  }

  /** The lines' names, in line order. */
  function Names(items: seq<RecipeItem>): (ns: seq<string>)
    ensures |ns| == |items|
    ensures forall i :: 0 <= i < |items| ==> ns[i] == items[i].name
  {
    seq(|items|, i requires 0 <= i < |items| => items[i].name)
  }

  /** Line i is the last line with its name. */
  predicate LastWithName(items: seq<RecipeItem>, i: nat)
    requires i < |items|
  {
    forall j :: i < j < |items| ==> items[j].name != items[i].name
  }

  /**
    `handleCook`'s request body: every line assigns its amount to its name, so only the
    recipe's names are keys and a name on two lines keeps the later amount.
   */
  function CookPayload(recipe: Recipe): (o: Obj<real>)
    ensures forall k :: Get(o, k).Some? <==> k in Names(recipe.ingredients)
    ensures forall i :: 0 <= i < |recipe.ingredients| && LastWithName(recipe.ingredients, i) ==>
      Get(o, recipe.ingredients[i].name) == Some(recipe.ingredients[i].amount)
  {
    var o := FromEntries(LineEntries(recipe.ingredients));
    forall k
      ensures Get(o, k).Some? <==> k in Names(recipe.ingredients)
    {
      PayloadHas(recipe.ingredients, k);
    }
    forall i | 0 <= i < |recipe.ingredients| && LastWithName(recipe.ingredients, i)
      ensures Get(o, recipe.ingredients[i].name) == Some(recipe.ingredients[i].amount)
    {
      PayloadLastWins(recipe.ingredients, i);
    }
    o
  }

  lemma PayloadHas(items: seq<RecipeItem>, k: string)
    ensures Get(FromEntries(LineEntries(items)), k).Some? <==> k in Names(items)
  {
    FromEntriesHas(LineEntries(items), k);
    assert KeysOf(LineEntries(items)) == Names(items);
  }

  lemma PayloadLastWins(items: seq<RecipeItem>, i: nat)
    requires i < |items| && LastWithName(items, i)
    ensures Get(FromEntries(LineEntries(items)), items[i].name) == Some(items[i].amount)
  {
    FromEntriesLastWins(LineEntries(items), i);
  }

  /**
    The round trip through the server: cooking a recipe that `createRecipe` made from an
    ingredients object sends that same object back, keys in the same order.
   */
  lemma CookReturnsCreatedIngredients(user: nat, id: nat, name: Option<string>, o: Obj<real>, catalog: seq<Ingredient>)
    requires AllStoredIngredients(catalog)
    requires CreateRecipe(user, id, name, Some(o), catalog).Success?
    ensures CookPayload(CreateRecipe(user, id, name, Some(o), catalog).value) == o
  {
    var recipe := CreateRecipe(user, id, name, Some(o), catalog).value;
    assert LineEntries(recipe.ingredients) == Entries(o);
    FromEntriesOfEntries(o);
  }

  /** `handleDelete`'s list update: `recipes.filter(r => r._id !== id)`. */
  function WithoutRecipe(recipes: seq<Recipe>, id: nat): (r: seq<Recipe>)
    ensures forall i :: 0 <= i < |r| ==> r[i].id != id && r[i] in recipes
    ensures forall i :: 0 <= i < |recipes| && recipes[i].id != id ==> recipes[i] in r
  {
    Filter(recipes, (x: Recipe) => x.id != id)
  }

  predicate DistinctIds(recipes: seq<Recipe>) {
    forall i, j :: 0 <= i < j < |recipes| ==> recipes[i].id != recipes[j].id
  }

  /**
    The page's list stays the server's: when it shows a user's recipes, with distinct ids,
    filtering out the deleted id gives exactly the store `deleteRecipe` leaves.
   */
  lemma DeleteMirrorsServer(recipes: seq<Recipe>, id: nat, user: nat)
    requires DistinctIds(recipes)
    requires DeleteRecipe(recipes, id, user).Success?
    ensures WithoutRecipe(recipes, id) == DeleteRecipe(recipes, id, user).value
  {
    var k := Owned(recipes, id, user).value;
    forall j | 0 <= j < |recipes| && j != k
      ensures recipes[j].id != id
    {
      if j < k {
        assert recipes[j].id != recipes[k].id;
      } else {
        assert recipes[k].id != recipes[j].id;
      }
    }
    FilterSplice(recipes, k, (x: Recipe) => x.id != id);
  }

  /**
    `saveEditingName`: the edited text is trimmed; white space alone is refused on the page
    and no request is made; otherwise the trimmed name is sent.
   */
  function SaveEditingName(editingName: string): (r: Option<string>)
    ensures r.None? <==> forall i :: 0 <= i < |editingName| ==> IsSpace(editingName[i])
    ensures r.Some? ==> r.value == Trim(editingName)
    ensures r.Some? ==> r.value != "" && Trim(r.value) == r.value && |r.value| <= |editingName|
  {
    var trimmed := Trim(editingName);
    TrimIdempotent(editingName);
    if trimmed == "" then None else Some(trimmed)
  }

  /** A name the page sends is stored as sent: the server's own trim changes nothing. */
  lemma SentNameStoredAsIs(store: seq<Recipe>, id: nat, user: nat, editingName: string)
    requires SaveEditingName(editingName).Some?
    requires Owned(store, id, user).Some?
    ensures
      var sent := SaveEditingName(editingName).value;
      var k := Owned(store, id, user).value;
      UpdateRecipeName(store, id, user, Some(sent)) == Success(store[k := store[k].(name := sent)])
  {
  }

  /** The rename's list update: `prev.map(r => r._id === id ? updated : r)`. */
  function ReplaceRecipe(recipes: seq<Recipe>, id: nat, updated: Recipe): (r: seq<Recipe>)
    ensures |r| == |recipes|
    ensures forall i :: 0 <= i < |recipes| ==> r[i] == if recipes[i].id == id then updated else recipes[i]
  {
    seq(|recipes|, i requires 0 <= i < |recipes| => if recipes[i].id == id then updated else recipes[i])
  }

  /**
    With distinct ids, putting the server's renamed recipe in place of the old one gives the
    store `updateRecipeName` leaves.
   */
  lemma RenameMirrorsServer(recipes: seq<Recipe>, id: nat, user: nat, name: Option<string>)
    requires DistinctIds(recipes)
    requires UpdateRecipeName(recipes, id, user, name).Success?
    ensures
      var after := UpdateRecipeName(recipes, id, user, name).value;
      var k := Owned(recipes, id, user).value;
      ReplaceRecipe(recipes, id, after[k]) == after
  {
    var after := UpdateRecipeName(recipes, id, user, name).value;
    var k := Owned(recipes, id, user).value;
    assert after == recipes[k := recipes[k].(name := Trim(name.value))];
    var r := ReplaceRecipe(recipes, id, after[k]);
    forall i | 0 <= i < |recipes|
      ensures r[i] == after[i]
    {
      if i != k {
        assert recipes[i].id != id;
      }
    }
  }
}

=== FILE: solvercontroller.dfy ===
/**
  backend/controllers/solverController.js: the catalog-based "reverse" solver
  (`solveFromAllIngredients`), the request handlers `generateMeal` and
  `generateReverseMeal`, and the pantry shortfall diff of the latter.
 */
module SolverController {
  import opened Js
  import opened JsObject
  import opened Nutrition
  import opened Lp
  import opened MacroSolver

  /** The default capacity of every catalog ingredient, in grams. */
  const DefaultMaxPerIngredient: real := 400.0

  /** The attributes a catalog variable's record names besides the variable's own name. */
  const ReverseAttributes: set<string> := {"protein", "carbs", "fats", "cost"}

  /**
    The record of one catalog ingredient: per-gram protein, carbs and fats (no calories),
    the jittered cost, and a 1 under its own name, which comes last in the literal.
   */
  function ReverseRecord(ing: Ingredient, cost: real): (r: Obj<real>)
    requires Stored(ing)
    ensures Get(r, ing.name) == Some(1.0)
    ensures forall c :: c != ing.name ==> Get(r, c) == Get(ReverseAttributesOf(ing, cost), c)
  {
    Set(ReverseAttributesOf(ing, cost), ing.name, 1.0)
  }

  /** The four attributes before the own-name key: macros per gram of the serving, then the cost; no calories. */
  function ReverseAttributesOf(ing: Ingredient, cost: real): (r: Obj<real>)
    requires Stored(ing)
    ensures Get(r, "protein") == Some(ing.protein / ing.servingSize)
    ensures Get(r, "carbs") == Some(ing.carbs / ing.servingSize)
    ensures Get(r, "fats") == Some(ing.fats / ing.servingSize)
    ensures Get(r, "cost") == Some(cost)
    ensures forall c :: c !in ReverseAttributes ==> Get(r, c) == None
  {
    var ratio := 1.0 / ing.servingSize;
    var values := map["protein" := ing.protein * ratio, "carbs" := ing.carbs * ratio, "fats" := ing.fats * ratio, "cost" := cost];
    assert values.Keys == ReverseAttributes;
    assert ing.protein * ratio == ing.protein / ing.servingSize;
    assert ing.carbs * ratio == ing.carbs / ing.servingSize;
    assert ing.fats * ratio == ing.fats / ing.servingSize;
    Object(["protein", "carbs", "fats", "cost"], values)
  }

  /** `Math.random()` draws, one per catalog ingredient, each in [0, 1). */
  predicate Draws(catalog: seq<Ingredient>, jitter: seq<real>) {
    && |jitter| == |catalog|
    && forall i :: 0 <= i < |jitter| ==> 0.0 <= jitter[i] < 1.0
  }

  /** One variable per catalog ingredient, in catalog order, each with capacity maxPer. */
  function ReverseSpecs(catalog: seq<Ingredient>, maxPer: real, jitter: seq<real>): (vs: seq<VarSpec>)
    requires AllStoredIngredients(catalog) && Draws(catalog, jitter)
    ensures |vs| == |catalog|
    ensures forall i :: 0 <= i < |vs| ==> vs[i].name == catalog[i].name && vs[i].cap == maxPer
    ensures forall i :: 0 <= i < |catalog| ==>
      vs[i] == VarSpec(catalog[i].name, ReverseRecord(catalog[i], 0.5 + jitter[i]), maxPer)
  {
    seq(|catalog|, i requires 0 <= i < |catalog| =>
      VarSpec(catalog[i].name, ReverseRecord(catalog[i], 0.5 + jitter[i]), maxPer))
  }

  /** The model `solveFromAllIngredients` builds. */
  function ReverseModel(t: Targets, catalog: seq<Ingredient>, maxPer: real, jitter: seq<real>): Model
    requires AllStoredIngredients(catalog) && Draws(catalog, jitter)
  {
    AddAll(MacroModel(t), ReverseSpecs(catalog, maxPer, jitter))
  }

  predicate NoIngredientNamed(catalog: seq<Ingredient>, k: string) {
    forall i :: 0 <= i < |catalog| ==> catalog[i].name != k
  }

  /**
    The reverse model minimises "cost", and each macro band is target ± 5 unless an
    ingredient is named like the macro.
   */
  lemma ReverseConstraints(t: Targets, catalog: seq<Ingredient>, maxPer: real, jitter: seq<real>)
    requires AllStoredIngredients(catalog) && Draws(catalog, jitter)
    ensures ReverseModel(t, catalog, maxPer, jitter).optimize == "cost"
    ensures ReverseModel(t, catalog, maxPer, jitter).opType == "min"
    ensures NoIngredientNamed(catalog, "protein") ==>
      Get(ReverseModel(t, catalog, maxPer, jitter).constraints, "protein") == Some(Band(t.protein))
    ensures NoIngredientNamed(catalog, "carbs") ==>
      Get(ReverseModel(t, catalog, maxPer, jitter).constraints, "carbs") == Some(Band(t.carbs))
    ensures NoIngredientNamed(catalog, "fats") ==>
      Get(ReverseModel(t, catalog, maxPer, jitter).constraints, "fats") == Some(Band(t.fats))
  {
    var vs := ReverseSpecs(catalog, maxPer, jitter);
    var m := MacroModel(t);
    forall k | k in ["protein", "carbs", "fats"] && NoIngredientNamed(catalog, k)
      ensures Get(AddAll(m, vs).constraints, k) == Get(m.constraints, k)
    {
      ReverseNames(catalog, maxPer, jitter, k);
      AddAllLookup(m, vs, k);
    }
  }

  /** A name no catalog ingredient carries is not a variable of the reverse model. */
  lemma ReverseNames(catalog: seq<Ingredient>, maxPer: real, jitter: seq<real>, k: string)
    requires AllStoredIngredients(catalog) && Draws(catalog, jitter)
    requires NoIngredientNamed(catalog, k)
    ensures k !in KeysOf(VarEntries(ReverseSpecs(catalog, maxPer, jitter)))
  {
    var vs := ReverseSpecs(catalog, maxPer, jitter);
    assert forall j :: 0 <= j < |vs| ==> KeysOf(VarEntries(vs))[j] != k;
  }

  /** Every catalog ingredient's constraint is `{ max: maxPer }`, whatever its position. */
  lemma ReverseCapacities(t: Targets, catalog: seq<Ingredient>, maxPer: real, jitter: seq<real>)
    requires AllStoredIngredients(catalog) && Draws(catalog, jitter)
    ensures forall i :: 0 <= i < |catalog| ==>
      Get(ReverseModel(t, catalog, maxPer, jitter).constraints, catalog[i].name) == Some(Cap(maxPer))
  {
    var vs := ReverseSpecs(catalog, maxPer, jitter);
    forall i | 0 <= i < |catalog|
      ensures Get(AddAll(MacroModel(t), vs).constraints, vs[i].name) == Some(Cap(maxPer))
    {
      AddAllSameCap(MacroModel(t), vs, maxPer, i);
    }
  }

  /**
    A catalog ingredient that no later entry shares a name with has its own record as its
    variable: per-gram macros and a cost of 0.5 plus its draw.
   */
  lemma ReverseVariable(t: Targets, catalog: seq<Ingredient>, maxPer: real, jitter: seq<real>, i: nat)
    requires AllStoredIngredients(catalog) && Draws(catalog, jitter)
    requires i < |catalog| && NoIngredientNamed(catalog[i + 1..], catalog[i].name)
    ensures Get(ReverseModel(t, catalog, maxPer, jitter).variables, catalog[i].name) ==
      Some(ReverseRecord(catalog[i], 0.5 + jitter[i]))
  {
    var vs := ReverseSpecs(catalog, maxPer, jitter);
    forall j | i < j < |vs|
      ensures vs[j].name != vs[i].name
    {
      assert catalog[i + 1..][j - i - 1] == catalog[j];
    }
    AddAllLast(MacroModel(t), vs, i);
  }

  /** Every variable's cost lies in [0.5, 1.5): 0.5 plus a draw, or 1 for an ingredient named "cost". */
  lemma ReverseCosts(t: Targets, catalog: seq<Ingredient>, maxPer: real, jitter: seq<real>)
    requires AllStoredIngredients(catalog) && Draws(catalog, jitter)
    ensures forall n :: n in ReverseModel(t, catalog, maxPer, jitter).variables.values ==>
      0.5 <= Coef(ReverseModel(t, catalog, maxPer, jitter).variables.values[n], "cost") < 1.5
  {
    forall n | n in ReverseModel(t, catalog, maxPer, jitter).variables.values
      ensures 0.5 <= Coef(ReverseModel(t, catalog, maxPer, jitter).variables.values[n], "cost") < 1.5
    {
      ReverseVariableCost(t, catalog, maxPer, jitter, n);
    }
  }

  /** One variable's cost: its draw plus 0.5, or the 1 of its own name when that name is "cost". */
  lemma ReverseVariableCost(t: Targets, catalog: seq<Ingredient>, maxPer: real, jitter: seq<real>, n: string)
    requires AllStoredIngredients(catalog) && Draws(catalog, jitter)
    requires n in ReverseModel(t, catalog, maxPer, jitter).variables.values
    ensures 0.5 <= Coef(ReverseModel(t, catalog, maxPer, jitter).variables.values[n], "cost") < 1.5
  {
    var j := ReverseVariableRecord(t, catalog, maxPer, jitter, n);
    CostInRange(catalog[j], jitter[j]);
  }

  /** Every variable of the model is the record of the catalog ingredient it is named after. */
  lemma ReverseVariableRecord(t: Targets, catalog: seq<Ingredient>, maxPer: real, jitter: seq<real>, n: string)
    returns (j: nat)
    requires AllStoredIngredients(catalog) && Draws(catalog, jitter)
    requires n in ReverseModel(t, catalog, maxPer, jitter).variables.values
    ensures j < |catalog| && catalog[j].name == n && 0.0 <= jitter[j] < 1.0
    ensures ReverseModel(t, catalog, maxPer, jitter).variables.values[n] == ReverseRecord(catalog[j], 0.5 + jitter[j])
  {
    var vs := ReverseSpecs(catalog, maxPer, jitter);
    AddAllVariable(MacroModel(t), vs, n);
    j :| 0 <= j < |vs| && vs[j].name == n && AddAll(MacroModel(t), vs).variables.values[n] == vs[j].record;
  }

  /** A record's cost lies in [0.5, 1.5) for a draw in [0, 1). */
  lemma CostInRange(ing: Ingredient, draw: real)
    requires Stored(ing) && 0.0 <= draw < 1.0
    ensures 0.5 <= Coef(ReverseRecord(ing, 0.5 + draw), "cost") < 1.5
  {
    if ing.name != "cost" {
      assert Get(ReverseRecord(ing, 0.5 + draw), "cost") == Some(0.5 + draw);
    }
  }

  /** A name that is not an attribute appears in no other catalog variable's record. */
  lemma ReverseOnlyOwnVariable(t: Targets, catalog: seq<Ingredient>, maxPer: real, jitter: seq<real>, k: string)
    requires AllStoredIngredients(catalog) && Draws(catalog, jitter)
    requires k !in ReverseAttributes
    ensures forall v :: v in ReverseModel(t, catalog, maxPer, jitter).variables.values && v != k ==>
      Coef(ReverseModel(t, catalog, maxPer, jitter).variables.values[v], k) == 0.0
  {
    var vs := ReverseSpecs(catalog, maxPer, jitter);
    forall v | v in ReverseModel(t, catalog, maxPer, jitter).variables.values && v != k
      ensures Coef(ReverseModel(t, catalog, maxPer, jitter).variables.values[v], k) == 0.0
    {
      ReverseOtherVariableLacks(t, catalog, maxPer, jitter, k, v);
    }
  }

  lemma ReverseOtherVariableLacks(t: Targets, catalog: seq<Ingredient>, maxPer: real, jitter: seq<real>, k: string, v: string)
    requires AllStoredIngredients(catalog) && Draws(catalog, jitter)
    requires k !in ReverseAttributes
    requires v in ReverseModel(t, catalog, maxPer, jitter).variables.values && v != k
    ensures Coef(ReverseModel(t, catalog, maxPer, jitter).variables.values[v], k) == 0.0
  {
    var j := ReverseVariableRecord(t, catalog, maxPer, jitter, v);
    assert Get(ReverseRecord(catalog[j], 0.5 + jitter[j]), k) == Get(ReverseAttributesOf(catalog[j], 0.5 + jitter[j]), k) == None;
  }

  /** The keys of the library's result object that are not variables. */
  const ResultKeys: set<string> := {"feasible", "result", "bounded"}

  /** `Math.max(0, Math.round(v))`: positive exactly when v is at least one half. */
  function Grams(v: real): (g: int)
    ensures g >= 0
    ensures g > 0 <==> v >= 0.5
    ensures g > 0 ==> v - 0.5 < g as real <= v + 0.5
  {
    var n := Round(v);
    if n >= 0 then n else 0
  }

  /** Whether the post-processing keeps key k of the result. */
  predicate Kept(x: Obj<real>, k: string) {
    k !in ResultKeys && Grams(Val(x, k)) > 0
  }

  /** The plan entries for the result keys ks, in their order. */
  function PlanEntries(x: Obj<real>, ks: seq<string>): (ps: seq<Entry<int>>)
    ensures |ps| <= |ks|
    ensures forall j :: 0 <= j < |ps| ==> ps[j].key in ks && Kept(x, ps[j].key) && ps[j].value == Grams(Val(x, ps[j].key))
  {
    if ks == [] then []
    else
      var rest := PlanEntries(x, ks[1..]);
      if Kept(x, ks[0]) then [Entry(ks[0], Grams(Val(x, ks[0])))] + rest else rest
  }

  /** Every kept key of the result has a plan entry. */
  lemma {:induction false} PlanEntriesCover(x: Obj<real>, ks: seq<string>)
    ensures forall i :: 0 <= i < |ks| && Kept(x, ks[i]) ==> ks[i] in KeysOf(PlanEntries(x, ks))
  {
    if ks != [] {
      var rest := PlanEntries(x, ks[1..]);
      PlanEntriesCover(x, ks[1..]);
      var ps := PlanEntries(x, ks);
      forall i | 0 <= i < |ks| && Kept(x, ks[i])
        ensures ks[i] in KeysOf(ps)
      {
        if i == 0 {
          assert KeysOf(ps)[0] == ks[0];
        } else {
          assert ks[i] == ks[1..][i - 1];
          var j :| 0 <= j < |rest| && KeysOf(rest)[j] == ks[i];
          if Kept(x, ks[0]) {
            assert KeysOf(ps)[j + 1] == ks[i];
          } else {
            assert KeysOf(ps)[j] == ks[i];
          }
        }
      }
    }
  }

  /** The plan of lines 35-40: `plan[key] = grams` for each kept key of the result, in order. */
  function ExtractPlan(x: Obj<real>): Obj<int> {
    FromEntries(PlanEntries(x, x.keys))
  }

  /**
    A key is in the plan exactly when the result reports it, it is not a reserved key and
    it rounds to a positive number of grams; its value is then that rounding.
   */
  lemma ExtractPlanMembers(x: Obj<real>)
    ensures forall k :: k in ExtractPlan(x).values <==> k in x.values && Kept(x, k)
    ensures forall k :: k in ExtractPlan(x).values ==>
      ExtractPlan(x).values[k] == Round(x.values[k]) && ExtractPlan(x).values[k] > 0
  {
    var ps := PlanEntries(x, x.keys);
    PlanEntriesCover(x, x.keys);
    forall k
      ensures k in ExtractPlan(x).values <==> k in x.values && Kept(x, k)
      ensures k in ExtractPlan(x).values ==> ExtractPlan(x).values[k] == Round(x.values[k]) && ExtractPlan(x).values[k] > 0
    {
      AssignGet(Empty(), ps, k);
      if k in KeysOf(ps) {
        var j := LastIndex(ps, k);
        assert ps[j].key in x.keys;
      }
      if k in x.values && Kept(x, k) {
        var i :| 0 <= i < |x.keys| && x.keys[i] == k;
      }
    }
  }

  /** The answer of `solveFromAllIngredients`: the plan in grams and its nutrient totals. */
  datatype Solution = Solution(plan: Obj<int>, totals: Macros)

  /** `Object.entries(plan)` with the grams as numbers. */
  function PlanAmounts(plan: Obj<int>): (es: seq<Entry<real>>)
    ensures |es| == |plan.keys|
    ensures forall i :: 0 <= i < |es| ==> es[i] == Entry(plan.keys[i], plan.values[plan.keys[i]] as real)
  {
    seq(|plan.keys|, i requires 0 <= i < |plan.keys| => Entry(plan.keys[i], plan.values[plan.keys[i]] as real))
  }

  /**
    The totals of lines 44-55, accumulated from zero over the plan's entries: the sum of
    the portions of the plan's catalog ingredients, names the catalog lacks adding nothing.
   */
  function PlanTotals(plan: Obj<int>, catalog: seq<Ingredient>): (totals: Macros)
    requires AllStoredIngredients(catalog)
    ensures StoredLookup(ByName(catalog))
    ensures AllStored(PlanServings(PlanAmounts(plan), ByName(catalog)))
    ensures totals == Sum(PlanServings(PlanAmounts(plan), ByName(catalog)))
  {
    ByNameStored(catalog);
    var totals := Accumulate(Zero(), PlanAmounts(plan), ByName(catalog));
    assert Plus(Zero(), Sum(PlanServings(PlanAmounts(plan), ByName(catalog)))) == Sum(PlanServings(PlanAmounts(plan), ByName(catalog)));
    totals
  }

  /**
    `solveFromAllIngredients(targets, ingredients, maxPerIngredient)`: no solution when the
    answer is infeasible or no key survives the rounding; otherwise the plan and its
    totals, which are the sum of the plan's portions of the catalog ingredients.
   */
  function SolveFromAllIngredients(
    t: Targets, catalog: seq<Ingredient>, maxPer: real, jitter: seq<real>, lp: Model -> SolverOutput): (r: Option<Solution>)
    requires AllStoredIngredients(catalog) && Draws(catalog, jitter)
    ensures r.None? <==>
      var out := lp(ReverseModel(t, catalog, maxPer, jitter));
      !out.feasible || ExtractPlan(out.values).keys == []
    ensures r.Some? ==>
      var out := lp(ReverseModel(t, catalog, maxPer, jitter));
      out.feasible && r.value.plan == ExtractPlan(out.values) && r.value.plan.keys != []
    ensures r.Some? ==>
      && StoredLookup(ByName(catalog))
      && AllStored(PlanServings(PlanAmounts(r.value.plan), ByName(catalog)))
      && r.value.totals == Sum(PlanServings(PlanAmounts(r.value.plan), ByName(catalog)))
  {
    var out := lp(ReverseModel(t, catalog, maxPer, jitter));
    if !out.feasible then None
    else
      var plan := ExtractPlan(out.values);
      if plan.keys == [] then None
      else
        Some(Solution(plan, PlanTotals(plan, catalog)))
  }

  /**
    If the library's answer is sound and the capacity is a whole number of grams, every
    planned ingredient of the catalog (whose name is not an attribute) is planned at
    most at that capacity, and every planned amount is a positive whole number.
   */
  lemma PlanWithinCapacity(
    t: Targets, catalog: seq<Ingredient>, maxPer: real, jitter: seq<real>, lp: Model -> SolverOutput, i: nat)
    requires AllStoredIngredients(catalog) && Draws(catalog, jitter)
    requires Sound(ReverseModel(t, catalog, maxPer, jitter), lp(ReverseModel(t, catalog, maxPer, jitter)))
    requires maxPer.Floor as real == maxPer
    requires i < |catalog| && catalog[i].name !in ReverseAttributes
    requires NoIngredientNamed(catalog[i + 1..], catalog[i].name)
    requires SolveFromAllIngredients(t, catalog, maxPer, jitter, lp).Some?
    ensures
      var plan := SolveFromAllIngredients(t, catalog, maxPer, jitter, lp).value.plan;
      catalog[i].name in plan.values ==> 0 < plan.values[catalog[i].name] <= maxPer.Floor
  {
    var m := ReverseModel(t, catalog, maxPer, jitter);
    var out := lp(m);
    assert SolveFromAllIngredients(t, catalog, maxPer, jitter, lp).value.plan == ExtractPlan(out.values);
    ReverseCapacityFacts(t, catalog, maxPer, jitter, i);
    PlannedWithinCap(m, out.values, catalog[i].name, maxPer);
  }

  /**
    At a feasible point, a variable with a whole-number cap, a 1 in its own row and no
    rival coefficient is planned, if at all, at a positive amount within the cap.
   */
  lemma PlannedWithinCap(m: Model, x: Obj<real>, k: string, maxPer: real)
    requires Satisfies(m, x) && maxPer.Floor as real == maxPer
    requires Get(m.constraints, k) == Some(Cap(maxPer))
    requires Get(m.variables, k).Some? && Coef(Get(m.variables, k).value, k) == 1.0
    requires forall v :: v in m.variables.values && v != k ==> Coef(m.variables.values[v], k) == 0.0
    ensures k in ExtractPlan(x).values ==> 0 < ExtractPlan(x).values[k] <= maxPer.Floor
  {
    ExtractPlanMembers(x);
    if k in ExtractPlan(x).values {
      CapacityRespected(m, x, k, maxPer);
      RoundWithinCap(x.values[k], maxPer);
    }
  }

  /** A catalog ingredient listed last under its own, non-attribute name has the cap, a 1 in its own row and no rival coefficient. */
  lemma ReverseCapacityFacts(t: Targets, catalog: seq<Ingredient>, maxPer: real, jitter: seq<real>, i: nat)
    requires AllStoredIngredients(catalog) && Draws(catalog, jitter)
    requires i < |catalog| && catalog[i].name !in ReverseAttributes
    requires NoIngredientNamed(catalog[i + 1..], catalog[i].name)
    ensures var m, k := ReverseModel(t, catalog, maxPer, jitter), catalog[i].name;
      && Get(m.constraints, k) == Some(Cap(maxPer))
      && Get(m.variables, k).Some? && Coef(Get(m.variables, k).value, k) == 1.0
      && forall v :: v in m.variables.values && v != k ==> Coef(m.variables.values[v], k) == 0.0
  {
    ReverseCapacities(t, catalog, maxPer, jitter);
    ReverseVariable(t, catalog, maxPer, jitter, i);
    assert Get(ReverseRecord(catalog[i], 0.5 + jitter[i]), catalog[i].name) == Some(1.0);
    ReverseOnlyOwnVariable(t, catalog, maxPer, jitter, catalog[i].name);
  }

  /** A value within a whole-number cap rounds to at most the cap. */
  lemma RoundWithinCap(v: real, cap: real)
    requires v <= cap && cap.Floor as real == cap
    ensures Round(v) <= cap.Floor
  {
  }

  /** The body fields of a solver request. */
  datatype TargetBody = TargetBody(targetProtein: Json, targetCarbs: Json, targetFats: Json)

  /**
    The errors the two handlers answer: status 400 for all but `SearchNotAFunction`, the 500
    that `generateMeal`'s catch block answers when its search is not defined.
   */
  datatype SolverError = MissingTargets | EmptyPantry | NoMealPlans | EmptyCatalog | NoCatalogSolution | SearchNotAFunction

  function Message(e: SolverError): string {
    match e
    case MissingTargets => "Please provide all target macros"
    case EmptyPantry => "Your pantry is empty!"
    case NoMealPlans => "No solution found. Try adjusting your targets or adding more variety to your pantry."
    case EmptyCatalog => "No ingredients available in database"
    case NoCatalogSolution => "No solution found with current ingredient library"
    case SearchNotAFunction => "Solver Error: solveMultipleMeals is not a function"
  }

  /** `Number(...)` of each target. */
  function TargetsOf(b: TargetBody): Targets
    requires !b.targetProtein.Undefined? && !b.targetCarbs.Undefined? && !b.targetFats.Undefined?
  {
    Targets(ToNumber(b.targetProtein), ToNumber(b.targetCarbs), ToNumber(b.targetFats))
  }

  predicate AllTruthy(b: TargetBody) {
    Truthy(b.targetProtein) && Truthy(b.targetCarbs) && Truthy(b.targetFats)
  }

  predicate NoneNullish(b: TargetBody) {
    !IsNullish(b.targetProtein) && !IsNullish(b.targetCarbs) && !IsNullish(b.targetFats)
  }

  /** How many plans the forward request asks for. */
  const PlanCount: nat := 3

  /**
    `generateMeal`: every target must be truthy and the pantry non-empty; the plans come
    from a multi-plan search this model takes as a parameter, and none is an error.
   */
  function GenerateMeal<P>(
    b: TargetBody, pantry: seq<PantryEntry>, solveMultiple: (Targets, seq<PantryEntry>, nat) -> seq<P>): (r: Result<seq<P>, SolverError>)
    ensures r == Failure(MissingTargets) <==> !AllTruthy(b)
    ensures r == Failure(EmptyPantry) <==> AllTruthy(b) && pantry == []
    ensures r == Failure(NoMealPlans) <==>
      AllTruthy(b) && pantry != [] && solveMultiple(TargetsOf(b), pantry, PlanCount) == []
    ensures r.Success? <==>
      AllTruthy(b) && pantry != [] && solveMultiple(TargetsOf(b), pantry, PlanCount) != []
    ensures r.Success? ==> r.value == solveMultiple(TargetsOf(b), pantry, PlanCount)
  {
    if !AllTruthy(b) then Failure(MissingTargets)
    else if pantry == [] then Failure(EmptyPantry)
    else
      var plans := solveMultiple(TargetsOf(b), pantry, PlanCount);
      if plans == [] then Failure(NoMealPlans) else Success(plans)
  }

  /**
    `generateMeal` as written: `solveMultipleMeals` is imported from a module that does not
    export it, so the name is undefined, the call throws a TypeError for every request
    past the two guards, and the catch block answers with that error.
   */
  function GenerateMealAsWritten<P>(b: TargetBody, pantry: seq<PantryEntry>): (r: Result<seq<P>, SolverError>)
    ensures r.Failure?
    ensures r == Failure(MissingTargets) <==> !AllTruthy(b)
    ensures r == Failure(EmptyPantry) <==> AllTruthy(b) && pantry == []
    ensures r == Failure(SearchNotAFunction) <==> AllTruthy(b) && pantry != []
  {
    if !AllTruthy(b) then Failure(MissingTargets)
    else if pantry == [] then Failure(EmptyPantry)
    else Failure(SearchNotAFunction)
  }

  /**
    The request the handler exists for, truthy targets and a stocked pantry, fails as
    written whatever a search would find, while `GenerateMeal` answers the plans of any
    search that finds some.
   */
  lemma SearchMissingAlwaysFails<P>(
    b: TargetBody, pantry: seq<PantryEntry>, solveMultiple: (Targets, seq<PantryEntry>, nat) -> seq<P>)
    requires AllTruthy(b) && pantry != []
    requires solveMultiple(TargetsOf(b), pantry, PlanCount) != []
    ensures GenerateMealAsWritten<P>(b, pantry) == Failure(SearchNotAFunction)
    ensures GenerateMeal(b, pantry, solveMultiple) == Success(solveMultiple(TargetsOf(b), pantry, PlanCount))
  {
  }

  /** One row of `pantryUsage`. */
  datatype UsageRow = UsageRow(name: string, needed: int, available: real, fromPantry: real, shortfall: real)

  /** One row of `shoppingList`. */
  datatype ShoppingItem = ShoppingItem(name: string, amount: real)

  /**
    The quantity on hand per ingredient name: the pantry items with a populated ingredient
    and a non-empty name, a later item with the same name replacing an earlier one.
   */
  function PantryMap(pantry: seq<PantryEntry>): (m: map<string, real>)
    ensures forall n :: n in m ==> n != ""
  {
    if pantry == [] then map[]
    else
      var m := PantryMap(pantry[..|pantry| - 1]);
      var item := pantry[|pantry| - 1];
      if item.ingredient.Some? && item.ingredient.value.name != "" then m[item.ingredient.value.name := item.quantity]
      else m
  }

  /** The item's populated ingredient carries the non-empty name n. */
  predicate NamedIn(item: PantryEntry, n: string) {
    item.ingredient.Some? && item.ingredient.value.name == n && n != ""
  }

  /** Item i has a populated, named ingredient and no later item carries that name. */
  predicate LastNamed(pantry: seq<PantryEntry>, i: nat)
    requires i < |pantry|
  {
    && pantry[i].ingredient.Some? && pantry[i].ingredient.value.name != ""
    && forall j :: i < j < |pantry| ==> !NamedIn(pantry[j], pantry[i].ingredient.value.name)
  }

  /**
    The map's names are exactly those some pantry item's populated ingredient carries, and
    the last item carrying a name gives it its quantity.
   */
  lemma {:induction false} PantryMapEntries(pantry: seq<PantryEntry>)
    ensures forall n :: n in PantryMap(pantry) <==> exists i :: 0 <= i < |pantry| && NamedIn(pantry[i], n)
    ensures forall i :: 0 <= i < |pantry| && LastNamed(pantry, i) ==>
      var n := pantry[i].ingredient.value.name;
      n in PantryMap(pantry) && PantryMap(pantry)[n] == pantry[i].quantity
  {
    if pantry != [] {
      var init := pantry[..|pantry| - 1];
      PantryMapEntries(init);
      PantryMapStep(PantryMap(init), pantry);
    }
  }

  /** One more item: given the claims for the items before it, they hold with it. */
  lemma PantryMapStep(m: map<string, real>, pantry: seq<PantryEntry>)
    requires pantry != []
    requires var init := pantry[..|pantry| - 1];
      && (forall n :: n in m <==> exists i :: 0 <= i < |init| && NamedIn(init[i], n))
      && (forall i :: 0 <= i < |init| && LastNamed(init, i) ==>
            init[i].ingredient.value.name in m && m[init[i].ingredient.value.name] == init[i].quantity)
    ensures var item := pantry[|pantry| - 1];
      var m' := if item.ingredient.Some? && item.ingredient.value.name != "" then m[item.ingredient.value.name := item.quantity] else m;
      && (forall n :: n in m' <==> exists i :: 0 <= i < |pantry| && NamedIn(pantry[i], n))
      && (forall i :: 0 <= i < |pantry| && LastNamed(pantry, i) ==>
            pantry[i].ingredient.value.name in m' && m'[pantry[i].ingredient.value.name] == pantry[i].quantity)
  {
    var init, last := pantry[..|pantry| - 1], pantry[|pantry| - 1];
    var m' := if last.ingredient.Some? && last.ingredient.value.name != "" then m[last.ingredient.value.name := last.quantity] else m;
    forall n
      ensures n in m' <==> exists i :: 0 <= i < |pantry| && NamedIn(pantry[i], n)
    {
      if exists i :: 0 <= i < |init| && NamedIn(init[i], n) {
        var i :| 0 <= i < |init| && NamedIn(init[i], n);
        assert pantry[i] == init[i];
      }
      if exists i :: 0 <= i < |pantry| && NamedIn(pantry[i], n) {
        var i :| 0 <= i < |pantry| && NamedIn(pantry[i], n);
        if i < |init| {
          assert init[i] == pantry[i];
        }
      }
    }
    forall i | 0 <= i < |pantry| && LastNamed(pantry, i)
      ensures pantry[i].ingredient.value.name in m' && m'[pantry[i].ingredient.value.name] == pantry[i].quantity
    {
      if i < |init| {
        assert init[i] == pantry[i];
        assert !NamedIn(last, pantry[i].ingredient.value.name);
        assert LastNamed(init, i) by {
          forall j | i < j < |init|
            ensures !NamedIn(init[j], init[i].ingredient.value.name)
          {
            assert init[j] == pantry[j];
          }
        }
      }
    }
  }

  /** `pantryMap.get(name) || 0` */
  function Available(m: map<string, real>, name: string): real {
    if name in m then m[name] else 0.0
  }

  /** The comparison of one plan entry against the pantry. */
  function Usage(name: string, needed: int, available: real): (u: UsageRow)
    ensures u.name == name && u.needed == needed && u.available == available
    ensures u.fromPantry <= needed as real && u.fromPantry <= available
    ensures u.fromPantry == needed as real || u.fromPantry == available
    ensures u.shortfall >= 0.0 && u.shortfall >= needed as real - available
    ensures u.shortfall == 0.0 || u.shortfall == needed as real - available
    ensures available >= 0.0 ==> u.fromPantry + u.shortfall == needed as real
  {
    UsageRow(name, needed, available, Min(needed as real, available), Max(0.0, needed as real - available))
  }

  /** The loop of lines 131-138: a usage row per plan entry and a shopping item per row short of stock. */
  function Diff(plan: seq<Entry<int>>, stock: map<string, real>): (d: (seq<UsageRow>, seq<ShoppingItem>))
    ensures |d.0| == |plan|
    ensures forall i :: 0 <= i < |plan| ==> d.0[i] == Usage(plan[i].key, plan[i].value, Available(stock, plan[i].key))
  {
    if plan == [] then ([], [])
    else
      var u := Usage(plan[0].key, plan[0].value, Available(stock, plan[0].key));
      var rest := Diff(plan[1..], stock);
      ([u] + rest.0, (if u.shortfall > 0.0 then [ShoppingItem(u.name, u.shortfall)] else []) + rest.1)
  }

  predicate IsShort(u: UsageRow) {
    u.shortfall > 0.0
  }

  /** The shopping item of a usage row. */
  function ToBuy(rows: seq<UsageRow>): (items: seq<ShoppingItem>)
    ensures |items| == |rows|
    ensures forall i :: 0 <= i < |rows| ==> items[i] == ShoppingItem(rows[i].name, rows[i].shortfall)
  {
    seq(|rows|, i requires 0 <= i < |rows| => ShoppingItem(rows[i].name, rows[i].shortfall))
  }

  lemma ToBuyAppend(a: seq<UsageRow>, b: seq<UsageRow>)
    ensures ToBuy(a + b) == ToBuy(a) + ToBuy(b)
  {
  }

  /** The shopping list is exactly the usage rows with a shortfall, in plan order, each for its shortfall. */
  lemma {:induction false} ShoppingListIsShortRows(plan: seq<Entry<int>>, stock: map<string, real>)
    ensures Diff(plan, stock).1 == ToBuy(Filter(Diff(plan, stock).0, IsShort))
  {
    if plan != [] {
      var d := Diff(plan, stock);
      var rest := Diff(plan[1..], stock);
      ShoppingListIsShortRows(plan[1..], stock);
      var u := d.0[0];
      assert d.0[1..] == rest.0;
      if IsShort(u) {
        assert Filter(d.0, IsShort) == [u] + Filter(rest.0, IsShort);
        ToBuyAppend([u], Filter(rest.0, IsShort));
        assert d.1 == [ShoppingItem(u.name, u.shortfall)] + rest.1;
      } else {
        assert Filter(d.0, IsShort) == [] + Filter(rest.0, IsShort);
        assert d.1 == [] + rest.1;
      }
    }
  }

  /** With no negative quantity in the pantry, each row's pantry part and shortfall add up to the need. */
  lemma UsageAddsUp(plan: seq<Entry<int>>, pantry: seq<PantryEntry>)
    requires forall i :: 0 <= i < |pantry| ==> pantry[i].quantity >= 0.0
    ensures forall i :: 0 <= i < |plan| ==>
      Diff(plan, PantryMap(pantry)).0[i].fromPantry + Diff(plan, PantryMap(pantry)).0[i].shortfall == plan[i].value as real
  {
    PantryMapNonNegative(pantry);
  }

  lemma {:induction false} PantryMapNonNegative(pantry: seq<PantryEntry>)
    requires forall i :: 0 <= i < |pantry| ==> pantry[i].quantity >= 0.0
    ensures forall n :: n in PantryMap(pantry) ==> PantryMap(pantry)[n] >= 0.0
  {
    if pantry != [] {
      PantryMapNonNegative(pantry[..|pantry| - 1]);
    }
  }

  /** The worked example: 150 g of chicken planned, 60 g in the pantry, 90 g to buy. */
  lemma ChickenExample()
    ensures
      var chicken := Ingredient(1, "Chicken", 165.0, 31.0, 0.0, 3.6, 100.0);
      var d := Diff([Entry("Chicken", 150)], PantryMap([PantryEntry(Some(chicken), 60.0)]));
      && d.0 == [UsageRow("Chicken", 150, 60.0, 60.0, 90.0)]
      && d.1 == [ShoppingItem("Chicken", 90.0)]
  {
    var chicken := Ingredient(1, "Chicken", 165.0, 31.0, 0.0, 3.6, 100.0);
    var pantry := [PantryEntry(Some(chicken), 60.0)];
    assert pantry[..0] == [];
    assert PantryMap(pantry) == map["Chicken" := 60.0];
  }

  /** The macros of the response: each total as `Number(total.toFixed(1))`. */
  function Achieved(totals: Macros): (a: Macros)
    ensures -0.05 <= a.calories - totals.calories <= 0.05
    ensures -0.05 <= a.protein - totals.protein <= 0.05
    ensures -0.05 <= a.carbs - totals.carbs <= 0.05
    ensures -0.05 <= a.fats - totals.fats <= 0.05
  {
    Macros(ToFixed1(totals.calories), ToFixed1(totals.protein), ToFixed1(totals.carbs), ToFixed1(totals.fats))
  }

  /** The success answer of `generateReverseMeal`. */
  datatype ReverseResponse = ReverseResponse(
    plan: Obj<int>,
    target: Targets,
    achieved: Macros,
    pantryUsage: seq<UsageRow>,
    shoppingList: seq<ShoppingItem>)

  /**
    `generateReverseMeal`: every target must be present (0 is accepted), the catalog
    non-empty and the reverse model solvable; the plan is then compared against the
    user's pantry.
   */
  function GenerateReverseMeal(
    b: TargetBody, catalog: seq<Ingredient>, jitter: seq<real>, lp: Model -> SolverOutput, pantry: seq<PantryEntry>)
    : (r: Result<ReverseResponse, SolverError>)
    requires AllStoredIngredients(catalog) && Draws(catalog, jitter)
    ensures r == Failure(MissingTargets) <==> !NoneNullish(b)
    ensures r == Failure(EmptyCatalog) <==> NoneNullish(b) && catalog == []
    ensures r.Success? <==>
      NoneNullish(b) && catalog != [] &&
      SolveFromAllIngredients(TargetsOf(b), catalog, DefaultMaxPerIngredient, jitter, lp).Some?
    ensures r.Success? ==>
      && NoneNullish(b) && catalog != []
      && var s := SolveFromAllIngredients(TargetsOf(b), catalog, DefaultMaxPerIngredient, jitter, lp);
      && s.Some? && r.value.plan == s.value.plan && r.value.target == TargetsOf(b)
      && r.value.achieved == Achieved(s.value.totals)
      && (r.value.pantryUsage, r.value.shoppingList) == Diff(Entries(s.value.plan), PantryMap(pantry))
    ensures r == Failure(NoCatalogSolution) <==>
      NoneNullish(b) && catalog != [] &&
      SolveFromAllIngredients(TargetsOf(b), catalog, DefaultMaxPerIngredient, jitter, lp).None?
  {
    if !NoneNullish(b) then Failure(MissingTargets)
    else if catalog == [] then Failure(EmptyCatalog)
    else
      var t := TargetsOf(b);
      var s := SolveFromAllIngredients(t, catalog, DefaultMaxPerIngredient, jitter, lp);
      if s.None? then Failure(NoCatalogSolution)
      else
        var d := Diff(Entries(s.value.plan), PantryMap(pantry));
        Success(ReverseResponse(s.value.plan, t, Achieved(s.value.totals), d.0, d.1))
  }

  /** A zero target is refused by the forward request and accepted by the reverse one. */
  lemma ZeroTarget(catalog: seq<Ingredient>, jitter: seq<real>, lp: Model -> SolverOutput,
                   pantry: seq<PantryEntry>, solveMultiple: (Targets, seq<PantryEntry>, nat) -> seq<int>)
    requires AllStoredIngredients(catalog) && Draws(catalog, jitter)
    ensures
      var b := TargetBody(Number(0.0), Number(150.0), Number(60.0));
      && GenerateMeal(b, pantry, solveMultiple) == Failure(MissingTargets)
      && GenerateReverseMeal(b, catalog, jitter, lp, pantry) != Failure(MissingTargets)
  {
  }
}
